=== FILE: README.md ===
# FasterDictionary, modelled in Dafny

FasterDictionary is a key/value dictionary that sits in front of Microsoft FASTER. Callers never touch
the store directly. `Upsert`, `TryGet`, `Remove`, `Ping`, `Save` and `Dispose` each build a *job* with
an awaitable completion handle and put it on a queue. One consumer task serves the jobs in queue order
against a FASTER session. Snapshot iteration is served the same way: acquiring an iterator replays the
live log into a temporary store of keys, and each `MoveNextAsync` asks the consumer for the next key.
Keys and values travel to the log through stream serializers: a one-byte envelope tag, a big-endian
length, then the payload. A bucket payload is padded to a multiple of the bucket padding size.

The model has these modules, in dependency order:

- `Wrappers`: `Option` and `Result`.
- `Bytes`: C# `int` wrap-around, and the `WriteInt32`/`ReadInt32`/`WriteInt24`/`ReadInt24` stream
  helpers as functions on byte sequences with a position. Also `BitConverter` for `int`, taken as
  little-endian.
- `Padding`: the bucket padding loops `ComsumePadding` and `ProducePadding`.
- `Serializers`: the content, int, bucket, key-envelope and value-envelope serializers. Each comes with
  the round trip "what the writer put at position `i` is read back from `i`, and the reader stops at
  its end".
- `Callbacks`: the read `Context` with `CompleteRead` and `Consume`, and the FASTER callbacks.
- `Engine`: FASTER as the dictionary sees it. It is a record log whose replay is the store, with a
  safe-read-only address. Read, Upsert and Delete each take an `Io` parameter: served from memory,
  pending on disk, faulted with `ERROR`, or throwing.
- `Jobs`: jobs, `JobTypes`, the first-completion-wins handle, and the public calls that enqueue jobs.
- `Settings`: `MemorySizes`, `Options.Default`, the constructor's option merge, and the log settings.
- `Snapshot`: the pure parts of iteration. These are the temporary store built by replay,
  `LogScanForValidity`, the key iterator, `GetBucketId` and `MoveNextAsync`.
- `Actor`: the consumer. It has a handler per job type, `ServeJob` as `Step`, and `ConsumeJobs` as
  `Run`.
- `Scenarios`: a plain map as reference semantics, the proof that the actor refines it while the engine
  serves from memory, and the usage tests (add/get, add/update/get, add/get/remove, add/iterate,
  add/save/restart) as lemmas about the model.
- `IterateScenarios`: the tests' `await foreach` loops (add/iterate, add/restart/iterate, and the
  update-then-iterate of the restart tests) as lemmas about whole runs of the consumer.
- `StringArrays`: the `string[]` key comparer of the tests' helper, with equality and a 64-bit hash.

What is a parameter instead of code:

- The JSON encoder and decoder are a `Json<T>` pair of functions. The round-trip lemmas assume only
  that they are inverse.
- What the engine does during one job is an `Io` value. It is served, pending, faulted, or throws with
  a message.
- The movement of the safe-read-only address is a per-job number.
- The checkpoint directory's contents are the list of logs saved so far (`disk`).
- Whether the options carry a `Logger` is the state's `logged` flag, fixed at `Actor.Start`.
  `Options.Default` carries none, and neither do the read/write tests' options; the restart tests'
  options do. Without one, every logging call in a callback raises a null reference.
- Whether `IterationContextState.Kill` raises is the release job's `Io`: `Throws` if it raises,
  anything else if it returns. `Kill` is an extension method that is not part of this model, so it is
  not known whether it raises on a null state.

Assumptions about FASTER that the model rests on, since nothing in the dictionary's code fixes them:

- Engine.Delete: a delete served from memory answers OK exactly when the key is in the replayed store,
  and otherwise answers NOTFOUND and writes nothing; a delete that goes to disk answers PENDING and its
  tombstone is written. FASTER derives the status from its hash index and log regions, which are not
  modelled, so a hash-tag collision or a repeated delete may answer differently there.
- Engine.DeleteRemoves: its "OK exactly when present" clause, and through it the found flag of a
  remove in `Actor.RemoveCompletes`, `Scenarios.StepRefinesAnswer`, `Scenarios.RunRefinesDictionary`
  and `Scenarios.RemoveKeepsOthers`, rests on the assumption above.
- Snapshot.TempUpsertLive: the temporary store updates in place. An upsert of a key that is already
  live there changes nothing; only a key with no live record gets a new record.
- Snapshot.TempDeleteLive: a delete in the temporary store turns the key's latest record into a
  tombstone in place. Only a key with no record gets a new tombstone record. Together with
  `TempUpsertLive`, this gives "each key once" in `Snapshot.SnapshotEnumeratesStore` and
  `Actor.AcquireThenIterate`.

### Behaviour worth noting

These are modelled as the code has them.

- **Iteration reads the live store.** `ServeIteration` takes the next key from the snapshot, but
  answers it with a read of the live store. A key removed after the acquire is therefore reported as
  not found with its key. `MoveNextAsync` then returns false, so the enumeration ends early instead of
  showing the snapshot's value. See `Actor.IterateServesNextKey`.
- **`ReadResult` has a key.** `FasterDictionary.cs` still holds an older `Job` class and a keyless
  `ReadResult` (lines 315-377). The model follows `FasterDictionary.Job.cs`, whose `Complete` stores
  the job's key in the result.
- **A pending remove is never reported found.** The delete's completion callback only logs and fills
  no context. With a logger, `ServeRemove` consumes an empty context and answers not found. Without
  one, the callback's logging call raises and the job fails with a null reference. Either way the
  key is removed. See `Actor.PendingRemoveNeverFound`.
- **Iterator jobs are dispatched.** The `JobTypes` enum and the `ServeJob` switch in
  `FasterDictionary.cs` have no iterator members. `Step` dispatches them to the iterator handlers, as
  the iterator's calls require. `Jobs.Code` gives them no enum value.
- **`ServeGetContent` is not part of this model.** `ServeIteration` calls it after setting the job's
  key. It is modelled as `ServeGet`.

## Model

| member | source | states |
|---|---|---|
| Bytes.Wrap32Congruent | src/FasterDictionary/Utilities.cs:29-36 | C#'s unchecked int result differs from the true sum by a whole number of 2^32 laps |
| Bytes.Wrap32Unique | src/FasterDictionary/Utilities.cs:29-36 | the int32 congruent to a value modulo 2^32 is unique, so any such int32 is the wrapped value |
| Bytes.WriteInt32Digits | src/FasterDictionary/Utilities.cs:20-26 | the four bytes written, read as base-256 digits most significant first, spell the value's two's-complement representation |
| Bytes.WriteInt24Digits | src/FasterDictionary/Utilities.cs:38-44 | the three bytes written spell the value modulo 2^24; the top byte is dropped |
| Bytes.ReadByte | src/FasterDictionary/Utilities.cs:31-34 | `Stream.ReadByte` gives the byte at the position and advances by one; at or past the end it gives -1 and does not move |
| Bytes.WrapEachStep | src/FasterDictionary/Utilities.cs:31-35 | wrapping after every shift and every `+=` of the reader gives the same int as wrapping the plain sum once |
| Bytes.ReadInt32Present | src/FasterDictionary/Utilities.cs:29-36 | with four bytes available, `ReadInt32` yields their big-endian value as a signed int and advances by four |
| Bytes.ReadInt24Present | src/FasterDictionary/Utilities.cs:47-53 | with three bytes available, `ReadInt24` yields their big-endian value, which is never negative, and advances by three |
| Bytes.ReadInt32At | src/FasterDictionary/Utilities.cs:20-36 | where `WriteInt32` wrote a value, `ReadInt32` reads that same value back and stops right after it |
| Bytes.ReadWriteInt32 | src/FasterDictionary/Utilities.cs:20-36 | round trip in any surrounding stream: reading after the prefix yields the written int and position prefix+4 |
| Bytes.ReadInt24At | src/FasterDictionary/Utilities.cs:38-53 | where `WriteInt24` wrote a value, `ReadInt24` yields it modulo 2^24 and stops right after it |
| Bytes.ReadWriteInt24 | src/FasterDictionary/Utilities.cs:38-53 | the 24-bit round trip in any stream: exact for values in [0, 2^24), otherwise reduced modulo 2^24 |
| Bytes.AtSplit | src/FasterDictionary/FasterDictionary.Serializers.cs:197-198 | a length followed by a payload lies in the stream as two consecutive pieces |
| Bytes.LittleEndianDigits | src/FasterDictionary/FasterDictionary.Serializers.cs:168 | the four `BitConverter.GetBytes` bytes, least significant first, spell the value's two's-complement representation |
| Bytes.LittleEndianRoundTrip | src/FasterDictionary/FasterDictionary.Serializers.cs:118 | `BitConverter.ToInt32` of `BitConverter.GetBytes(v)` is `v` |
| Padding.Fold | src/FasterDictionary/FasterDictionary.Serializers.cs:135-136 | the folding loop leaves a size above the padding in (0, p], and leaves a size at or below p unchanged |
| Padding.FoldLaps | src/FasterDictionary/FasterDictionary.Serializers.cs:135-136 | folding removes whole multiples of the padding size |
| Padding.SkipAligns | src/FasterDictionary/FasterDictionary.Serializers.cs:133-141 | the payload plus what the reader skips is a whole, non-zero number of padding blocks; an empty payload skips a full block |
| Padding.ConsumePadding | src/FasterDictionary/FasterDictionary.Serializers.cs:133-141 | the reader moves to the end of the padding block the payload ends in |
| Padding.ProducePadding | src/FasterDictionary/FasterDictionary.Serializers.cs:155-164 | as written, the writer emits zero bytes numbering one more than the reader skips |
| Padding.ProducePaddingFixed | src/FasterDictionary/FasterDictionary.Serializers.cs:155-164 | corrected writer: exactly the zero bytes the reader skips, so payload and padding fill whole blocks |
| Serializers.Payload | src/FasterDictionary/FasterDictionary.Serializers.cs:175-195 | payload per content kind: a byte array as is, an int as its `BitConverter` bytes, other values as their JSON; only a null byte array fails |
| Serializers.SerializeContent | src/FasterDictionary/FasterDictionary.Serializers.cs:175-199 | the length prefix is followed by exactly the payload; a null byte array cannot be written |
| Serializers.ContentWritten | src/FasterDictionary/FasterDictionary.Serializers.cs:175-199 | what the writer leaves in the stream, whether it returns or throws: the framed payload, or for a null byte array the four-byte length 0 written before the throw |
| Serializers.NullContentReadsEmpty | src/FasterDictionary/FasterDictionary.Serializers.cs:94-109 | the length 0 a null byte array leaves behind is read back as an empty byte array, four bytes further on |
| Serializers.ReadBlock | src/FasterDictionary/FasterDictionary.Serializers.cs:97-99 | reading into a fresh `byte[n]` yields n bytes: the stream's slice when present |
| Serializers.ReadFramedAt | src/FasterDictionary/FasterDictionary.Serializers.cs:96-99 | a length-prefixed block is read back whole and the reader stops at its end |
| Serializers.ContentAt | src/FasterDictionary/FasterDictionary.Serializers.cs:94-109 | a byte-array or JSON content written at a position is read back with its kind and the reader stops at its end |
| Serializers.IntContentMisread | src/FasterDictionary/FasterDictionary.Serializers.cs:105-108 | as written, an int content's four raw bytes are handed to the JSON reader, so what comes back is whatever the JSON reader makes of them |
| Serializers.IntContentMisreadWitness | src/FasterDictionary/FasterDictionary.Serializers.cs:186-190 | the bytes of 0x31323334 are the JSON text 4321, a different int |
| Serializers.IntAt | src/FasterDictionary/FasterDictionary.Serializers.cs:112-119 | the `int` overloads round-trip: an int written at a position is read back and the reader advances by eight |
| Serializers.ContentAtFixed | src/FasterDictionary/FasterDictionary.Serializers.cs:94-119 | with an int branch in the reader, every writable content round-trips, ints included |
| Serializers.SerializeBucket | src/FasterDictionary/FasterDictionary.Serializers.cs:143-153 | a bucket's record is four length bytes, the JSON, and one byte more padding than the reader skips |
| Serializers.BucketFixedAligned | src/FasterDictionary/FasterDictionary.Serializers.cs:143-164 | with the corrected padding, payload and padding together are a whole, non-zero number of padding blocks |
| Serializers.BucketAt | src/FasterDictionary/FasterDictionary.Serializers.cs:121-131 | a framed bucket is read back, and the reader skips to the end of the padding block the payload ends in |
| Serializers.BucketReadStopsShort | src/FasterDictionary/FasterDictionary.Serializers.cs:121-164 | as written, the bucket reader gets the bucket back but stops one byte before the end of what the writer wrote |
| Serializers.BucketAtFixed | src/FasterDictionary/FasterDictionary.Serializers.cs:121-164 | with the corrected padding, the bucket reader stops exactly at the end of the record |
| Serializers.SerializeKey | src/FasterDictionary/FasterDictionary.Serializers.cs:30-38 | a key record starts with the envelope's tag; only a null byte-array key cannot be written |
| Serializers.KeyContentAt | src/FasterDictionary/FasterDictionary.Serializers.cs:21-28 | a content key is read back through the tag branch and the reader stops at its end |
| Serializers.KeyBucketAt | src/FasterDictionary/FasterDictionary.Serializers.cs:21-28 | a bucket-id key is read back whatever the content type is |
| Serializers.KeyAt | src/FasterDictionary/FasterDictionary.Serializers.cs:19-39 | every key envelope the writer accepts is read back whole, and the reader stops at its end |
| Serializers.SerializeValue | src/FasterDictionary/FasterDictionary.Serializers.cs:53-70 | a value record starts with the envelope's tag; only a null byte-array value cannot be written |
| Serializers.ValueContentAt | src/FasterDictionary/FasterDictionary.Serializers.cs:43-70 | a content value is read back and the reader stops at its end |
| Serializers.ValueBucketAt | src/FasterDictionary/FasterDictionary.Serializers.cs:43-70 | a bucket value is read back, and the reader stops one byte short of the record's end |
| Serializers.ValueAt | src/FasterDictionary/FasterDictionary.Serializers.cs:41-71 | every value envelope the writer accepts is read back: content values up to the end, buckets up to one byte before it |
| Callbacks.Fresh | src/FasterDictionary/FasterDictionary.Types.cs:42-47 | a new context reports NOTFOUND with no output |
| Callbacks.CompleteRead | src/FasterDictionary/FasterDictionary.Types.cs:49-53 | a completed read leaves its status and output in the context |
| Callbacks.Consume | src/FasterDictionary/FasterDictionary.Types.cs:55-62 | consuming hands out the held status and output and leaves a context equal to a new one |
| Callbacks.ConsumeSeesLatest | src/FasterDictionary/FasterDictionary.Types.cs:42-62 | over any history, `Consume` returns the latest completion made after the latest consume, and NOTFOUND with no output when there is none |
| Callbacks.SameSize | src/FasterDictionary/FasterDictionary.Types.cs:26-29 | sizes are never reported equal |
| Callbacks.ConcurrentWriter | src/FasterDictionary/FasterDictionary.Types.cs:92-99 | the in-place writer always refuses and leaves the destination unchanged, so every upsert appends a record |
| Callbacks.InPlaceUpdater | src/FasterDictionary/FasterDictionary.Types.cs:101-108 | the in-place updater always refuses and leaves the value unchanged |
| Engine.ReplayLookup | src/FasterDictionary/FasterDictionary.cs:224-263 | replaying the append-only log gives each key the value of its latest record, or no entry when the latest is a tombstone |
| Engine.Advance | src/FasterDictionary/FasterDictionary.Iterator.cs:258-261 | the safe-read-only address only moves forward and never passes the tail |
| Engine.Read | src/FasterDictionary/FasterDictionary.cs:258-263 | a read from memory answers OK or NOTFOUND, a disk read answers PENDING with no output, a fault answers ERROR, and only a throwing engine fails |
| Engine.ReadServed | src/FasterDictionary/FasterDictionary.Types.cs:137-140 | a read from memory is OK with the stored value exactly when the key is in the store |
| Engine.Delete | src/FasterDictionary/FasterDictionary.cs:224 | a fault answers ERROR and writes nothing; a disk delete answers PENDING; a memory delete answers OK or NOTFOUND (the statuses are an assumption about FASTER, listed above the table) |
| Engine.UpsertStores | src/FasterDictionary/FasterDictionary.cs:291 | a written upsert maps the key to the new value and leaves every other key as it was |
| Engine.DeleteRemoves | src/FasterDictionary/FasterDictionary.cs:224 | a written delete takes the key out, leaves every other key alone, and, under the assumed statuses, answers OK from memory exactly when the key was present |
| Jobs.Code | src/FasterDictionary/FasterDictionary.cs:305-314 | every `JobTypes` member has an enum value; the iterator jobs have none |
| Jobs.CodeInjective | src/FasterDictionary/FasterDictionary.cs:305-314 | distinct job types have distinct enum values |
| Jobs.NewJobWithInput | src/FasterDictionary/FasterDictionary.Job.cs:18-25 | the job carries the key, the input and the type, and has a completion handle |
| Jobs.NewJobWithKey | src/FasterDictionary/FasterDictionary.Job.cs:27-32 | the job carries the key and the type; the input keeps its default |
| Jobs.NewJob | src/FasterDictionary/FasterDictionary.Job.cs:34-38 | the job carries only its type |
| Jobs.TrySet | src/FasterDictionary/FasterDictionary.Job.cs:40-41 | only a waiting handle takes a result or an exception; a settled one keeps its outcome |
| Jobs.Complete | src/FasterDictionary/FasterDictionary.Job.cs:40-41 | a result carries found, the job's key and the value; an exception fails the handle; without a handle nothing happens |
| Jobs.FirstCompletionWins | src/FasterDictionary/FasterDictionary.Job.cs:40-41 | after any series of completions, the handle holds the first one's outcome, and it is waiting only when there was none |
| Jobs.NoOpNeverSettles | src/FasterDictionary/FasterDictionary.Job.cs:40-41 | a job without a handle is never settled, whatever is attempted |
| Jobs.JobCarriesRequest | src/FasterDictionary/FasterDictionary.API.cs:34-67 | each public call builds a job from which the call, with its key and value, is recovered exactly |
| Jobs.Enqueue | src/FasterDictionary/FasterDictionary.cs:380-386 | the job goes at the back of the queue, and the jobs before it are unchanged |
| Jobs.EnqueueAllInOrder | src/FasterDictionary/FasterDictionary.cs:380-386 | calls made one after another leave one job each, in call order, behind the jobs already queued |
| Settings.Pow2Add | src/FasterDictionary/FasterDictionary.API.cs:9-22 | powers of two add in the exponent, so each next `MemorySizes` member doubles the size |
| Settings.MemorySizesAreLog2 | src/FasterDictionary/FasterDictionary.API.cs:9-22 | each MBk member is log2 of k megabytes; GB1 equals MB1024 and GB2 is 2048 MB |
| Settings.Zero | src/FasterDictionary/FasterDictionary.Options.cs:27-39 | `default(Options)` has null references, zero sizes, no delete-on-close, and the Snapshot checkpoint type |
| Settings.Default | src/FasterDictionary/FasterDictionary.Options.cs:19-24 | the defaults are 16 MB of memory, 4 MB pages and 8 MB segments, with every other field at zero |
| Settings.MergeKeepsCallerOptions | src/FasterDictionary/FasterDictionary.cs:17-39 | without a persist directory the result is exactly the defaults; with one, the caller's path, name, comparer, logger, delete-on-close flag and checkpoint type are kept, and each size is the caller's unless it is zero |
| Settings.MergeIdempotent | src/FasterDictionary/FasterDictionary.cs:17-39 | merging merged options changes nothing |
| Settings.LogSettingsOf | src/FasterDictionary/FasterDictionary.cs:78-85 | the size members go to the log as bit counts, unchanged |
| Settings.DefaultLogLayout | src/FasterDictionary/FasterDictionary.cs:78-85 | with the defaults, a page is smaller than a segment, which is smaller than the memory |
| Snapshot.Latest | src/FasterDictionary/FasterDictionary.Iterator.cs:226-229 | the index of a key's latest temporary record: it has the key and no later record does; none when the key never occurs |
| Snapshot.TempUpsertLive | src/FasterDictionary/FasterDictionary.Iterator.cs:229 | an upsert into the temporary store keeps it well formed and makes exactly the key live in addition |
| Snapshot.TempDeleteLive | src/FasterDictionary/FasterDictionary.Iterator.cs:227 | a delete keeps the temporary store well formed and takes exactly the key out of the live keys |
| Snapshot.RebuildMatchesReplay | src/FasterDictionary/FasterDictionary.Iterator.cs:219-231 | after replaying the live log, a key is live in the temporary store exactly when it is in the store the log stands for |
| Snapshot.DeletedSeenStep | src/FasterDictionary/FasterDictionary.Iterator.cs:263-268 | deleting one more scanned record's key extends the "every scanned key deleted" relation by one |
| Snapshot.LogScanForValidity | src/FasterDictionary/FasterDictionary.Iterator.cs:254-270 | the loop ends only once the scan has caught up with the last safe-read-only address it read, never past the tail; every key of the scanned range is deleted from the temporary store; started at or past the address, it changes nothing |
| Snapshot.ScanFromTailIsIdle | src/FasterDictionary/FasterDictionary.Iterator.cs:233-235 | as the acquire calls it, with the scan start at the tail it just recorded: the temporary store stays the rebuild of the whole live log, the until address ends at the tail, and the safe-read-only address is read exactly once |
| Snapshot.Next | src/FasterDictionary/FasterDictionary.Iterator.cs:174-183 | the key iterator returns the first non-tombstone record at or after the cursor and skips only tombstones; it is exhausted when only tombstones remain |
| Snapshot.EnumerateLive | src/FasterDictionary/FasterDictionary.Iterator.cs:174-183 | from any cursor the iterator hands out exactly the keys live at or after it, each once |
| Snapshot.SnapshotEnumeratesStore | src/FasterDictionary/FasterDictionary.Iterator.cs:219-243 | iterating the rebuilt temporary store yields every key of the store, each once, and no other |
| Snapshot.TruncRem | src/FasterDictionary/FasterDictionary.Iterator.cs:48 | C#'s `%` takes the dividend's sign and completes truncating division |
| Snapshot.GetBucketId | src/FasterDictionary/FasterDictionary.Iterator.cs:46-49 | a non-negative hash gets a bucket id in [1, 512]; a negative one gets an id in [-510, 1] |
| Snapshot.NegativeHashBucket | src/FasterDictionary/FasterDictionary.Iterator.cs:46-49 | hashes -1 and -511 give bucket ids 0 and -510, outside 1..512 |
| Snapshot.MoveNext | src/FasterDictionary/FasterDictionary.Iterator.cs:89-100 | `MoveNextAsync` first awaits the acquire: a failed acquire rethrows its exception and enqueues nothing; after a successful one it enqueues one iterate job and is true exactly when that job found a key, the current entry then being its key and value; a failed iterate job rethrows |
| Actor.Start | src/FasterDictionary/FasterDictionary.cs:109-111 | the consumer starts from the latest checkpoint when there is one and from an empty log otherwise, with no iteration, a new context, and the logger the options carry |
| Actor.GetCompletion | src/FasterDictionary/FasterDictionary.cs:270-282 | a read completes unless its status stayed PENDING |
| Actor.ServeGet | src/FasterDictionary/FasterDictionary.cs:250-283 | a read changes neither the log, the iteration, the disk nor the stop flag, and takes one serial number |
| Actor.RemoveCompletion | src/FasterDictionary/FasterDictionary.cs:236-247 | a remove completes unless its status stayed PENDING |
| Actor.Step | src/FasterDictionary/FasterDictionary.cs:140-170 | serving a job keeps the invariant; upsert, read and remove take one serial number, an iterate that hands out a key takes one too, and no other job takes any; the consumer stops exactly on Dispose or on a release whose `Kill` raises |
| Actor.Run | src/FasterDictionary/FasterDictionary.cs:115-128 | the consumer keeps the invariant and gives each queued job an outcome |
| Actor.UpsertCompletes | src/FasterDictionary/FasterDictionary.cs:285-301 | an upsert completes with found and the submitted value, and the store maps the key to it; an engine exception reaches the caller with the store unchanged; an engine error still reports success |
| Actor.GetCompletes | src/FasterDictionary/FasterDictionary.cs:250-283 | a read finds the stored value exactly when the key is in the store, whether served or pending; an engine error is a read error; an engine exception is passed on; only the serial number and context change |
| Actor.RemoveCompletes | src/FasterDictionary/FasterDictionary.cs:217-248 | a remove served from memory reports found exactly when the key was present and removes it; a pending remove removes it too, but with a logger it reports not found and without one it fails with a null reference from the delete's completion callback; an error or exception leaves the store alone |
| Actor.PingChangesNothing | src/FasterDictionary/FasterDictionary.cs:190-193 | a ping completes with not found and leaves the state as it was |
| Actor.SaveThenRestart | src/FasterDictionary/FasterDictionary.cs:172-188 | a completed save puts the log on disk, and the next start recovers the same store |
| Actor.AcquireWhileBusy | src/FasterDictionary/FasterDictionary.Iterator.cs:199-205 | acquiring during an iteration fails with "Iteration already in progress" and changes nothing |
| Actor.AcquireSnapshotsStore | src/FasterDictionary/FasterDictionary.Iterator.cs:199-252 | a successful acquire records the tail and an iterator that will hand out exactly the store's keys, each once; nothing else changes |
| Actor.IterateServesNextKey | src/FasterDictionary/FasterDictionary.Iterator.cs:167-197 | iterating advances past the next live snapshot key and answers it from the live store; at the end it completes with not found |
| Actor.IterateWithoutIterator | src/FasterDictionary/FasterDictionary.Iterator.cs:167-197 | iterating without an iteration state fails with a null reference and changes nothing |
| Actor.ReleaseThenAcquire | src/FasterDictionary/FasterDictionary.Iterator.cs:160-165 | a release whose `Kill` returns drops the iteration, if any, and completes with not found, and the next acquire succeeds |
| Actor.ReleaseKillRaises | src/FasterDictionary/FasterDictionary.Iterator.cs:160-165 | a release whose `Kill` raises stops the consumer with the iteration left in place; that job and every job behind it keep waiting |
| Actor.NothingServedAfterDispose | src/FasterDictionary/FasterDictionary.cs:117-124 | once a Dispose is served the consumer stops; every job queued behind it keeps waiting |
| Actor.RunAppend | src/FasterDictionary/FasterDictionary.cs:115-128 | serving two queues one after the other is serving their concatenation: the second starts from the state the first leaves, and the outcomes are concatenated |
| Actor.RunKeepsContextFresh | src/FasterDictionary/FasterDictionary.cs:258-263 | a run of jobs starting from a new read context ends with a new read context, since every pending read consumes its completion |
| Actor.StepKeepsLogger | src/FasterDictionary/FasterDictionary.cs:60-62 | no job changes whether a logger is configured |
| Actor.RunKeepsLogger | src/FasterDictionary/FasterDictionary.cs:60-62 | the logger the consumer was built with stays for the whole run |
| Actor.PendingRemoveNeverFound | src/FasterDictionary/FasterDictionary.cs:217-247 | after any run, a remove that goes pending removes the key but is never reported found: with a logger the context it consumes holds no completion, so it is not found; without one the delete's completion callback raises a null reference, which the job completes with (src/FasterDictionary/FasterDictionary.Types.cs:115-118) |
| Actor.IterateRun | src/FasterDictionary/FasterDictionary.Iterator.cs:167-197 | m iterate jobs on an iteration in progress leave the log alone and answer, in order, the next m snapshot keys from the live store, then not found |
| Actor.AcquireThenIterate | src/FasterDictionary/FasterDictionary.Iterator.cs:167-252 | an acquire followed by m iterate jobs: the acquire succeeds, and the iterate jobs answer the snapshot keys in order, which are exactly the store's keys, each once |
| Actor.EnumeratorYieldsStore | src/FasterDictionary/FasterDictionary.Iterator.cs:89-100 | `MoveNextAsync` after a successful acquire yields the i-th snapshot key with its stored value while keys remain, and false afterwards |
| Actor.EnumeratorWhileBusy | src/FasterDictionary/FasterDictionary.Iterator.cs:89-100 | an enumerator started while another iteration is in progress throws "Iteration already in progress" from its first `MoveNextAsync` and enqueues nothing |
| Scenarios.DictionaryAppend | src/FasterDictionary/FasterDictionary.cs:115-128 | in the reference map, calls in two batches answer as the batches served one after the other |
| Scenarios.DictionaryTail | src/FasterDictionary/FasterDictionary.cs:115-128 | the second batch's answers depend only on the map the first batch left |
| Scenarios.StepRefinesAnswer | src/FasterDictionary/FasterDictionary.cs:140-301 | one job served from memory answers as the reference map, and the store moves as the map does; a save puts the log on disk |
| Scenarios.RunRefinesDictionary | src/FasterDictionary/FasterDictionary.cs:115-128 | while the engine serves from memory and no Dispose is queued, the actor answers every call as the reference map, and its store is the map |
| Scenarios.UpsertsStore | tests/FasterDictionary.Tests/ReadWrite/ReadWriteTests.cs:47-48 | upserting keys 0..n-1 maps each to its value and leaves every other key as it was |
| Scenarios.GetsAnswer | tests/FasterDictionary.Tests/ReadWrite/ReadWriteTests.cs:52-60 | reads leave the map alone and each answers found exactly for keys in the map |
| Scenarios.FromEmptyIsDictionary | src/FasterDictionary/FasterDictionary.cs:109-128 | a fresh dictionary with an empty disk, served from memory, answers as the reference map from the empty map |
| Scenarios.ReadsUpToAfter | tests/FasterDictionary.Tests/ReadWrite/ReadWriteTests.cs:52-60 | the actor's answer to the read of key i after a batch is the map's answer for key i |
| Scenarios.ReadYourWrites | tests/FasterDictionary.Tests/ReadWrite/ReadWriteTests.cs:42-61 | after upserting f(i) under each i below n and a ping, the read of each i below n finds f(i), and the read of n is not found |
| Scenarios.TwoRounds | tests/FasterDictionary.Tests/ReadWrite/ReadWriteTests.cs:108-115 | after two upsert rounds over the same keys, the map holds the second round's values |
| Scenarios.LastWriterWins | tests/FasterDictionary.Tests/ReadWrite/ReadWriteTests.cs:104-131 | after upserting f(i) and then g(i) under each i below n, the reads find g(i), and the read of n is not found |
| Scenarios.UpsertThenRemove | tests/FasterDictionary.Tests/ReadWrite/ReadWriteTests.cs:140-160 | after upserting f(i) under each i below n and removing a list of keys, the map holds exactly the keys below n not removed, each with f of it |
| Scenarios.RemoveKeepsOthers | tests/FasterDictionary.Tests/ReadWrite/ReadWriteTests.cs:140-175 | after the removes of the keys that are not multiples of 5, the actor's read of each i below n finds f(i) exactly when i is a multiple of 5, and is not found otherwise |
| Scenarios.SaveReachesDisk | src/FasterDictionary/FasterDictionary.cs:172-188 | when a run from memory ends with a save, the last checkpoint on disk is the log the run ended with |
| Scenarios.RestartRecoversDictionary | tests/FasterDictionary.Tests/Recover/RecoverTests.cs:51-70 | a dictionary restarted on the disk a saving session left holds exactly the map that session's calls built |
| Scenarios.RecoverAfterSave | tests/FasterDictionary.Tests/Recover/RecoverTests.cs:393-436 | after a session of upserts, a ping and a save, a restarted dictionary finds f(i) under each i below n, and n is not found |
| IterateScenarios.EnumerationOf | src/FasterDictionary/FasterDictionary.Iterator.cs:89-100 | from any state with no iteration, an acquire and one more iterate job than there are keys: the acquire succeeds, each key of the store is handed out once with its value, and the last `MoveNextAsync` is false |
| IterateScenarios.EnumerationAfter | tests/FasterDictionary.Tests/ReadWrite/ReadWriteTests.cs:73-97 | the same enumeration served after a session of calls, on the state that session leaves |
| IterateScenarios.IterateAfterWrites | tests/FasterDictionary.Tests/ReadWrite/ReadWriteTests.cs:73-97 | after upserting f(i) under each i below n and a ping, an `await foreach` hands out exactly the keys below n, each once with f of it, and then ends |
| IterateScenarios.RecoverThenIterate | tests/FasterDictionary.Tests/Recover/RecoverTests.cs:51-95 | on the dictionary restarted after the saving session, an `await foreach` hands out exactly the n keys below n, each once with f of it, and then ends |
| IterateScenarios.RewritesStore | tests/FasterDictionary.Tests/Recover/RecoverTests.cs:150-164 | removing the multiples of 4 below n and upserting g(i) under the other keys below n changes exactly the keys below n, and leaves every other key as it was |
| IterateScenarios.RewriteThenIterate | tests/FasterDictionary.Tests/Recover/RecoverTests.cs:150-204 | after the rewrite session is saved and the dictionary restarted, an `await foreach` hands out exactly the keys below n that are not multiples of 4, each once with g of it, so the count equals the number of upserts |
| StringArrays.Equals | tests/FasterDictionary.Tests/Util/TestHelper.cs:25-41 | a null first array equals only a null second; a non-null first against a null second throws a null reference; two arrays are equal exactly when they have the same elements |
| StringArrays.Wrap32Step | tests/FasterDictionary.Tests/Util/TestHelper.cs:63-64 | wrapping after each `r * c + c` step is wrapping once at the end |
| StringArrays.StringHashCode | tests/FasterDictionary.Tests/Util/TestHelper.cs:56-69 | the loop computes the unbounded Horner hash, seeded with the length, over the characters' low bytes, wrapped to int; null hashes to 1 |
| StringArrays.ArrayHashCode | tests/FasterDictionary.Tests/Util/TestHelper.cs:43-54 | the loop computes the length plus the element hashes, summed in 32 bits, widened to long; null hashes to 0 |
| StringArrays.CompareAndHash | tests/FasterDictionary.Tests/Util/TestHelper.cs:23-70 | the comparer is consistent: arrays it reports equal get equal hashes, and every array is equal to itself |
| StringArrays.SumAppend | tests/FasterDictionary.Tests/Util/TestHelper.cs:50-51 | the element-hash sum is additive over concatenation |
| StringArrays.SwappedPartsCollide | tests/FasterDictionary.Tests/Util/TestHelper.cs:43-54 | swapping two blocks of elements does not change the array hash, so such arrays always collide |
| StringArrays.LowBytesDecideHash | tests/FasterDictionary.Tests/Util/TestHelper.cs:61-64 | strings of equal length whose characters agree in their low byte hash alike |

## Left out

- Channels, `Task`, `ValueTask` and `AsyncOperation`: these are the queue and the awaiting. The queue is
  a sequence of jobs, a handle is an `Outcome`, and the single consumer serves jobs one at a time. No
  concurrency between callers and the consumer is modelled.
- FASTER internals: the hash index, the hybrid log's pages and devices, checkpoint files, and record
  layout. The engine is a record log plus a safe-read-only address. The begin address is fixed at 0,
  because the dictionary never compacts or truncates the log.
- `VariableEnvelope`, `KeyEnvelope`/`ValueEnvelope` handling in the session, and
  `ValueEnvelope.ConsumeSerialized`: `ConsumeSerialized` is taken to yield the content payload the
  generic `Serialize(ref TContent)` writes (the bytes of a byte array, the `BitConverter` bytes of an
  int, the JSON of anything else).
- JSON and UTF-8: `JsonConvert` and `UTF8Encoding` are an abstract `Json<T>` pair. The round trips
  assume only that the decoder inverts the encoder.
- The numeric values of `KeyTypes`. The tags are two distinct bytes, and the enum is not part of this
  model.
- `CheckpointType` is assumed to have `Snapshot` as its zero member, as FASTER declares it.
- The read-error message omits the JSON of the key, because the JSON is abstract.
- The body of `IterationContextState.Kill` and the temporary store's sessions and devices. Whether
  `Kill` raises is a parameter, as described above.
- The text the `Logger` writes. Only whether a logger is configured is modelled. The iterator's
  "Iterator Failed" line (src/FasterDictionary/FasterDictionary.Iterator.cs:189-190) runs after the
  job is completed, so without a logger its null reference is caught and ignored.
- Actor.UpsertCompletes: with no logger, the completion callback of an upsert that went PENDING raises
  a null reference in whichever later `CompletePending` runs it. The model does not know which later
  get or remove that is, or what FASTER completes before it. So it settles a pending upsert at once
  and states nothing about that later failure.
- Actor.SaveThenRestart: `CheckpointCompletionCallback` also logs. When FASTER calls it during a save
  is not modelled, so a save with no logger is taken to complete like any other.
- `ServeGetContent` is not part of this model. It is modelled as `ServeGet`.
- `Utilities.IsValueType` and `Forget`, `BlittableHelper`, the Json.NET fallback converter, and
  `GetKeyComparer` and the other comparers of the tests' helper. Only the string-array comparer is
  modelled.
- Strings are sequences of UTF-16 code units as `char`. The hash's `(byte)` cast takes the low byte of
  each unit, which is modelled, but no Unicode normalisation takes place.
- `ServeUpsert`'s handling of a PENDING upsert: the status is ignored by the code, and the model appends
  the record at once (see `Actor.UpsertCompletes` above for the case with no logger).
- Actor handlers `ServeUpsert`, `ServeRemove`, `ServePing`, `ServeSave`, `ServeDispose`, `ServeAcquire`,
  `ServeIteration` and `ServeRelease` carry no contract of their own. Their behaviour is stated by the
  `Actor` lemmas in the table.
- Actor.Run: its contract states only the invariant and one outcome per job. What the outcomes are is
  stated by `Scenarios.RunRefinesDictionary` (from memory) and `Actor.NothingServedAfterDispose`.
- Engine.Read: its contract does not state the found value. `Engine.ReadServed` states it.
- Serializers.DeserializeContent: the as-written int branch is stated by `IntContentMisread`, not as a
  round trip, because the round trip fails.
- Scenarios: the usage tests read and remove every `step`-th key for large loop counts. The lemmas
  read every key below any n, and `UpsertThenRemove` removes any list of keys, which covers each
  step.
- The restart tests' reads and iteration before a restart, and the second session of
  `AddIterateUpdateIterate` (reads and an iteration, no save): they change neither the log nor the
  disk, so the next session starts from the same checkpoint. Their reads are covered by
  `Scenarios.RecoverAfterSave` and their iteration by `IterateScenarios.RecoverThenIterate`.
- A serializer that throws part-way through a key or value record: `Serializers.ContentWritten` states
  what a null byte array leaves behind, but `SerializeKey` and `SerializeValue` model only the records
  that are written whole.
- Snapshot.GetBucketId: GetBucketId has no caller in FasterDictionary, so the negative-hash ids are
  noted, not treated as a defect.

## Findings

| source | as written | input that shows it | evidently intended | confidence | as-written member | corrected member |
|---|---|---|---|---|---|---|
| src/FasterDictionary/FasterDictionary.Serializers.cs:94-109 | latent: the store is built with null serializer settings (src/FasterDictionary/FasterDictionary.cs:99-107), so `KeySerializer` and `ValueSerializer` are never created; once they are, `Serialize(ref TContent)` writes an `int` content as its four raw `BitConverter` bytes (186-190), but `Deserialize(ref TContent)` has no int branch and hands those bytes to the JSON reader | the int 0x31323334 is written as the bytes of the text "4321" and read back as 4321 | read an int content back with `BitConverter.ToInt32`, as `Deserialize(ref int)` does | not executed | Serializers.IntContentMisread, Serializers.IntContentMisreadWitness | Serializers.DeserializeContentFixed, Serializers.ContentAtFixed |
| src/FasterDictionary/FasterDictionary.Serializers.cs:155-164 | latent for the same reason, since the serializers are never created (src/FasterDictionary/FasterDictionary.cs:99-107); `ProducePadding`'s `while (size-- >= 0)` writes `paddingSize - folded + 1` zero bytes, but `ComsumePadding` skips `paddingSize - folded` | any bucket payload, e.g. a 10-byte bucket JSON with a padding size of 16: the writer emits 7 zero bytes and the reader skips 6, so the next record is read one byte early | write exactly the bytes the reader skips (`while (size-- > 0)`) | not executed | Padding.ProducePadding, Serializers.BucketReadStopsShort | Padding.ProducePaddingFixed, Serializers.SerializeBucketFixed, Serializers.BucketAtFixed |

=== FILE: actor.dfy ===
/** The command actor of FasterDictionary.cs and the iterator handlers of
    FasterDictionary.Iterator.cs.

    A single consumer takes jobs off the queue one at a time and serves each
    with the handler for its type; the handlers talk to the engine and
    complete the job. The actor here is a pure step function over its state —
    the engine's log, the serial-number counter, the shared read context, the
    iteration state, whether the consumer has stopped, the checkpoints on
    disk and whether a logger is configured — and `Run` folds it over a
    queue. What the engine does with each
    call (served from memory, pending, faulted, throwing) and where the
    safe-read-only address has moved come in as an `Env` per job. */
module Actor {
  import opened Wrappers
  import opened Callbacks
  import opened Engine
  import opened Jobs
  import opened Snapshot

  /** The iteration state: the live tail at acquire time, the temporary store,
      and the key iterator's position (`None` while no iterator exists). */
  datatype Iteration<K> = Iteration(until: nat, temp: seq<TempRecord<K>>, cursor: Option<nat>)

  /** The actor's state. `disk` holds the checkpoints taken so far, oldest
      first. `logged` says whether the options carried a `Logger`: the
      callbacks log through it, and without one each logging call raises a
      null reference. */
  datatype State<K, V> = State(
    log: Log<K, V>,
    serial: nat,
    ctx: Context<V>,
    iteration: Option<Iteration<K>>,
    stopped: bool,
    disk: seq<Log<K, V>>,
    logged: bool)

  /** What the engine does during one job. */
  datatype Env = Env(io: Io, safeReadOnly: nat)

  /** One served job: the state after it, the job as the handler left it (the
      iterator handler writes the key it found into the job) and the
      completions the handler attempted, in order. */
  datatype Turn<K, V> = Turn(state: State<K, V>, job: Job<K, V>, attempts: seq<Attempt<V>>)

  /** The messages of the exceptions the handlers raise themselves. The read
      error also names the key in JSON, which is not modelled. */
  const ReadError: string := "read error"
  const IterationInProgress: string := "Iteration already in progress"
  const NullReference: string := "NullReferenceException"

  /** The jobs the handlers can serve: the key, and for an upsert the input,
      are present where the handler reads them. */
  predicate Servable<K, V>(job: Job<K, V>)
  {
    match job.kind
    case UpsertJob => job.key.Some? && job.input.Some?
    case GetJob | RemoveJob => job.key.Some?
    case _ => true
  }

  /** The state invariant: the log's safe-read-only address is within the log,
      and so it is in every checkpoint. */
  ghost predicate Valid<K, V>(s: State<K, V>)
  {
    && s.log.Valid()
    && forall i :: 0 <= i < |s.disk| ==> s.disk[i].Valid()
  }

  // ---------------------------------------------------------------------------
  // Startup

  /** The consumer's startup: the engine recovers the latest checkpoint when at
      least one exists, and starts empty otherwise; the serial counter starts
      at 0 and the context is new. `logged` is whether the merged options
      carry a `Logger` (`Options.Default` does not). */
  function Start<K, V>(disk: seq<Log<K, V>>, logged: bool): (s: State<K, V>)
    requires forall i :: 0 <= i < |disk| ==> disk[i].Valid()
    ensures Valid(s) && s.disk == disk && s.serial == 0 && s.ctx == Fresh()
    ensures s.iteration.None? && !s.stopped && s.logged == logged
    ensures |disk| > 0 ==> s.log == disk[|disk| - 1]
    ensures |disk| == 0 ==> s.log.records == []
  {
    var log := if |disk| > 0 then disk[|disk| - 1] else Log([], 0);
    State(log, 0, Fresh(), None, false, disk, logged)
  }

  // ---------------------------------------------------------------------------
  // The handlers of FasterDictionary.cs

  /** `ServeUpsert`: the engine's exception completes the job first; the
      `finally` block then completes it with found and the submitted value,
      which is ignored if the exception got there first. */
  function ServeUpsert<K(==), V>(s: State<K, V>, job: Job<K, V>, io: Io): (t: Turn<K, V>)
    requires Servable(job) && job.kind.UpsertJob?
  {
    var s1 := s.(serial := s.serial + 1);
    match Upsert(s.log, job.key.value, job.input.value, io)
    case Failure(m) => Turn(s1, job, [Exception(m), Result(true, job.input)])
    case Success((_, log')) => Turn(s1.(log := log'), job, [Result(true, job.input)])
  }

  /** The completion `ServeGet` makes for the status it ends with: ERROR is a
      read error, NOTFOUND is not found, OK is found with the output, and a
      status still PENDING matches no case. */
  function GetCompletion<V>(status: Status, output: Option<V>): (a: seq<Attempt<V>>)
    ensures status == PENDING <==> a == []
  {
    match status
    case ERROR => [Exception(ReadError)]
    case NOTFOUND => [Result(false, None)]
    case OK => [Result(true, output)]
    case PENDING => []
  }

  /** `ServeGet`: read from the engine; on PENDING complete the pending read and
      take its answer out of the shared context. An exception completes the
      job and leaves the status at ERROR, which completes it once more. */
  function ServeGet<K(==), V>(s: State<K, V>, job: Job<K, V>, io: Io): (t: Turn<K, V>)
    requires job.key.Some?
    ensures t.job == job && t.state.serial == s.serial + 1
    ensures t.state.log == s.log && t.state.iteration == s.iteration
    ensures t.state.stopped == s.stopped && t.state.disk == s.disk
  {
    var k := job.key.value;
    var s1 := s.(serial := s.serial + 1);
    match Read(s.log, k, io)
    case Failure(m) => Turn(s1, job, [Exception(m)] + GetCompletion(ERROR, None))
    case Success((status, output)) =>
      if status == PENDING then
        var (status', output', ctx') := Consume(CompletePendingRead(s.log, k, s.ctx));
        Turn(s1.(ctx := ctx'), job, GetCompletion(status', output'))
      else Turn(s1, job, GetCompletion(status, output))
  }

  /** The completion `ServeRemove` makes: as for a read, except that OK
      completes with the default value. */
  function RemoveCompletion<V>(status: Status): (a: seq<Attempt<V>>)
    ensures status == PENDING <==> a == []
  {
    match status
    case ERROR => [Exception(ReadError)]
    case NOTFOUND => [Result(false, None)]
    case OK => [Result(true, None)]
    case PENDING => []
  }

  /** `ServeRemove`: delete in the engine; on PENDING complete the pending
      operation and take the status out of the shared context. The delete's
      completion callback only logs, and writes nothing to the context, so
      that status is whatever the context held. Without a logger the
      callback's logging call raises inside the `try` once the tombstone is
      written: the job completes with that exception, the context is not
      consumed, and the status left at PENDING completes nothing more. */
  function ServeRemove<K(==), V>(s: State<K, V>, job: Job<K, V>, io: Io): (t: Turn<K, V>)
    requires Servable(job) && job.kind.RemoveJob?
  {
    var k := job.key.value;
    var s1 := s.(serial := s.serial + 1);
    match Delete(s.log, k, io)
    case Failure(m) => Turn(s1, job, [Exception(m)] + RemoveCompletion(ERROR))
    case Success((status, log')) =>
      if status == PENDING then
        if !s.logged then
          Turn(s1.(log := log'), job, [Exception(NullReference)] + RemoveCompletion(PENDING))
        else
          var (status', _, ctx') := Consume(s.ctx);
          Turn(s1.(log := log', ctx := ctx'), job, RemoveCompletion(status'))
      else Turn(s1.(log := log'), job, RemoveCompletion(status))
  }

  /** `ServePing`: complete with not found. */
  function ServePing<K, V>(s: State<K, V>, job: Job<K, V>): (t: Turn<K, V>)
  {
    Turn(s, job, [Result(false, None)])
  }

  /** `ServeSave`: take a full checkpoint of the log and complete with not
      found; an exception completes the job instead. */
  function ServeSave<K, V>(s: State<K, V>, job: Job<K, V>, io: Io): (t: Turn<K, V>)
  {
    match io
    case Throws(m) => Turn(s, job, [Exception(m)])
    case _ => Turn(s.(disk := s.disk + [s.log]), job, [Result(false, None)])
  }

  /** `ServeDispose`: close the queue and the engine and complete with not
      found, or with the exception. Either way the consumer stops after it. */
  function ServeDispose<K, V>(s: State<K, V>, job: Job<K, V>, io: Io): (t: Turn<K, V>)
  {
    match io
    case Throws(m) => Turn(s.(stopped := true), job, [Exception(m)])
    case _ => Turn(s.(stopped := true), job, [Result(false, None)])
  }

  // ---------------------------------------------------------------------------
  // The iterator handlers of FasterDictionary.Iterator.cs

  /** `ServeAquireIterator`. With an iteration in progress the job fails and
      nothing changes. Otherwise the state is created first, recording the
      live tail; the live log is replayed into the temporary store, the
      validity scan runs from the tail, where it changes nothing (the method
      `ScanFromTailIsIdle` runs it), and the key iterator starts at the
      beginning of the temporary log. An exception past the creation leaves the state in
      place without a key iterator. */
  function ServeAcquire<K(==), V>(s: State<K, V>, job: Job<K, V>, io: Io): (t: Turn<K, V>)
  {
    if s.iteration.Some? then Turn(s, job, [Exception(IterationInProgress)])
    else match io
      case Throws(m) => Turn(s.(iteration := Some(Iteration(s.log.Tail(), [], None))), job, [Exception(m)])
      case _ =>
        var temp := Rebuild(s.log.records[Begin..s.log.Tail()]);
        Turn(s.(iteration := Some(Iteration(s.log.Tail(), temp, Some(0)))), job, [Result(true, None)])
  }

  /** `ServeIteration`: without an iteration state or key iterator the access
      throws and the job fails. Otherwise the next live key of the temporary
      log is written into the job and served as a read on the live store; at
      the end of the temporary log the job completes with not found. */
  function ServeIteration<K(==), V>(s: State<K, V>, job: Job<K, V>, io: Io): (t: Turn<K, V>)
  {
    match s.iteration
    case None => Turn(s, job, [Exception(NullReference)])
    case Some(it) =>
      match it.cursor
      case None => Turn(s, job, [Exception(NullReference)])
      case Some(pos) =>
        match Next(it.temp, pos)
        case None => Turn(s.(iteration := Some(it.(cursor := Some(|it.temp|)))), job, [Result(false, None)])
        case Some((k, pos')) =>
          ServeGet(s.(iteration := Some(it.(cursor := Some(pos')))), job.(key := Some(k)), io)
  }

  /** `ServeReleaseIterator`: `Kill` the iteration state, drop it and complete
      with not found. `Kill` is an extension method whose body is not part of
      this model, so whether it raises — on a null state, or while disposing
      the temporary store — is the job's `io`. If it raises, the exception
      leaves the handler outside any `try`: the consumer stops, the state is
      not dropped and the job is never completed. */
  function ServeRelease<K, V>(s: State<K, V>, job: Job<K, V>, io: Io): (t: Turn<K, V>)
  {
    if io.Throws? then Turn(s.(stopped := true), job, [])
    else Turn(s.(iteration := None), job, [Result(false, None)])
  }

  // ---------------------------------------------------------------------------
  // ServeJob and the consumer loop

  /** `ServeJob`: the engine first moves its safe-read-only address as the
      environment says, then the job goes to the handler for its type. A job
      of type `None` matches no case and is left alone. */
  function Step<K(==), V>(s: State<K, V>, job: Job<K, V>, env: Env): (t: Turn<K, V>)
    requires Valid(s) && Servable(job)
    ensures Valid(t.state)
    ensures t.state.serial == s.serial + (if job.kind in {UpsertJob, GetJob, RemoveJob} then 1 else 0)
              || (job.kind.IterateJob? && t.state.serial == s.serial + 1 && t.job.key.Some?)
    ensures t.state.stopped <==> s.stopped || job.kind.DisposeJob? || (job.kind.ReleaseIteratorJob? && env.io.Throws?)
  {
    var s := s.(log := Advance(s.log, env.safeReadOnly));
    match job.kind
    case UpsertJob => ServeUpsert(s, job, env.io)
    case GetJob => ServeGet(s, job, env.io)
    case RemoveJob => ServeRemove(s, job, env.io)
    case PingJob => ServePing(s, job)
    case SaveJob => ServeSave(s, job, env.io)
    case DisposeJob => ServeDispose(s, job, env.io)
    case AcquireIteratorJob => ServeAcquire(s, job, env.io)
    case IterateJob => ServeIteration(s, job, env.io)
    case ReleaseIteratorJob => ServeRelease(s, job, env.io)
    case NoJob => Turn(s, job, [])
  }

  /** The jobs of a queue are all servable and come with an environment each. */
  predicate Runnable<K, V>(jobs: seq<Job<K, V>>, envs: seq<Env>)
  {
    |envs| == |jobs| && forall i :: 0 <= i < |jobs| ==> Servable(jobs[i])
  }

  /** `ConsumeJobs`: serve the jobs in queue order; once the consumer has
      stopped, the jobs left in the queue are never served and their callers
      keep waiting. Returns the final state and each job's outcome. */
  function Run<K(==), V>(s: State<K, V>, jobs: seq<Job<K, V>>, envs: seq<Env>): (r: (State<K, V>, seq<Outcome<K, V>>))
    requires Valid(s) && Runnable(jobs, envs)
    ensures Valid(r.0) && |r.1| == |jobs|
    decreases |jobs|
  {
    if |jobs| == 0 then (s, [])
    else if s.stopped then (s, seq(|jobs|, _ => Waiting))
    else
      var t := Step(s, jobs[0], envs[0]);
      var (s', rest) := Run(t.state, jobs[1..], envs[1..]);
      (s', [Settle(t.job, t.attempts)] + rest)
  }

  // ---------------------------------------------------------------------------
  // What each handler promises its caller

  /** An upsert completes with found and the submitted value, and the store
      then maps the key to it. If the engine throws, the caller sees the
      exception and the store is unchanged. If the engine reports an error
      without throwing, the status is ignored: the caller is told found with
      the value although nothing was written. */
  lemma {:induction false} UpsertCompletes<K, V>(s: State<K, V>, k: K, v: V, io: Io)
    ensures var job := JobFor(UpsertRequest(k, v));
            var t := ServeUpsert(s, job, io);
            var o := Settle(t.job, t.attempts);
            t.state.serial == s.serial + 1 &&
            (io.Throws? ==> o == Failed(io.message) && t.state.log == s.log) &&
            (io.Faulted? ==> o == Done(true, Some(k), Some(v)) && t.state.log == s.log) &&
            ((io.Served? || io.Pending?) ==> o == Done(true, Some(k), Some(v)) && Store(t.state.log) == Store(s.log)[k := v])
  {
    var job := JobFor(UpsertRequest(k, v));
    var t := ServeUpsert(s, job, io);
    FirstCompletionWins(t.job, t.attempts);
    if io.Served? || io.Pending? {
      UpsertStores(s.log, k, v, io, k);
    }
  }

  /** A read completes with found and the stored value when the key is in the
      store, and with not found otherwise — whether it was served from memory
      or went pending. An engine error is a read error, an engine exception
      is that exception. Nothing but the serial counter and the shared
      context changes, and a pending read leaves the context new. */
  lemma {:induction false} GetCompletes<K, V>(s: State<K, V>, job: Job<K, V>, io: Io)
    requires job.key.Some? && job.hasOp
    ensures var k := job.key.value;
            var t := ServeGet(s, job, io);
            var o := Settle(t.job, t.attempts);
            var store := Store(s.log);
            t.state == s.(serial := s.serial + 1, ctx := t.state.ctx) &&
            ((io.Served? || io.Pending?) && k in store ==> o == Done(true, Some(k), Some(store[k]))) &&
            ((io.Served? || io.Pending?) && k !in store ==> o == Done(false, Some(k), None)) &&
            (io.Served? ==> t.state.ctx == s.ctx) &&
            (io.Pending? ==> t.state.ctx == Fresh()) &&
            (io.Faulted? ==> o == Failed(ReadError)) &&
            (io.Throws? ==> o == Failed(io.message))
  {
    var t := ServeGet(s, job, io);
    FirstCompletionWins(t.job, t.attempts);
    if io.Pending? {
      PendingReadMatchesServed(s.log, job.key.value, s.ctx);
    }
  }

  /** A remove served from memory completes with found (and the default value)
      exactly when the key was in the store, and takes it out. One that goes
      pending takes the key out too, but never reports it found: with a
      logger it reads its status from a context no callback filled, so with a
      new context the caller is told not found; without one the completion
      callback's logging raises and the caller gets that null reference. An
      engine error is a read error and an exception is passed on; both leave
      the store alone. */
  lemma {:induction false} RemoveCompletes<K, V>(s: State<K, V>, k: K, io: Io)
    ensures var job := JobFor(Remove(k));
            var t := ServeRemove(s, job, io);
            var o := Settle(t.job, t.attempts);
            var store := Store(s.log);
            t.state.serial == s.serial + 1 && t.state.iteration == s.iteration &&
            (io.Served? ==> o == Done(k in store, Some(k), None) && Store(t.state.log) == store - {k}) &&
            (io.Pending? && s.logged && s.ctx == Fresh() ==> o == Done(false, Some(k), None) && Store(t.state.log) == store - {k}) &&
            (io.Pending? && !s.logged ==> o == Failed(NullReference) && Store(t.state.log) == store - {k} && t.state.ctx == s.ctx) &&
            (io.Faulted? ==> o == Failed(ReadError) && t.state.log == s.log) &&
            (io.Throws? ==> o == Failed(io.message) && t.state.log == s.log)
  {
    var job := JobFor(Remove(k));
    var t := ServeRemove(s, job, io);
    FirstCompletionWins(t.job, t.attempts);
    if io.Served? || io.Pending? {
      DeleteRemoves(s.log, k, io, k);
    }
  }

  /** A ping completes with not found and changes nothing. */
  lemma {:induction false} PingChangesNothing<K, V>(s: State<K, V>)
    ensures var t := ServePing(s, JobFor(Ping));
            t.state == s && Settle(t.job, t.attempts) == Done(false, None, None)
  {
    FirstCompletionWins(JobFor<K, V>(Ping), [Result(false, None)]);
  }

  /** A save whose checkpoint completes puts the current log on disk; the next
      start recovers a store equal to the one saved. */
  lemma {:induction false} SaveThenRestart<K, V>(s: State<K, V>, io: Io)
    requires Valid(s) && !io.Throws?
    ensures var t := ServeSave(s, JobFor(Save), io);
            Settle(t.job, t.attempts) == Done(false, None, None) &&
            Valid(t.state) && Store(Start(t.state.disk, s.logged).log) == Store(s.log)
  {
    var t := ServeSave(s, JobFor(Save), io);
    FirstCompletionWins(t.job, t.attempts);
  }

  // ---------------------------------------------------------------------------
  // Iteration

  /** Acquiring while an iteration is in progress fails with "Iteration
      already in progress" and leaves the state exactly as it was. */
  lemma {:induction false} AcquireWhileBusy<K, V>(s: State<K, V>, io: Io)
    requires s.iteration.Some?
    ensures var t := ServeAcquire(s, JobFor(Ping).(kind := AcquireIteratorJob), io);
            t.state == s && Settle(t.job, t.attempts) == Failed(IterationInProgress)
  {
    var t := ServeAcquire(s, JobFor(Ping).(kind := AcquireIteratorJob), io);
    FirstCompletionWins(t.job, t.attempts);
  }

  /** A successful acquire records the live tail and a key iterator that will
      hand out every key of the store as it is at that moment, each once. */
  lemma {:induction false} AcquireSnapshotsStore<K, V>(s: State<K, V>, io: Io)
    requires s.iteration.None? && !io.Throws?
    ensures var t := ServeAcquire(s, JobFor(Ping).(kind := AcquireIteratorJob), io);
            var keys := Enumerate(t.state.iteration.value.temp, 0);
            Settle(t.job, t.attempts) == Done(true, None, None) &&
            t.state.iteration.value.until == s.log.Tail() &&
            t.state.iteration.value.cursor == Some(0) &&
            t.state == s.(iteration := t.state.iteration) &&
            (forall k :: k in keys <==> k in Store(s.log)) &&
            (forall a, b :: 0 <= a < b < |keys| ==> keys[a] != keys[b])
  {
    var t := ServeAcquire(s, JobFor(Ping).(kind := AcquireIteratorJob), io);
    FirstCompletionWins(t.job, t.attempts);
    assert s.log.records[Begin..s.log.Tail()] == s.log.records[Begin..];
    SnapshotEnumeratesStore(s.log.records[Begin..]);
  }

  /** Iterating moves the key iterator past the next live key of the snapshot
      and completes like a read of that key on the live store: found with its
      current value while it is there, not found once it has been removed
      since the acquire. At the end of the snapshot it completes with not
      found. */
  lemma {:induction false} IterateServesNextKey<K, V>(s: State<K, V>, io: Io)
    requires s.iteration.Some? && s.iteration.value.cursor.Some?
    requires io.Served? || io.Pending?
    ensures var job := JobFor<K, V>(Ping).(kind := IterateJob);
            var it := s.iteration.value;
            var t := ServeIteration(s, job, io);
            var o := Settle(t.job, t.attempts);
            var store := Store(s.log);
            match Next(it.temp, it.cursor.value)
            case None => o == Done(false, None, None) && t.state.log == s.log
            case Some((k, pos')) =>
              t.state.iteration == Some(it.(cursor := Some(pos'))) &&
              t.state.log == s.log &&
              (k in store ==> o == Done(true, Some(k), Some(store[k]))) &&
              (k !in store ==> o == Done(false, Some(k), None))
  {
    var job := JobFor<K, V>(Ping).(kind := IterateJob);
    var it := s.iteration.value;
    var t := ServeIteration(s, job, io);
    FirstCompletionWins(t.job, t.attempts);
    match Next(it.temp, it.cursor.value)
    case None =>
    case Some((k, pos')) =>
      GetCompletes(s.(iteration := Some(it.(cursor := Some(pos')))), job.(key := Some(k)), io);
  }

  /** Iterating with no iterator fails instead of completing. */
  lemma {:induction false} IterateWithoutIterator<K, V>(s: State<K, V>, io: Io)
    requires s.iteration.None? || s.iteration.value.cursor.None?
    ensures var t := ServeIteration(s, JobFor<K, V>(Ping).(kind := IterateJob), io);
            t.state == s && Settle(t.job, t.attempts) == Failed(NullReference)
  {
    var t := ServeIteration(s, JobFor<K, V>(Ping).(kind := IterateJob), io);
    FirstCompletionWins(t.job, t.attempts);
  }

  /** A release whose `Kill` returns drops the iteration state, if any, and
      completes with not found, so the next acquire is not turned away. */
  lemma {:induction false} ReleaseThenAcquire<K, V>(s: State<K, V>, kill: Io, io: Io)
    requires !kill.Throws? && !io.Throws?
    ensures var t := ServeRelease(s, JobFor<K, V>(Ping).(kind := ReleaseIteratorJob), kill);
            var t' := ServeAcquire(t.state, JobFor(Ping).(kind := AcquireIteratorJob), io);
            Settle(t.job, t.attempts) == Done(false, None, None) &&
            t.state == s.(iteration := None) &&
            Settle(t'.job, t'.attempts) == Done(true, None, None)
  {
    var t := ServeRelease(s, JobFor<K, V>(Ping).(kind := ReleaseIteratorJob), kill);
    FirstCompletionWins(t.job, t.attempts);
    var t' := ServeAcquire(t.state, JobFor(Ping).(kind := AcquireIteratorJob), io);
    FirstCompletionWins(t'.job, t'.attempts);
  }

  /** A release whose `Kill` raises stops the consumer with the iteration
      state in place, and its caller keeps waiting, as do the callers of every
      job queued behind it. */
  lemma {:induction false} ReleaseKillRaises<K, V>(s: State<K, V>, m: string, jobs: seq<Job<K, V>>, envs: seq<Env>)
    requires Valid(s) && !s.stopped && Runnable(jobs, envs)
    ensures var release := NewJob<K, V>(ReleaseIteratorJob);
            var r := Run(s, [release] + jobs, [Env(Throws(m), s.log.safeReadOnly)] + envs);
            r.0 == s.(stopped := true) &&
            forall i :: 0 <= i < |r.1| ==> r.1[i] == Waiting
  {
    var release := NewJob<K, V>(ReleaseIteratorJob);
    var all := [release] + jobs;
    var es := [Env(Throws(m), s.log.safeReadOnly)] + envs;
    assert Runnable(all, es) by {
      forall i | 0 <= i < |all| ensures Servable(all[i]) {
        if i > 0 {
          assert all[i] == jobs[i - 1];
        }
      }
    }
    RunStep(s, all, es);
    var t := Step(s, all[0], es[0]);
    assert t.state == s.(stopped := true);
    assert all[1..] == jobs && es[1..] == envs;
    if |jobs| == 0 {
      assert Run(t.state, jobs, envs).1 == [];
    }
  }

  // ---------------------------------------------------------------------------
  // The consumer loop

  /** The consumer returns right after serving a Dispose job: no job queued
      behind one is ever served, and the callers of those jobs keep waiting. */
  lemma {:induction false} NothingServedAfterDispose<K, V>(s: State<K, V>, jobs: seq<Job<K, V>>, envs: seq<Env>, i: nat)
    requires Valid(s) && Runnable(jobs, envs)
    requires i < |jobs| && jobs[i].kind.DisposeJob?
    ensures Run(s, jobs, envs).0.stopped
    ensures forall j :: i < j < |jobs| ==> Run(s, jobs, envs).1[j] == Waiting
    decreases |jobs|
  {
    if s.stopped {
    } else {
      var t := Step(s, jobs[0], envs[0]);
      if i == 0 {
        assert t.state.stopped;
        var tail := jobs[1..];
        if |tail| == 0 {
          assert Run(t.state, tail, envs[1..]).1 == seq(|tail|, _ => Waiting);
        }
      } else {
        NothingServedAfterDispose(t.state, jobs[1..], envs[1..], i - 1);
      }
    }
  }

  /** A run over two queues one after the other is the run over the first
      followed by the run over the second. */
  lemma {:induction false} RunAppend<K, V>(s: State<K, V>, a: seq<Job<K, V>>, ea: seq<Env>,
                                           b: seq<Job<K, V>>, eb: seq<Env>)
    requires Valid(s) && Runnable(a, ea) && Runnable(b, eb)
    ensures Runnable(a + b, ea + eb)
    ensures var (sa, oa) := Run(s, a, ea);
            var (sb, ob) := Run(sa, b, eb);
            Run(s, a + b, ea + eb) == (sb, oa + ob)
    decreases |a|
  {
    assert Runnable(a + b, ea + eb) by {
      forall i | 0 <= i < |a + b| ensures Servable((a + b)[i]) {
        if i >= |a| {
          assert (a + b)[i] == b[i - |a|];
        }
      }
    }
    if |a| == 0 {
      assert a + b == b && ea + eb == eb;
      assert Run(s, a, ea) == (s, []);
      assert [] + Run(s, b, eb).1 == Run(s, b, eb).1;
    } else if s.stopped {
      var w := seq(|a|, _ => Waiting);
      var wb: seq<Outcome<K, V>> := if |b| == 0 then [] else seq(|b|, _ => Waiting);
      assert Run(s, b, eb) == (s, wb);
      assert seq(|a + b|, _ => Waiting) == w + wb;
    } else {
      var t := Step(s, a[0], ea[0]);
      assert (a + b)[0] == a[0] && (a + b)[1..] == a[1..] + b;
      assert (ea + eb)[0] == ea[0] && (ea + eb)[1..] == ea[1..] + eb;
      RunAppend(t.state, a[1..], ea[1..], b, eb);
      var (sa, oa) := Run(t.state, a[1..], ea[1..]);
      var (sb, ob) := Run(sa, b, eb);
      assert [Settle(t.job, t.attempts)] + (oa + ob) == ([Settle(t.job, t.attempts)] + oa) + ob;
    }
  }

  // ---------------------------------------------------------------------------
  // The shared read context over a run

  /** Every handler either leaves the shared context alone or consumes it
      right after a pending operation filled it: a job that starts with a new
      context leaves a new context behind. */
  lemma {:induction false} StepKeepsContextFresh<K, V>(s: State<K, V>, job: Job<K, V>, env: Env)
    requires Valid(s) && Servable(job) && s.ctx == Fresh()
    ensures Step(s, job, env).state.ctx == Fresh()
  {
    var s0 := s.(log := Advance(s.log, env.safeReadOnly));
    if job.kind.IterateJob? && s0.iteration.Some? && s0.iteration.value.cursor.Some? {
      var it := s0.iteration.value;
      match Next(it.temp, it.cursor.value)
      case None =>
      case Some((k, pos')) =>
        var s1 := s0.(iteration := Some(it.(cursor := Some(pos'))));
        assert ServeIteration(s0, job, env.io) == ServeGet(s1, job.(key := Some(k)), env.io);
    }
  }

  /** No handler changes whether a logger is configured. */
  lemma {:induction false} StepKeepsLogger<K, V>(s: State<K, V>, job: Job<K, V>, env: Env)
    requires Valid(s) && Servable(job)
    ensures Step(s, job, env).state.logged == s.logged
  {
    var s0 := s.(log := Advance(s.log, env.safeReadOnly));
    if job.kind.IterateJob? && s0.iteration.Some? && s0.iteration.value.cursor.Some? {
      var it := s0.iteration.value;
      match Next(it.temp, it.cursor.value)
      case None =>
      case Some((k, pos')) =>
        var s1 := s0.(iteration := Some(it.(cursor := Some(pos'))));
        assert ServeIteration(s0, job, env.io) == ServeGet(s1, job.(key := Some(k)), env.io);
    }
  }

  /** Whether a logger is configured never changes over a run. */
  lemma {:induction false} RunKeepsLogger<K, V>(s: State<K, V>, jobs: seq<Job<K, V>>, envs: seq<Env>)
    requires Valid(s) && Runnable(jobs, envs)
    ensures Run(s, jobs, envs).0.logged == s.logged
    decreases |jobs|
  {
    if |jobs| > 0 && !s.stopped {
      StepKeepsLogger(s, jobs[0], envs[0]);
      RunKeepsLogger(Step(s, jobs[0], envs[0]).state, jobs[1..], envs[1..]);
    }
  }

  /** A dictionary that starts with a new context has a new context between
      any two jobs. */
  lemma {:induction false} RunKeepsContextFresh<K, V>(s: State<K, V>, jobs: seq<Job<K, V>>, envs: seq<Env>)
    requires Valid(s) && Runnable(jobs, envs) && s.ctx == Fresh()
    ensures Run(s, jobs, envs).0.ctx == Fresh()
    decreases |jobs|
  {
    if |jobs| > 0 && !s.stopped {
      StepKeepsContextFresh(s, jobs[0], envs[0]);
      RunKeepsContextFresh(Step(s, jobs[0], envs[0]).state, jobs[1..], envs[1..]);
    }
  }

  /** A remove that goes pending is never reported found, even when the key
      was in the store and is removed. With a logger, no callback of a delete
      fills the context, so it finds only the new context every earlier job
      left and reports not found; without one, the completion callback's
      logging raises and the caller gets a null reference. */
  lemma {:induction false} PendingRemoveNeverFound<K, V>(disk: seq<Log<K, V>>, logged: bool, jobs: seq<Job<K, V>>, envs: seq<Env>,
                                           k: K, safeReadOnly: nat)
    requires forall i :: 0 <= i < |disk| ==> disk[i].Valid()
    requires Runnable(jobs, envs) && !Run(Start(disk, logged), jobs, envs).0.stopped
    ensures var s := Run(Start(disk, logged), jobs, envs).0;
            var t := Step(s, JobFor(Remove(k)), Env(Pending, safeReadOnly));
            (logged ==> Settle(t.job, t.attempts) == Done(false, Some(k), None)) &&
            (!logged ==> Settle(t.job, t.attempts) == Failed(NullReference)) &&
            Store(t.state.log) == Store(s.log) - {k}
  {
    var s := Run(Start(disk, logged), jobs, envs).0;
    RunKeepsContextFresh(Start(disk, logged), jobs, envs);
    RunKeepsLogger(Start(disk, logged), jobs, envs);
    var s0 := s.(log := Advance(s.log, safeReadOnly));
    assert s0.log.records == s.log.records;
    RemoveCompletes(s0, k, Pending);
  }

  // ---------------------------------------------------------------------------
  // Enumeration over a run

  /** `m` iterate jobs, as successive `MoveNextAsync` calls send them. */
  function IterateJobs<K, V>(m: nat): seq<Job<K, V>>
  {
    seq(m, _ => NewJob(IterateJob))
  }

  /** The engine answers every job of the run from memory or from disk, with
      no fault. */
  predicate Answers(envs: seq<Env>)
  {
    forall i :: 0 <= i < |envs| ==> envs[i].io.Served? || envs[i].io.Pending?
  }

  /** What the i-th of a series of iterate jobs answers: the i-th key still to
      come, read on the store, or not found once the keys are used up. */
  function IterAnswer<K(==), V>(store: map<K, V>, keys: seq<K>, i: nat): Outcome<K, V>
  {
    if i >= |keys| then Done(false, None, None)
    else if keys[i] in store then Done(true, Some(keys[i]), Some(store[keys[i]]))
    else Done(false, Some(keys[i]), None)
  }

  /** A run that has not stopped serves its first job and runs the rest. */
  lemma {:induction false} RunStep<K, V>(s: State<K, V>, jobs: seq<Job<K, V>>, envs: seq<Env>)
    requires Valid(s) && !s.stopped && Runnable(jobs, envs) && |jobs| > 0
    ensures var t := Step(s, jobs[0], envs[0]);
            Runnable(jobs[1..], envs[1..]) &&
            Run(s, jobs, envs) ==
              (Run(t.state, jobs[1..], envs[1..]).0, [Settle(t.job, t.attempts)] + Run(t.state, jobs[1..], envs[1..]).1)
  {
  }

  /** One iterate job answered from memory or from disk: it answers the first
      key still to come, the keys to come lose that key, and the log and the
      temporary store stay as they were. */
  lemma {:induction false} IterateStep<K, V>(s: State<K, V>, env: Env)
    requires Valid(s) && !s.stopped && s.iteration.Some? && s.iteration.value.cursor.Some?
    requires env.io.Served? || env.io.Pending?
    ensures var t := Step(s, NewJob(IterateJob), env);
            var it := s.iteration.value;
            var keys := Enumerate(it.temp, it.cursor.value);
            Valid(t.state) && !t.state.stopped && t.state.log.records == s.log.records &&
            t.state.iteration.Some? && t.state.iteration.value.temp == it.temp &&
            t.state.iteration.value.cursor.Some? &&
            Enumerate(it.temp, t.state.iteration.value.cursor.value) == (if |keys| == 0 then [] else keys[1..]) &&
            Settle(t.job, t.attempts) == IterAnswer(Store(s.log), keys, 0)
  {
    var it := s.iteration.value;
    var s0 := s.(log := Advance(s.log, env.safeReadOnly));
    assert Store(s0.log) == Store(s.log);
    var job := JobFor<K, V>(Ping).(kind := IterateJob);
    assert NewJob<K, V>(IterateJob) == job;
    assert Step(s, job, env) == ServeIteration(s0, job, env.io);
    IterateServesNextKey(s0, env.io);
    if Next(it.temp, it.cursor.value).None? {
      assert Enumerate(it.temp, |it.temp|) == [];
    }
  }

  /** Iterate jobs in a row hand out the keys still to come in the snapshot,
      in order, each answered as a read on the live store, and then not found
      for good; the log is not changed. */
  lemma {:induction false} IterateRun<K, V>(s: State<K, V>, m: nat, envs: seq<Env>)
    requires Valid(s) && !s.stopped && s.iteration.Some? && s.iteration.value.cursor.Some?
    requires |envs| == m && Answers(envs)
    ensures Runnable(IterateJobs<K, V>(m), envs)
    ensures var (s', outs) := Run(s, IterateJobs<K, V>(m), envs);
            var it := s.iteration.value;
            var keys := Enumerate(it.temp, it.cursor.value);
            s'.log.records == s.log.records && !s'.stopped &&
            forall i :: 0 <= i < m ==> outs[i] == IterAnswer(Store(s.log), keys, i)
    decreases m
  {
    if m > 0 {
      var it := s.iteration.value;
      var keys := Enumerate(it.temp, it.cursor.value);
      var t := Step(s, NewJob(IterateJob), envs[0]);
      IterateStep(s, envs[0]);
      IterateRunFirst(s, m, envs);
      IterateRun(t.state, m - 1, envs[1..]);
      IterAnswersShift(Store(s.log), keys, Run(t.state, IterateJobs<K, V>(m - 1), envs[1..]).1);
    }
  }

  /** Answers for the keys after the first, behind the answer for the first,
      are the answers for all the keys. */
  lemma {:induction false} IterAnswersShift<K, V>(store: map<K, V>, keys: seq<K>, rest: seq<Outcome<K, V>>)
    requires forall i :: 0 <= i < |rest| ==> rest[i] == IterAnswer(store, if |keys| == 0 then [] else keys[1..], i)
    ensures var outs := [IterAnswer(store, keys, 0)] + rest;
            forall i :: 0 <= i < |outs| ==> outs[i] == IterAnswer(store, keys, i)
  {
    var outs := [IterAnswer(store, keys, 0)] + rest;
    forall i | 0 < i < |outs| ensures outs[i] == IterAnswer(store, keys, i) {
      assert outs[i] == rest[i - 1];
    }
  }

  /** The first of a run of iterate jobs answers the first key still to come,
      and the rest run on the state it leaves. */
  lemma {:induction false} IterateRunFirst<K, V>(s: State<K, V>, m: nat, envs: seq<Env>)
    requires Valid(s) && !s.stopped && s.iteration.Some? && s.iteration.value.cursor.Some?
    requires |envs| == m && Answers(envs) && m > 0
    ensures var t := Step(s, NewJob(IterateJob), envs[0]);
            var it := s.iteration.value;
            var rest := Run(t.state, IterateJobs<K, V>(m - 1), envs[1..]);
            Runnable(IterateJobs<K, V>(m), envs) && Valid(t.state) &&
            Runnable(IterateJobs<K, V>(m - 1), envs[1..]) &&
            Run(s, IterateJobs<K, V>(m), envs) ==
              (rest.0, [IterAnswer(Store(s.log), Enumerate(it.temp, it.cursor.value), 0)] + rest.1)
  {
    var jobs := IterateJobs<K, V>(m);
    assert jobs[0] == NewJob(IterateJob);
    assert jobs[1..] == IterateJobs<K, V>(m - 1);
    IterateStep(s, envs[0]);
    RunStep(s, jobs, envs);
  }

  /** The keys an iterator acquired on this log hands out. */
  function SnapshotKeys<K(==), V>(log: Log<K, V>): seq<K>
  {
    Enumerate(Rebuild(log.records[Begin..log.Tail()]), 0)
  }

  /** An acquire followed by iterate jobs: the acquire succeeds, and the
      iterate jobs hand out every key of the store once, in the snapshot's
      order, each found with its value, and after them not found. */
  lemma {:induction false} AcquireThenIterate<K, V>(s: State<K, V>, m: nat, envs: seq<Env>)
    requires Valid(s) && !s.stopped && s.iteration.None?
    requires |envs| == m + 1 && Answers(envs)
    ensures Runnable([NewJob(AcquireIteratorJob)] + IterateJobs<K, V>(m), envs)
    ensures var outs := Run(s, [NewJob(AcquireIteratorJob)] + IterateJobs<K, V>(m), envs).1;
            var keys := SnapshotKeys(s.log);
            var store := Store(s.log);
            outs[0] == Done(true, None, None) &&
            (forall k :: k in keys <==> k in store) &&
            (forall a, b :: 0 <= a < b < |keys| ==> keys[a] != keys[b]) &&
            (forall i :: 0 <= i < m ==> outs[1 + i] == IterAnswer(store, keys, i))
  {
    var jobs := [NewJob(AcquireIteratorJob)] + IterateJobs<K, V>(m);
    var keys := SnapshotKeys(s.log);
    var store := Store(s.log);
    var s0 := s.(log := Advance(s.log, envs[0].safeReadOnly));
    assert Store(s0.log) == store && s0.log.Tail() == s.log.Tail();
    assert s0.log.records[Begin..s0.log.Tail()] == s.log.records[Begin..s.log.Tail()];
    var acquire := JobFor<K, V>(Ping).(kind := AcquireIteratorJob);
    assert jobs[0] == acquire;
    var t := Step(s, jobs[0], envs[0]);
    assert t == ServeAcquire(s0, acquire, envs[0].io);
    AcquireSnapshotsStore(s0, envs[0].io);
    RunStep(s, jobs, envs);
    assert jobs[1..] == IterateJobs<K, V>(m);
    IterateRun(t.state, m, envs[1..]);
    assert Store(t.state.log) == store;
    var rest := Run(t.state, jobs[1..], envs[1..]).1;
    var outs := Run(s, jobs, envs).1;
    assert outs == [Settle(t.job, t.attempts)] + rest;
    forall i | 0 <= i < m ensures outs[1 + i] == IterAnswer(store, keys, i) {
      assert outs[1 + i] == rest[i];
    }
  }

  /** An enumerator created on an idle dictionary: its i-th `MoveNextAsync`
      returns true with the i-th key of the store's snapshot and its value
      while keys are to come — every key of the store once — and false after
      them. */
  lemma {:induction false} EnumeratorYieldsStore<K, V>(s: State<K, V>, m: nat, envs: seq<Env>, queue: seq<Job<K, V>>, i: nat)
    requires Valid(s) && !s.stopped && s.iteration.None?
    requires |envs| == m + 1 && Answers(envs) && i < m
    ensures Runnable([NewJob(AcquireIteratorJob)] + IterateJobs<K, V>(m), envs)
    ensures var outs := Run(s, [NewJob(AcquireIteratorJob)] + IterateJobs<K, V>(m), envs).1;
            var keys := SnapshotKeys(s.log);
            var store := Store(s.log);
            outs[0].Done? && !outs[1 + i].Waiting? &&
            (i < |keys| ==>
               (keys[i] in store &&
                MoveNext(outs[0], queue, outs[1 + i]).answer == Success((true, Some((Some(keys[i]), Some(store[keys[i]]))))))) &&
            (i >= |keys| ==> MoveNext(outs[0], queue, outs[1 + i]).answer == Success((false, None)))
  {
    AcquireThenIterate(s, m, envs);
    var outs := Run(s, [NewJob(AcquireIteratorJob)] + IterateJobs<K, V>(m), envs).1;
    var keys := SnapshotKeys(s.log);
    assert outs[1 + i] == IterAnswer(Store(s.log), keys, i);
    if i < |keys| {
      assert keys[i] in keys;
    }
  }

  /** An enumerator created while another iteration is in progress: its
      acquire fails, so its first `MoveNextAsync` throws "Iteration already in
      progress" without sending an iterate job, whatever the dictionary
      would have answered. */
  lemma {:induction false} EnumeratorWhileBusy<K, V>(s: State<K, V>, io: Io, queue: seq<Job<K, V>>, o: Outcome<K, V>)
    requires s.iteration.Some?
    ensures var t := ServeAcquire(s, NewJob(AcquireIteratorJob), io);
            Settle(t.job, t.attempts).Failed? &&
            MoveNext(Settle(t.job, t.attempts), queue, o) == Moved(queue, Failure(IterationInProgress))
  {
    AcquireWhileBusy(s, io);
    assert NewJob<K, V>(AcquireIteratorJob) == JobFor(Ping).(kind := AcquireIteratorJob);
  }
}

=== FILE: bytes.dfy ===
/** C# integer widths and the big-endian stream helpers of Utilities.cs, plus the
    little-endian `BitConverter` conversions the serializers rely on.

    Integers are unbounded in Dafny; C#'s unchecked `int` arithmetic is written
    out through `Wrap32`. A stream being read is a byte sequence with a position;
    `ReadByte` yields -1 once the position is at or past the end, as .NET does. */
module Bytes {

  type byte = x: int | 0 <= x < 0x100
  type int32 = x: int | -0x8000_0000 <= x < 0x8000_0000
  type int64 = x: int | -0x8000_0000_0000_0000 <= x < 0x8000_0000_0000_0000

  /** C#'s unchecked conversion to `int`: keep the low 32 bits and read them as
      two's complement, i.e. move `x` by whole multiples of 2^32 into the int
      range. */
  function Wrap32(x: int): int32
    decreases if x >= 0x8000_0000 then x else if x < -0x8000_0000 then -x else 0
  {
    if x >= 0x8000_0000 then Wrap32(x - 0x1_0000_0000)
    else if x < -0x8000_0000 then Wrap32(x + 0x1_0000_0000)
    else x
  }

  /** How many multiples of 2^32 `Wrap32` removes. */
  function WrapLaps(x: int): int
    decreases if x >= 0x8000_0000 then x else if x < -0x8000_0000 then -x else 0
  {
    if x >= 0x8000_0000 then WrapLaps(x - 0x1_0000_0000) + 1
    else if x < -0x8000_0000 then WrapLaps(x + 0x1_0000_0000) - 1
    else 0
  }

  /** The wrapped value differs from `x` by a multiple of 2^32. */
  lemma {:induction false} Wrap32Congruent(x: int)
    ensures x == Wrap32(x) + 0x1_0000_0000 * WrapLaps(x)
    decreases if x >= 0x8000_0000 then x else if x < -0x8000_0000 then -x else 0
  {
    if x >= 0x8000_0000 {
      Wrap32Congruent(x - 0x1_0000_0000);
    } else if x < -0x8000_0000 {
      Wrap32Congruent(x + 0x1_0000_0000);
    }
  }

  /** Only one int32 differs from `x` by a multiple of 2^32. */
  lemma {:induction false} Wrap32Unique(x: int, r: int32, k: int)
    requires x == r + 0x1_0000_0000 * k
    ensures Wrap32(x) == r
    decreases if k < 0 then -k else k
  {
    if k > 0 {
      Wrap32Unique(x - 0x1_0000_0000, r, k - 1);
    } else if k < 0 {
      Wrap32Unique(x + 0x1_0000_0000, r, k + 1);
    }
  }

  /** Adding to a wrapped value and wrapping again is wrapping the plain sum. */
  lemma {:induction false} Wrap32Add(a: int, b: int)
    ensures Wrap32(Wrap32(a) + b) == Wrap32(a + b)
  {
    Wrap32Congruent(a);
    Wrap32Congruent(a + b);
    Wrap32Unique(Wrap32(a) + b, Wrap32(a + b), WrapLaps(a + b) - WrapLaps(a));
  }

  /** Adding two wrapped values and wrapping again is wrapping the plain sum. */
  lemma {:induction false} Wrap32AddBoth(a: int, b: int)
    ensures Wrap32(Wrap32(a) + Wrap32(b)) == Wrap32(a + b)
  {
    Wrap32Add(a, Wrap32(b));
    Wrap32Add(b, a);
    assert a + Wrap32(b) == Wrap32(b) + a;
  }

  /** C#'s `(byte)x` cast: the low eight bits. */
  function ToByte(x: int): byte
  {
    x % 0x100
  }

  /** The number four digits in base 256 spell, most significant first. */
  function BigEndian4(b0: int, b1: int, b2: int, b3: int): int
  {
    b0 * 0x100_0000 + b1 * 0x1_0000 + b2 * 0x100 + b3
  }

  /** The number three digits in base 256 spell, most significant first. */
  function BigEndian3(b0: int, b1: int, b2: int): int
  {
    b0 * 0x1_0000 + b1 * 0x100 + b2
  }

  /** The base-256 digits of any integer, taken with repeated floor shifts by
      eight bits, spell that integer modulo 2^32. */
  lemma {:induction false} Digits4(v: int, q1: int, q2: int, q3: int)
    requires q1 == v / 0x100 && q2 == q1 / 0x100 && q3 == q2 / 0x100
    ensures BigEndian4(ToByte(q3), ToByte(q2), ToByte(q1), ToByte(v)) == v % 0x1_0000_0000
  {
    var d0, d1, d2, d3 := v % 0x100, q1 % 0x100, q2 % 0x100, q3 % 0x100;
    var q4 := q3 / 0x100;
    assert q3 == 0x100 * q4 + d3;
    var low := d3 * 0x100_0000 + d2 * 0x1_0000 + d1 * 0x100 + d0;
    assert v == 0x1_0000_0000 * q4 + low;
    assert 0 <= low < 0x1_0000_0000;
    ModOfDecomposition(v, q4, low);
  }

  /** `v % 2^32` is the remainder of any decomposition `2^32 * q + r` with `r`
      in range. */
  lemma {:induction false} ModOfDecomposition(v: int, q: int, r: int)
    requires v == 0x1_0000_0000 * q + r && 0 <= r < 0x1_0000_0000
    ensures v % 0x1_0000_0000 == r
  {
  }

  /** The same for the low three digits, modulo 2^24. */
  lemma {:induction false} Digits3(v: int, q1: int, q2: int)
    requires q1 == v / 0x100 && q2 == q1 / 0x100
    ensures BigEndian3(ToByte(q2), ToByte(q1), ToByte(v)) == v % 0x100_0000
  {
    var d0, d1, d2 := v % 0x100, q1 % 0x100, q2 % 0x100;
    var q3 := q2 / 0x100;
    assert v == 0x100 * q1 + d0;
    assert q1 == 0x100 * q2 + d1;
    assert q2 == 0x100 * q3 + d2;
    var low := d2 * 0x1_0000 + d1 * 0x100 + d0;
    assert v == 0x100_0000 * q3 + low;
    assert 0 <= low < 0x100_0000;
    Mod24OfDecomposition(v, q3, low);
  }

  /** `v % 2^24` is the remainder of any decomposition `2^24 * q + r` with `r`
      in range. */
  lemma {:induction false} Mod24OfDecomposition(v: int, q: int, r: int)
    requires v == 0x100_0000 * q + r && 0 <= r < 0x100_0000
    ensures v % 0x100_0000 == r
  {
  }

  // ---------------------------------------------------------------------------
  // Writing

  /** The low `n` bytes of `v`, most significant first. The last byte is
      `(byte)v`; the ones before it are those of `v >> 8`, an arithmetic shift,
      i.e. a floor division by 256. */
  function BigEndianBytes(v: int, n: nat): (r: seq<byte>)
    ensures |r| == n
    decreases n
  {
    if n == 0 then [] else BigEndianBytes(v / 0x100, n - 1) + [ToByte(v)]
  }

  /** The low `n` bytes of `v`, least significant first. */
  function LittleEndianBytes(v: int, n: nat): (r: seq<byte>)
    ensures |r| == n
    decreases n
  {
    if n == 0 then [] else [ToByte(v)] + LittleEndianBytes(v / 0x100, n - 1)
  }

  /** `WriteInt32`: `(byte)(value >> 24)`, `>> 16`, `>> 8`, `(byte)value`. */
  function WriteInt32(v: int32): (r: seq<byte>)
    ensures |r| == 4
  {
    BigEndianBytes(v, 4)
  }

  /** `WriteInt24`: `(byte)(value >> 16)`, `>> 8`, `(byte)value`; the top byte
      is dropped. */
  function WriteInt24(v: int32): (r: seq<byte>)
    ensures |r| == 3
  {
    BigEndianBytes(v, 3)
  }

  /** The four bytes `WriteInt32` writes spell the two's-complement
      representation of `v`, most significant first. */
  lemma {:induction false} WriteInt32Digits(v: int32)
    ensures (var w := WriteInt32(v); BigEndian4(w[0], w[1], w[2], w[3]) == v % 0x1_0000_0000)
  {
    var q1 := v / 0x100; var q2 := q1 / 0x100; var q3 := q2 / 0x100;
    assert BigEndianBytes(q3, 1) == [ToByte(q3)];
    assert BigEndianBytes(q2, 2) == [ToByte(q3), ToByte(q2)];
    assert BigEndianBytes(q1, 3) == [ToByte(q3), ToByte(q2), ToByte(q1)];
    assert WriteInt32(v) == [ToByte(q3), ToByte(q2), ToByte(q1), ToByte(v)];
    Digits4(v, q1, q2, q3);
  }

  /** The three bytes `WriteInt24` writes spell `v` modulo 2^24. */
  lemma {:induction false} WriteInt24Digits(v: int32)
    ensures (var w := WriteInt24(v); BigEndian3(w[0], w[1], w[2]) == v % 0x100_0000)
  {
    var q1 := v / 0x100; var q2 := q1 / 0x100;
    assert BigEndianBytes(q2, 1) == [ToByte(q2)];
    assert BigEndianBytes(q1, 2) == [ToByte(q2), ToByte(q1)];
    assert WriteInt24(v) == [ToByte(q2), ToByte(q1), ToByte(v)];
    Digits3(v, q1, q2);
  }

  // ---------------------------------------------------------------------------
  // Reading

  // A readable stream is its bytes `data` and a position `pos`, which may
  // lie past the end after a seek. Reading never changes the bytes, so the
  // readers take both and give back the new position.

  /** Number of bytes still available from the position on. */
  function Available(data: seq<byte>, pos: nat): (n: nat)
    ensures pos + n <= |data| || n == 0
    ensures pos < |data| ==> pos + n == |data|
  {
    if pos < |data| then |data| - pos else 0
  }

  /** `Stream.ReadByte`: the next byte and the position after it, or -1 at the
      end of the stream. */
  function ReadByte(data: seq<byte>, pos: nat): (res: (int, nat))
    ensures -1 <= res.0 < 0x100
    ensures res.0 == -1 <==> pos >= |data|
    ensures res.0 >= 0 ==> res.0 == data[pos] && res.1 == pos + 1
    ensures res.0 == -1 ==> res.1 == pos
  {
    if pos < |data| then (data[pos] as int, pos + 1) else (-1, pos)
  }

  /** The source's shift-and-add over the next bytes: read a byte and add it,
      shifted left by `shift`, to `value`; carry on eight bits lower until the
      shift is zero. The sum is kept unbounded: the source wraps each shift and
      each addition to 32 bits, which ends at the same int as wrapping the
      plain sum once (`WrapEachStep`). */
  function ShiftAdd(data: seq<byte>, pos: nat, shift: nat, value: int): (res: (int, nat))
    requires shift in {0, 8, 16, 24}
    decreases shift
  {
    var (b, next) := ReadByte(data, pos);
    var scale := if shift == 24 then 0x100_0000 else if shift == 16 then 0x1_0000 else if shift == 8 then 0x100 else 1;
    if shift == 0 then (value + b, next) else ShiftAdd(data, next, shift - 8, value + b * scale)
  }

  /** `ReadInt32`: four `ReadByte` results, shifted by 24, 16, 8 and 0 and
      summed as ints (an end-of-stream -1 takes part in the sum). */
  function ReadInt32(data: seq<byte>, pos: nat): (res: (int32, nat))
  {
    var (sum, next) := ShiftAdd(data, pos, 24, 0);
    (Wrap32(sum), next)
  }

  /** `ReadInt24`: three `ReadByte` results, shifted by 16, 8 and 0 and summed. */
  function ReadInt24(data: seq<byte>, pos: nat): (res: (int32, nat))
  {
    var (sum, next) := ShiftAdd(data, pos, 16, 0);
    (Wrap32(sum), next)
  }

  /** The source's int arithmetic wraps every shift and every addition; the
      result is the same as wrapping the plain sum once, which is how
      `ShiftAdd` keeps it. Holds for any ints, an end-of-stream -1 included. */
  lemma {:induction false} WrapEachStep(b0: int, b1: int, b2: int, b3: int)
    ensures Wrap32(Wrap32(Wrap32(Wrap32(b0 * 0x100_0000) + Wrap32(b1 * 0x1_0000)) + Wrap32(b2 * 0x100)) + b3)
         == Wrap32(BigEndian4(b0, b1, b2, b3))
  {
    var x0, x1, x2 := b0 * 0x100_0000, b1 * 0x1_0000, b2 * 0x100;
    WrapThree(x0, x1, x2);
    Wrap32Add(x0 + x1 + x2, b3);
  }

  /** Three wrapped terms summed with wrapping: the wrapped plain sum. */
  lemma {:induction false} WrapThree(x0: int, x1: int, x2: int)
    ensures Wrap32(Wrap32(Wrap32(x0) + Wrap32(x1)) + Wrap32(x2)) == Wrap32(x0 + x1 + x2)
  {
    Wrap32AddBoth(x0, x1);
    Wrap32AddBoth(x0 + x1, x2);
  }

  /** Four bytes present at the position are read as the unsigned big-endian
      number they spell, wrapped to an int, and are consumed. */
  lemma {:induction false} ReadInt32Present(d: seq<byte>, p: nat)
    requires p + 4 <= |d|
    ensures ReadInt32(d, p) == (Wrap32(BigEndian4(d[p], d[p + 1], d[p + 2], d[p + 3])), p + 4)
  {
    var v0 := d[p] as int * 0x100_0000;
    var v1 := v0 + d[p + 1] as int * 0x1_0000;
    var v2 := v1 + d[p + 2] as int * 0x100;
    assert ShiftAdd(d, p + 3, 0, v2) == (v2 + d[p + 3], p + 4);
    assert ShiftAdd(d, p + 2, 8, v1) == ShiftAdd(d, p + 3, 0, v2);
    assert ShiftAdd(d, p + 1, 16, v0) == ShiftAdd(d, p + 2, 8, v1);
    assert ShiftAdd(d, p, 24, 0) == ShiftAdd(d, p + 1, 16, v0);
  }

  /** Three bytes present at the position are read as the non-negative number
      they spell, and are consumed. */
  lemma {:induction false} ReadInt24Present(d: seq<byte>, p: nat)
    requires p + 3 <= |d|
    ensures ReadInt24(d, p) == (BigEndian3(d[p], d[p + 1], d[p + 2]), p + 3)
    ensures 0 <= ReadInt24(d, p).0 < 0x100_0000
  {
    var v0 := d[p] as int * 0x1_0000;
    var v1 := v0 + d[p + 1] as int * 0x100;
    var v := v1 + d[p + 2];
    assert ShiftAdd(d, p + 2, 0, v1) == (v, p + 3);
    assert ShiftAdd(d, p + 1, 8, v0) == ShiftAdd(d, p + 2, 0, v1);
    assert ShiftAdd(d, p, 16, 0) == ShiftAdd(d, p + 1, 8, v0);
    assert v == BigEndian3(d[p], d[p + 1], d[p + 2]);
    assert 0 <= v < 0x100_0000;
    Wrap32Unique(v, v, 0);
  }

  /** `w` lies in `data` from position `i` on, byte after byte. */
  predicate At(data: seq<byte>, i: nat, w: seq<byte>)
    decreases |w|
  {
    if w == [] then i <= |data| else i < |data| && data[i] == w[0] && At(data, i + 1, w[1..])
  }

  /** A piece that lies in the data fits in it, and its bytes are the data's. */
  lemma {:induction false} AtIndex(data: seq<byte>, i: nat, w: seq<byte>)
    requires At(data, i, w)
    ensures i + |w| <= |data|
    ensures forall k :: 0 <= k < |w| ==> data[i + k] == w[k]
    decreases |w|
  {
    if w != [] {
      AtIndex(data, i + 1, w[1..]);
      forall k | 1 <= k < |w|
        ensures data[i + k] == w[k]
      {
        assert data[(i + 1) + (k - 1)] == w[1..][k - 1];
      }
    }
  }

  /** Conversely, matching bytes make a piece lie in the data. */
  lemma {:induction false} AtFromIndex(data: seq<byte>, i: nat, w: seq<byte>)
    requires i + |w| <= |data|
    requires forall k :: 0 <= k < |w| ==> data[i + k] == w[k]
    ensures At(data, i, w)
    decreases |w|
  {
    if w != [] {
      assert data[i + 0] == w[0];
      forall k | 0 <= k < |w[1..]|
        ensures data[(i + 1) + k] == w[1..][k]
      {
        assert data[i + (k + 1)] == w[k + 1];
      }
      AtFromIndex(data, i + 1, w[1..]);
    }
  }

  /** A piece that lies in the data is the slice at its place. */
  lemma {:induction false} AtSlice(data: seq<byte>, i: nat, w: seq<byte>)
    requires At(data, i, w)
    ensures i + |w| <= |data| && data[i..i + |w|] == w
  {
    AtIndex(data, i, w);
  }

  /** What was written between `pre` and `post` lies right after `pre`. */
  lemma {:induction false} AtWritten(pre: seq<byte>, w: seq<byte>, post: seq<byte>)
    ensures At(pre + w + post, |pre|, w)
  {
    var data := pre + w + post;
    forall k | 0 <= k < |w|
      ensures data[|pre| + k] == w[k]
    {
    }
    AtFromIndex(data, |pre|, w);
  }

  /** Two pieces written one after the other lie one after the other. */
  lemma {:induction false} AtSplit(data: seq<byte>, i: nat, a: seq<byte>, b: seq<byte>)
    requires At(data, i, a + b)
    ensures At(data, i, a) && At(data, i + |a|, b)
    decreases |a|
  {
    if a == [] {
      assert a + b == b;
      AtIndex(data, i, b);
    } else {
      assert (a + b)[0] == a[0];
      assert (a + b)[1..] == a[1..] + b;
      AtSplit(data, i + 1, a[1..], b);
    }
  }

  /** Reading an int where `WriteInt32` wrote one yields that int and consumes
      exactly its four bytes. */
  lemma {:induction false} ReadInt32At(data: seq<byte>, i: nat, v: int32)
    requires At(data, i, WriteInt32(v))
    ensures ReadInt32(data, i) == (v, i + 4)
  {
    var w := WriteInt32(v);
    WriteInt32Digits(v);
    AtIndex(data, i, w);
    assert data[i] == w[0] && data[i + 1] == w[1] && data[i + 2] == w[2] && data[i + 3] == w[3];
    ReadInt32Present(data, i);
    Wrap32Unique(BigEndian4(w[0], w[1], w[2], w[3]), v, -(v / 0x1_0000_0000));
  }

  /** Round trip of the big-endian int codec: reading back what `WriteInt32`
      wrote yields the same int and consumes exactly those four bytes. */
  lemma {:induction false} ReadWriteInt32(pre: seq<byte>, v: int32, post: seq<byte>)
    ensures ReadInt32(pre + WriteInt32(v) + post, |pre|) == (v, |pre| + 4)
  {
    AtWritten(pre, WriteInt32(v), post);
    ReadInt32At(pre + WriteInt32(v) + post, |pre|, v);
  }

  /** Reading where `WriteInt24` wrote yields the written value modulo 2^24
      and consumes exactly its three bytes. */
  lemma {:induction false} ReadInt24At(data: seq<byte>, i: nat, v: int32)
    requires At(data, i, WriteInt24(v))
    ensures ReadInt24(data, i) == (v % 0x100_0000, i + 3)
  {
    var w := WriteInt24(v);
    WriteInt24Digits(v);
    AtIndex(data, i, w);
    assert data[i] == w[0] && data[i + 1] == w[1] && data[i + 2] == w[2];
    ReadInt24Present(data, i);
  }

  /** Round trip of the 24-bit codec: the value comes back reduced modulo 2^24,
      so every value in [0, 2^24) comes back unchanged. */
  lemma {:induction false} ReadWriteInt24(pre: seq<byte>, v: int32, post: seq<byte>)
    ensures ReadInt24(pre + WriteInt24(v) + post, |pre|) == (v % 0x100_0000, |pre| + 3)
    ensures 0 <= v < 0x100_0000 ==> ReadInt24(pre + WriteInt24(v) + post, |pre|).0 == v
  {
    AtWritten(pre, WriteInt24(v), post);
    ReadInt24At(pre + WriteInt24(v) + post, |pre|, v);
  }

  // ---------------------------------------------------------------------------
  // BitConverter, fixed to little-endian

  /** `BitConverter.GetBytes(int)`: four bytes, least significant first. */
  function LittleEndian(v: int32): (r: seq<byte>)
    ensures |r| == 4
  {
    LittleEndianBytes(v, 4)
  }

  /** The four `BitConverter` bytes spell the two's-complement representation
      of `v`, least significant first. */
  lemma {:induction false} LittleEndianDigits(v: int32)
    ensures (var w := LittleEndian(v); BigEndian4(w[3], w[2], w[1], w[0]) == v % 0x1_0000_0000)
  {
    var q1 := v / 0x100; var q2 := q1 / 0x100; var q3 := q2 / 0x100;
    assert LittleEndianBytes(q3, 1) == [ToByte(q3)];
    assert LittleEndianBytes(q2, 2) == [ToByte(q2), ToByte(q3)];
    assert LittleEndianBytes(q1, 3) == [ToByte(q1), ToByte(q2), ToByte(q3)];
    assert LittleEndian(v) == [ToByte(v), ToByte(q1), ToByte(q2), ToByte(q3)];
    Digits4(v, q1, q2, q3);
  }

  /** `BitConverter.ToInt32(bytes, 0)`: the first four bytes read least
      significant first, as an int; the source throws on fewer than four. */
  function FromLittleEndian(bytes: seq<byte>): int32
    requires |bytes| >= 4
  {
    Wrap32(BigEndian4(bytes[3], bytes[2], bytes[1], bytes[0]))
  }

  /** `BitConverter` round trip. */
  lemma {:induction false} LittleEndianRoundTrip(v: int32)
    ensures FromLittleEndian(LittleEndian(v)) == v
  {
    var b := LittleEndian(v);
    LittleEndianDigits(v);
    Wrap32Unique(BigEndian4(b[3], b[2], b[1], b[0]), v, -(v / 0x1_0000_0000));
  }
}

=== FILE: callbacks.dfy ===
/** The engine callbacks and the read context of FasterDictionary.Types.cs.

    The storage engine calls these while it serves a request. Only what they
    do to their arguments matters here: the readers copy the stored value out,
    the writers copy the new value in, and the two "in place" callbacks always
    refuse, because `ValueEnvelope.SameSize` is constantly false. A pending
    read delivers its answer later through `ReadCompletionCallback`, which
    parks it in a `Context` until the handler consumes it. */
module Callbacks {
  import opened Wrappers

  /** The engine's status codes. */
  datatype Status = OK | NOTFOUND | PENDING | ERROR

  // ---------------------------------------------------------------------------
  // Context

  /** `Context`: the status and output a completed read left behind. An output
      of `None` stands for `default(OutputEnvelope)`. */
  datatype Context<V> = Context(status: Status, output: Option<V>)

  /** A new context holds NOTFOUND and the default output. */
  function Fresh<V>(): (c: Context<V>)
    ensures c.status == NOTFOUND && c.output == None
  {
    Context(NOTFOUND, None)
  }

  /** `CompleteRead`: keep the status and output of a completed read. */
  function CompleteRead<V>(ctx: Context<V>, status: Status, output: Option<V>): (c: Context<V>)
    ensures c.status == status && c.output == output
  {
    Context(status, output)
  }

  /** `Consume`: hand out what the context holds and reset it to a new one. */
  function Consume<V>(ctx: Context<V>): (r: (Status, Option<V>, Context<V>))
    ensures r.0 == ctx.status && r.1 == ctx.output
    ensures r.2 == Fresh()
  {
    var output := ctx.output;
    var status := ctx.status;
    (status, output, Fresh())
  }

  /** One call on a context. */
  datatype Call<V> = Completed(status: Status, output: Option<V>) | Consumed

  /** A context after a history of calls, oldest first. */
  function Replay<V>(ctx: Context<V>, calls: seq<Call<V>>): Context<V>
    decreases |calls|
  {
    if |calls| == 0 then ctx
    else
      var before := Replay(ctx, calls[..|calls| - 1]);
      match calls[|calls| - 1]
      case Completed(s, o) => CompleteRead(before, s, o)
      case Consumed => Consume(before).2
  }

  /** The index of the latest `Consume` in a history, or -1 when there is none. */
  function LastConsume<V>(calls: seq<Call<V>>): (k: int)
    ensures -1 <= k < |calls|
    ensures 0 <= k ==> calls[k].Consumed?
    decreases |calls|
  {
    if |calls| == 0 then -1
    else if calls[|calls| - 1].Consumed? then |calls| - 1
    else LastConsume(calls[..|calls| - 1])
  }

  /** The index of the latest completion in a history, or -1 when there is none. */
  function LastCompletion<V>(calls: seq<Call<V>>): (k: int)
    ensures -1 <= k < |calls|
    ensures 0 <= k ==> calls[k].Completed?
    decreases |calls|
  {
    if |calls| == 0 then -1
    else if calls[|calls| - 1].Completed? then |calls| - 1
    else LastCompletion(calls[..|calls| - 1])
  }

  /** Starting from a new context, `Consume` returns exactly the status and
      output of the latest completion when no `Consume` came after it, and
      NOTFOUND with the default output otherwise. */
  lemma {:induction false} ConsumeSeesLatest<V>(calls: seq<Call<V>>)
    ensures var r := Consume(Replay(Fresh(), calls));
            var k := LastCompletion(calls);
            if k > LastConsume(calls) then r.0 == calls[k].status && r.1 == calls[k].output
            else r.0 == NOTFOUND && r.1 == None
    decreases |calls|
  {
    if |calls| > 0 {
      var init := calls[..|calls| - 1];
      ConsumeSeesLatest(init);
      if calls[|calls| - 1].Consumed? {
        assert LastCompletion(calls) == LastCompletion(init);
      } else {
        assert LastConsume(calls) == LastConsume(init);
      }
    }
  }

  // ---------------------------------------------------------------------------
  // Functions callbacks

  /** `ValueEnvelope.SameSize`: never true. */
  function SameSize<V>(value: V, content: V): (r: bool)
    ensures !r
  {
    false
  }

  /** `ConcurrentWriter`: would overwrite `dst` in place when the sizes agree;
      since they never do, it refuses and leaves `dst` untouched. */
  function ConcurrentWriter<V>(src: V, dst: V): (r: (bool, V))
    ensures r == (false, dst)
  {
    if !SameSize(src, dst) then (false, dst) else (true, src)
  }

  /** `InPlaceUpdater`: would store the input in place; it refuses likewise. */
  function InPlaceUpdater<V>(input: V, value: V): (r: (bool, V))
    ensures r == (false, value)
  {
    if !SameSize(value, input) then (false, value) else (true, input)
  }

  /** `CopyUpdater`: the new value is the old value; the input is ignored. */
  function CopyUpdater<V>(input: V, oldValue: V): (newValue: V)
  {
    oldValue
  }

  /** `InitialUpdater`: the new value holds the input. */
  function InitialUpdater<V>(input: V): (value: V)
  {
    input
  }

  /** `SingleWriter`: the destination becomes the source. */
  function SingleWriter<V>(src: V): (dst: V)
  {
    src
  }

  /** `SingleReader` and `ConcurrentReader`: the output holds the stored value. */
  function Reader<V>(value: V): (dst: Option<V>)
  {
    Some(value)
  }

  /** `ReadCompletionCallback`: the status and output go to the context. */
  function ReadCompletionCallback<V>(ctx: Context<V>, output: Option<V>, status: Status): (c: Context<V>)
  {
    CompleteRead(ctx, status, output)
  }
}

=== FILE: engine.dfy ===
/** The storage engine as the dictionary sees it.

    The key-value engine underneath the dictionary is a hybrid log: every
    upsert appends a record holding the key and the new value, and every
    delete writes a tombstone for the key. The engine's hash index, page
    allocator and devices are not modelled; what is kept is the record log
    between its begin address (0 here) and its tail, the safe-read-only
    address that trails the tail, and the rule that the store is what replaying
    the log leaves behind. Whether a request is answered from memory, goes to
    disk, faults or throws is the engine's business: it arrives here as an
    `Io` parameter of each call. */
module Engine {
  import opened Wrappers
  import opened Callbacks

  /** A log record: a value written for a key, or a tombstone deleting it. */
  datatype Record<K, V> = Put(key: K, value: V) | Tomb(key: K)

  /** The record log and its safe-read-only address; the tail is `|records|`. */
  datatype Log<K, V> = Log(records: seq<Record<K, V>>, safeReadOnly: nat)
  {
    ghost predicate Valid() {
      safeReadOnly <= |records|
    }

    function Tail(): nat {
      |records|
    }
  }

  /** The begin address: no compaction is modelled, so the log starts at 0. */
  const Begin: nat := 0

  /** How the engine goes about one request. `Served`: from memory, in the
      call itself. `Pending`: the record is on disk and the call returns
      PENDING; the answer comes back through the completion callbacks.
      `Faulted`: the call returns ERROR. `Throws`: the call raises. */
  datatype Io = Served | Pending | Faulted | Throws(message: string)

  // ---------------------------------------------------------------------------
  // The store a log stands for

  /** The map a log leaves behind, replayed oldest record first. */
  function Replay<K(==), V>(records: seq<Record<K, V>>): map<K, V>
    decreases |records|
  {
    if |records| == 0 then map[]
    else
      var before := Replay(records[..|records| - 1]);
      match records[|records| - 1]
      case Put(k, v) => before[k := v]
      case Tomb(k) => before - {k}
  }

  /** Reference definition: the value of a key is decided by its latest record,
      found by scanning back from the tail. */
  function Lookup<K(==), V>(records: seq<Record<K, V>>, k: K): Option<V>
    decreases |records|
  {
    if |records| == 0 then None
    else if records[|records| - 1].key != k then Lookup(records[..|records| - 1], k)
    else match records[|records| - 1]
      case Put(_, v) => Some(v)
      case Tomb(_) => None
  }

  /** Replaying the log and looking a key up by its latest record agree: a key
      is in the store iff its latest record is not a tombstone, and then it
      maps to that record's value. */
  lemma {:induction false} ReplayLookup<K, V>(records: seq<Record<K, V>>, k: K)
    ensures k in Replay(records) <==> Lookup(records, k).Some?
    ensures k in Replay(records) ==> Replay(records)[k] == Lookup(records, k).value
    decreases |records|
  {
    if |records| > 0 {
      ReplayLookup(records[..|records| - 1], k);
    }
  }

  /** The store a log stands for. */
  function Store<K(==), V>(log: Log<K, V>): map<K, V>
  {
    Replay(log.records[Begin..])
  }

  /** Appending a record; the safe-read-only address stays where it was. */
  function Append<K, V>(log: Log<K, V>, r: Record<K, V>): (log': Log<K, V>)
    ensures log'.records == log.records + [r]
    ensures log'.safeReadOnly == log.safeReadOnly
  {
    Log(log.records + [r], log.safeReadOnly)
  }

  /** The engine moves the safe-read-only address forward, never past the tail
      and never back. */
  function Advance<K, V>(log: Log<K, V>, to: nat): (log': Log<K, V>)
    requires log.Valid()
    ensures log'.Valid() && log'.records == log.records
    ensures log.safeReadOnly <= log'.safeReadOnly <= log.Tail()
    ensures log'.safeReadOnly == to || log'.safeReadOnly == log.safeReadOnly || log'.safeReadOnly == log.Tail()
  {
    if to <= log.safeReadOnly then log
    else if to <= log.Tail() then log.(safeReadOnly := to)
    else log.(safeReadOnly := log.Tail())
  }

  // ---------------------------------------------------------------------------
  // Requests

  /** `Read`: from memory the stored value is copied out by `SingleReader`
      (OK) or the key is missing (NOTFOUND); from disk the call returns PENDING
      with no output yet. */
  function Read<K(==), V>(log: Log<K, V>, k: K, io: Io): (r: Result<(Status, Option<V>)>)
    ensures r.Failure? <==> io.Throws?
    ensures io.Served? ==> r.value.0 in {OK, NOTFOUND}
    ensures io.Pending? ==> r.value == (PENDING, None)
    ensures io.Faulted? ==> r.value.0 == ERROR
  {
    match io
    case Served =>
      var store := Store(log);
      if k in store then Success((OK, Reader(store[k]))) else Success((NOTFOUND, None))
    case Pending => Success((PENDING, None))
    case Faulted => Success((ERROR, None))
    case Throws(m) => Failure(m)
  }

  /** `CompletePending` after a pending read: the record arrives from disk and
      `ReadCompletionCallback` parks what a read from memory would have
      answered in the context. */
  function CompletePendingRead<K(==), V>(log: Log<K, V>, k: K, ctx: Context<V>): (ctx': Context<V>)
  {
    var store := Store(log);
    if k in store then ReadCompletionCallback(ctx, Reader(store[k]), OK)
    else ReadCompletionCallback(ctx, None, NOTFOUND)
  }

  /** A pending read, once completed, leaves for `Consume` exactly what the
      same read from memory returns. */
  lemma {:induction false} PendingReadMatchesServed<K, V>(log: Log<K, V>, k: K, ctx: Context<V>)
    ensures var c := Consume(CompletePendingRead(log, k, ctx));
            Read(log, k, Served) == Success((c.0, c.1))
  {
  }

  /** `Delete`: a tombstone is written for a live key (OK); a missing key is
      left alone (NOTFOUND). From disk the tombstone is written once the
      pending I/O completes and the call returns PENDING. */
  function Delete<K(==), V>(log: Log<K, V>, k: K, io: Io): (r: Result<(Status, Log<K, V>)>)
    ensures r.Failure? <==> io.Throws?
    ensures io.Served? ==> r.value.0 in {OK, NOTFOUND}
    ensures io.Pending? ==> r.value.0 == PENDING
    ensures io.Faulted? ==> r.value == (ERROR, log)
  {
    match io
    case Served =>
      if k in Store(log) then Success((OK, Append(log, Tomb(k)))) else Success((NOTFOUND, log))
    case Pending => Success((PENDING, Append(log, Tomb(k))))
    case Faulted => Success((ERROR, log))
    case Throws(m) => Failure(m)
  }

  /** `Upsert`: the engine would let `ConcurrentWriter` overwrite a live
      record in place, but that callback always refuses (its contract in
      `Callbacks`), so the engine appends a new record, filled by
      `SingleWriter`. */
  function Upsert<K(==), V>(log: Log<K, V>, k: K, v: V, io: Io): (r: Result<(Status, Log<K, V>)>)
    ensures r.Failure? <==> io.Throws?
    ensures io.Faulted? ==> r.value == (ERROR, log)
  {
    match io
    case Served | Pending =>
      Success((OK, Append(log, Put(k, SingleWriter(v)))))
    case Faulted => Success((ERROR, log))
    case Throws(m) => Failure(m)
  }

  /** A read from memory answers OK with the stored value exactly when the key
      is in the store, and NOTFOUND exactly when it is not. */
  lemma {:induction false} ReadServed<K, V>(log: Log<K, V>, k: K)
    ensures Read(log, k, Served).value.0 == OK <==> k in Store(log)
    ensures k in Store(log) ==> Read(log, k, Served).value.1 == Some(Store(log)[k])
    ensures k !in Store(log) ==> Read(log, k, Served).value == (NOTFOUND, None)
  {
  }

  /** A successful upsert maps the key to the new value and leaves every other
      key as it was; judged by the latest record of each key. */
  lemma {:induction false} UpsertStores<K, V>(log: Log<K, V>, k: K, v: V, io: Io, other: K)
    requires io.Served? || io.Pending?
    ensures var (status, log') := Upsert(log, k, v, io).value;
            status == OK &&
            Store(log') == Store(log)[k := v] &&
            Lookup(log'.records, k) == Some(v) &&
            (other != k ==> Lookup(log'.records, other) == Lookup(log.records, other))
  {
    var log' := Upsert(log, k, v, io).value.1;
    assert log'.records == log.records + [Put(k, v)];
    assert log'.records[..|log'.records| - 1] == log.records;
    assert log'.records[Begin..] == log'.records && log.records[Begin..] == log.records;
  }

  /** A delete that writes its tombstone takes the key out of the store and
      leaves every other key as it was. */
  lemma {:induction false} DeleteRemoves<K, V>(log: Log<K, V>, k: K, io: Io, other: K)
    requires io.Served? || io.Pending?
    ensures var (status, log') := Delete(log, k, io).value;
            Store(log') == Store(log) - {k} &&
            Lookup(log'.records, k) == None &&
            (other != k ==> Lookup(log'.records, other) == Lookup(log.records, other)) &&
            (io.Served? ==> (status == OK <==> k in Store(log)))
  {
    var log' := Delete(log, k, io).value.1;
    assert log'.records[Begin..] == log'.records && log.records[Begin..] == log.records;
    if log' != log {
      assert log'.records == log.records + [Tomb(k)];
      assert log'.records[..|log'.records| - 1] == log.records;
    } else {
      ReplayLookup(log.records, k);
    }
  }
}

=== FILE: iterate_scenarios.dfy ===
/** The enumeration scenarios of the repository's tests
    (tests/FasterDictionary.Tests): an `await foreach` over the dictionary is
    an acquire followed by one iterate job per `MoveNextAsync`, served from
    memory. The enumeration hands out every key of the store once, each with
    its latest value, and then ends; after a restart it hands out what the
    last checkpoint held. */
module IterateScenarios {
  import opened Wrappers
  import opened Engine
  import opened Jobs
  import opened Snapshot
  import opened Actor
  import opened Scenarios

  // ---------------------------------------------------------------------------
  // Lists of keys

  /** No element occurs twice. */
  ghost predicate Distinct<K>(s: seq<K>)
  {
    forall a, b :: 0 <= a < b < |s| ==> s[a] != s[b]
  }

  /** The elements of a sequence without repeats are as many as its length. */
  lemma {:induction false} DistinctCard<K>(s: seq<K>)
    requires Distinct(s)
    ensures |set x | x in s| == |s|
    decreases |s|
  {
    if |s| > 0 {
      var init, last := s[..|s| - 1], s[|s| - 1];
      DistinctCard(init);
      assert s == init + [last];
      assert last !in init by {
        forall a | 0 <= a < |init| ensures init[a] != last {
          assert s[a] == init[a];
        }
      }
      assert (set x | x in s) == (set x | x in init) + {last};
    }
  }

  /** Two sequences without repeats holding the same elements are equally
      long. */
  lemma {:induction false} SameMembersSameLength<K>(a: seq<K>, b: seq<K>)
    requires Distinct(a) && Distinct(b)
    requires forall k :: k in a <==> k in b
    ensures |a| == |b|
  {
    DistinctCard(a);
    DistinctCard(b);
    assert (set x | x in a) == (set x | x in b);
  }

  /** `keys` holds the elements of `list` and nothing else, each once. */
  ghost predicate Lists<K(!new)>(keys: seq<K>, list: seq<K>)
  {
    |keys| == |list| && Distinct(keys) && forall k :: k in keys <==> k in list
  }

  /** The keys 0 to n-1, in order. */
  function Below(n: nat): (keys: seq<int>)
    ensures |keys| == n && Distinct(keys)
    ensures forall k :: k in keys <==> 0 <= k < n
  {
    if n == 0 then []
    else
      var init := Below(n - 1);
      var keys := init + [n - 1];
      assert forall a :: 0 <= a < |init| ==> keys[a] == init[a] && init[a] in init;
      keys
  }

  /** The keys below n that are not multiples of 4, in increasing order. */
  function Survivors(n: nat): (keys: seq<int>)
    ensures Distinct(keys)
    ensures forall k :: k in keys <==> 0 <= k < n && k % 4 != 0
  {
    if n == 0 then []
    else
      var init := Survivors(n - 1);
      if (n - 1) % 4 != 0 then
        var keys := init + [n - 1];
        assert forall a :: 0 <= a < |init| ==> keys[a] == init[a] && init[a] in init;
        keys
      else init
  }

  // ---------------------------------------------------------------------------
  // Enumerating a store

  /** The store maps exactly the keys of `list`, each `k` to `h(k)`. */
  ghost predicate Holds<V>(store: map<int, V>, list: seq<int>, h: int -> V)
  {
    (forall k :: k in store <==> k in list) && forall k :: k in store ==> store[k] == h(k)
  }

  /** From position p on, `outs` are what an `await foreach` sees: the
      acquire succeeds, the next |keys| `MoveNextAsync` calls hand out the
      keys in order, each `k` with `h(k)`, and the one after reports the
      end. */
  ghost predicate Enumerates<V>(outs: seq<Outcome<int, V>>, p: nat, keys: seq<int>, h: int -> V)
  {
    |outs| == p + |keys| + 2 && outs[p] == Done(true, None, None) &&
    (forall i :: 0 <= i < |keys| ==> outs[p + 1 + i] == Done(true, Some(keys[i]), Some(h(keys[i])))) &&
    outs[p + |keys| + 1] == Done(false, None, None)
  }

  /** An acquire and m iterate jobs. */
  function Enumeration<V>(m: nat): seq<Job<int, V>>
  {
    [NewJob(AcquireIteratorJob)] + IterateJobs<int, V>(m)
  }

  /** A dictionary whose store holds exactly the c keys of `list`, each `k`
      with `h(k)`: an `await foreach` with one `MoveNextAsync` more than there
      are keys, served from memory, hands out every key of the list once,
      each with its value, and then ends. */
  lemma {:induction false} EnumerationOf<V>(s: State<int, V>, list: seq<int>, h: int -> V, c: nat)
    requires Valid(s) && !s.stopped && s.iteration.None?
    requires |list| == c && Distinct(list) && Holds(Store(s.log), list, h)
    ensures Runnable(Enumeration<V>(c + 1), InMemory(c + 2))
    ensures var keys := SnapshotKeys(s.log);
            Enumerates(Run(s, Enumeration<V>(c + 1), InMemory(c + 2)).1, 0, keys, h) && Lists(keys, list)
  {
    var m := c + 1;
    var envs := InMemory(m + 1);
    assert Enumeration<V>(m) == [NewJob(AcquireIteratorJob)] + IterateJobs<int, V>(m);
    assert Answers(envs);
    AcquireThenIterate(s, m, envs);
    ReadEnumeration(Store(s.log), SnapshotKeys(s.log), list, h, Run(s, Enumeration<V>(m), envs).1);
  }

  /** Answers that follow a successful acquire and read the keys of a
      snapshot of the store one by one, for a store holding exactly the keys
      of `list`: they hand out every key of the list once, each with its
      value, and then report the end. */
  lemma {:induction false} ReadEnumeration<V>(store: map<int, V>, keys: seq<int>, list: seq<int>, h: int -> V, outs: seq<Outcome<int, V>>)
    requires Distinct(list) && Holds(store, list, h) && |outs| == |list| + 2
    requires (forall k :: k in keys <==> k in store) && Distinct(keys)
    requires outs[0] == Done(true, None, None)
    requires forall i :: 0 <= i < |list| + 1 ==> outs[1 + i] == IterAnswer(store, keys, i)
    ensures Enumerates(outs, 0, keys, h) && Lists(keys, list)
  {
    forall k ensures k in keys <==> k in list {
      assert k in keys <==> k in store;
    }
    SameMembersSameLength(keys, list);
    forall i | 0 <= i < |keys| ensures outs[1 + i] == Done(true, Some(keys[i]), Some(h(keys[i]))) {
      var k := keys[i];
      assert k in keys;
      assert k in keys <==> k in store;
      assert outs[1 + i] == IterAnswer(store, keys, i);
    }
    assert outs[1 + |list|] == IterAnswer(store, keys, |list|);
  }

  /** Jobs queued after a session started on an empty disk are served on the
      state the session leaves, and answer after the session's calls. */
  lemma {:induction false} SessionThen<K, V>(reqs: seq<Request<K, V>>, b: seq<Job<K, V>>, logged: bool)
    requires Runnable(b, InMemory(|b|))
    ensures Runnable(JobsOf(reqs) + b, InMemory(|reqs|) + InMemory(|b|))
    ensures Run(Start([], logged), JobsOf(reqs) + b, InMemory(|reqs|) + InMemory(|b|)).1 ==
            FromEmpty(reqs, logged).1 + Run(FromEmpty(reqs, logged).0, b, InMemory(|b|)).1
  {
    var first := FromEmpty(reqs, logged);
    var rest := Run(first.0, b, InMemory(|b|));
    RunAppend(Start([], logged), JobsOf(reqs), InMemory(|reqs|), b, InMemory(|b|));
    assert Run(Start([], logged), JobsOf(reqs) + b, InMemory(|reqs|) + InMemory(|b|)) == (rest.0, first.1 + rest.1);
  }

  /** An enumeration's answers read at their place after other calls. */
  lemma {:induction false} Shifted<V>(first: seq<Outcome<int, V>>, tail: seq<Outcome<int, V>>, keys: seq<int>, h: int -> V)
    requires Enumerates(tail, 0, keys, h)
    ensures Enumerates(first + tail, |first|, keys, h)
  {
    var outs, p := first + tail, |first|;
    forall i | 0 <= i < |keys| ensures outs[p + 1 + i] == Done(true, Some(keys[i]), Some(h(keys[i]))) {
      assert outs[p + 1 + i] == tail[1 + i];
    }
    assert outs[p] == tail[0];
    assert outs[p + |keys| + 1] == tail[|keys| + 1];
  }

  /** A session of p calls started on an empty disk that leaves the store
      holding exactly the c keys of `list`, each `k` with `h(k)`, followed by
      an `await foreach`: the enumeration answers after the session's calls
      as it would on its own. */
  lemma {:induction false} EnumerationAfter<V>(reqs: seq<Request<int, V>>, list: seq<int>, h: int -> V, p: nat, c: nat, logged: bool)
    requires |reqs| == p && |list| == c && Distinct(list)
    requires var s := FromEmpty(reqs, logged).0;
             !s.stopped && s.iteration.None? && Holds(Store(s.log), list, h)
    ensures Runnable(JobsOf(reqs) + Enumeration<V>(c + 1), InMemory(p) + InMemory(c + 2))
    ensures var keys := SnapshotKeys(FromEmpty(reqs, logged).0.log);
            Enumerates(Run(Start([], logged), JobsOf(reqs) + Enumeration<V>(c + 1), InMemory(p) + InMemory(c + 2)).1, p, keys, h) &&
            Lists(keys, list)
  {
    var s := FromEmpty(reqs, logged).0;
    EnumerationOf(s, list, h, c);
    var tail := Run(s, Enumeration<V>(c + 1), InMemory(c + 2)).1;
    SessionThen(reqs, Enumeration<V>(c + 1), logged);
    Shifted(FromEmpty(reqs, logged).1, tail, SnapshotKeys(s.log), h);
  }

  // ---------------------------------------------------------------------------
  // The scenarios

  /** The session of AddIterate: upserting f(i) under each key i below n and
      a ping leave a dictionary that can enumerate, whose store maps exactly
      the keys below n, each to f of it. */
  lemma {:induction false} WritesSession<V>(n: nat, f: int -> V, logged: bool)
    ensures var s := FromEmpty(Upserts(n, f) + [Ping], logged).0;
            !s.stopped && s.iteration.None? && Holds(Store(s.log), Below(n), f)
  {
    var reqs: seq<Request<int, V>> := Upserts(n, f) + [Ping];
    UpsertRound(map[], n, f);
    FromEmptyIsDictionary(reqs, logged);
  }

  /** AddIterate: after upserting f(i) under each key i below n and a ping, an
      `await foreach` hands out the n keys below n, each once with its value,
      and then ends. */
  lemma {:induction false} IterateAfterWrites<V>(n: nat, f: int -> V, logged: bool)
    ensures var reqs := Upserts(n, f) + [Ping];
            var keys := SnapshotKeys(FromEmpty(reqs, logged).0.log);
            Enumerates(Run(Start([], logged), JobsOf(reqs) + Enumeration<V>(n + 1), InMemory(n + 1) + InMemory(n + 2)).1, n + 1, keys, f) &&
            Lists(keys, Below(n))
  {
    WritesSession(n, f, logged);
    EnumerationAfter(Upserts(n, f) + [Ping], Below(n), f, n + 1, n, logged);
  }

  /** A session started on a disk, serving calls without Dispose from memory
      and ending with a save: the dictionary started next on its disk has the
      store the map of those calls leaves, starting from the recovered
      store. */
  lemma {:induction false} SessionOnDisk<V>(disk: seq<Log<int, V>>, reqs: seq<Request<int, V>>, logged: bool)
    requires forall i :: 0 <= i < |disk| ==> disk[i].Valid()
    requires NoDispose(reqs) && |reqs| > 0 && reqs[|reqs| - 1].Save?
    ensures var s' := Run(Start(disk, logged), JobsOf(reqs), InMemory(|reqs|)).0;
            (forall i :: 0 <= i < |s'.disk| ==> s'.disk[i].Valid()) &&
            Store(Start(s'.disk, logged).log) == Dictionary(Store(Start(disk, logged).log), reqs).0
  {
    var s := Start(disk, logged);
    var s' := Run(s, JobsOf(reqs), InMemory(|reqs|)).0;
    RunRefinesDictionary(s, reqs);
    SaveReachesDisk(s, reqs);
    assert Start(s'.disk, logged).log == s'.log;
  }

  /** The first session of the restart tests: upserts of f(i) under each key
      below n, a ping and a save. */
  function FirstSession<V>(n: nat, f: int -> V): seq<Request<int, V>>
  {
    Upserts(n, f) + [Ping, Save]
  }

  /** The disk the first session leaves behind holds a store mapping each key
      below n to f of it, and nothing else. */
  lemma {:induction false} FirstSessionDisk<V>(n: nat, f: int -> V, logged: bool)
    ensures var disk := FromEmpty(FirstSession(n, f), logged).0.disk;
            (forall i :: 0 <= i < |disk| ==> disk[i].Valid()) &&
            Holds(Store(Start(disk, logged).log), Below(n), f)
  {
    var reqs := FirstSession(n, f);
    assert reqs == (Upserts(n, f) + [Ping]) + [Save];
    UpsertRound(map[], n, f);
    NoDisposeAppend(Upserts(n, f) + [Ping], [Save]);
    DictionaryAppend(map[], Upserts(n, f) + [Ping], [Save]);
    RestartRecoversDictionary(reqs, logged);
    var s := FromEmpty(reqs, logged).0;
    assert Valid(s);
  }

  /** AddRestartIterateOnce, the iteration: on the dictionary restarted after
      the first session, an `await foreach` hands out the n keys below n,
      each once with its value, and then ends. */
  lemma {:induction false} RecoverThenIterate<V>(n: nat, f: int -> V, logged: bool)
    ensures var restarted := Start(FromEmpty(FirstSession(n, f), logged).0.disk, logged);
            var keys := SnapshotKeys(restarted.log);
            Enumerates(Run(restarted, Enumeration<V>(n + 1), InMemory(n + 2)).1, 0, keys, f) &&
            Lists(keys, Below(n))
  {
    FirstSessionDisk(n, f, logged);
    var restarted := Start(FromEmpty(FirstSession(n, f), logged).0.disk, logged);
    EnumerationOf(restarted, Below(n), f, n);
  }

  /** The call the rewrite session makes for key i. */
  function Rewrite<V>(i: int, g: int -> V): Request<int, V>
  {
    if i % 4 == 0 then Remove(i) else UpsertRequest(i, g(i))
  }

  /** The calls of the third session of AddIterateUpdateIterate before its
      ping and save: each key below n that is a multiple of 4 is removed and
      every other key gets g of it. */
  function Rewrites<V>(n: nat, g: int -> V): (reqs: seq<Request<int, V>>)
    ensures |reqs| == n
    ensures forall i :: 0 <= i < n ==> reqs[i] == Rewrite(i, g)
  {
    seq(n, i => Rewrite(i, g))
  }

  /** m' is m after rewriting the keys below n: the multiples of 4 below n
      are gone, the other keys below n map to g of them, and every other key
      is as in m. */
  ghost predicate Rewritten<V>(m: map<int, V>, m': map<int, V>, n: nat, g: int -> V)
  {
    (forall k :: 0 <= k < n ==> (k in m' <==> k % 4 != 0) && (k in m' ==> m'[k] == g(k))) &&
    (forall k :: !(0 <= k < n) ==> (k in m' <==> k in m) && (k in m ==> m'[k] == m[k]))
  }

  /** One more rewrite, of key n, extends a rewrite of the keys below n to
      the keys below n + 1. */
  lemma {:induction false} RewriteStep<V>(m: map<int, V>, m1: map<int, V>, n: nat, g: int -> V)
    requires Rewritten(m, m1, n, g)
    ensures Rewritten(m, Answer(m1, Rewrite(n, g)).0, n + 1, g)
  {
  }

  /** On the map, the rewrites take the multiples of 4 below n out, map the
      other keys below n to g of them, and leave every other key alone. */
  lemma {:induction false} RewritesStore<V>(m: map<int, V>, n: nat, g: int -> V)
    ensures NoDispose(Rewrites(n, g))
    ensures Rewritten(m, Dictionary(m, Rewrites(n, g)).0, n, g)
    decreases n
  {
    if n > 0 {
      RewritesStore(m, n - 1, g);
      assert Rewrites(n, g) == Rewrites(n - 1, g) + [Rewrite(n - 1, g)];
      DictionaryAppend(m, Rewrites(n - 1, g), [Rewrite(n - 1, g)]);
      RewriteStep(m, Dictionary(m, Rewrites(n - 1, g)).0, n - 1, g);
    }
  }

  /** Rewriting the keys below n of a map that holds exactly the keys below n
      leaves exactly the survivors, each with g of it. */
  lemma {:induction false} RewritesHold<V>(m: map<int, V>, m': map<int, V>, n: nat, f: int -> V, g: int -> V)
    requires Holds(m, Below(n), f) && Rewritten(m, m', n, g)
    ensures Holds(m', Survivors(n), g)
  {
    forall k ensures k in m' <==> k in Survivors(n) {
      if !(0 <= k < n) {
        assert k in m <==> k in Below(n);
      }
    }
  }

  /** The disk the rewrites leave after the first session and a restart: a
      dictionary started on it holds exactly the keys below n that are not
      multiples of 4, each with g of it. */
  lemma {:induction false} RewritesDisk<V>(n: nat, f: int -> V, g: int -> V, logged: bool)
    ensures var disk1 := FromEmpty(FirstSession(n, f), logged).0.disk;
            var third := Rewrites(n, g) + [Ping, Save];
            var disk3 := Run(Start(disk1, logged), JobsOf(third), InMemory(|third|)).0.disk;
            (forall i :: 0 <= i < |disk3| ==> disk3[i].Valid()) &&
            Holds(Store(Start(disk3, logged).log), Survivors(n), g)
  {
    FirstSessionDisk(n, f, logged);
    var disk1 := FromEmpty(FirstSession(n, f), logged).0.disk;
    var m1 := Store(Start(disk1, logged).log);
    var third: seq<Request<int, V>> := Rewrites(n, g) + [Ping, Save];
    RewritesStore(m1, n, g);
    NoDisposeAppend(Rewrites(n, g), [Ping, Save]);
    DictionaryAppend(m1, Rewrites(n, g), [Ping, Save]);
    assert Dictionary(m1, third).0 == Dictionary(m1, Rewrites(n, g)).0;
    RewritesHold(m1, Dictionary(m1, third).0, n, f, g);
    SessionOnDisk(disk1, third, logged);
  }

  /** The dictionary of the last session of AddIterateUpdateIterate: started
      on the disk the rewrites leave after the first session and a
      restart. Its store holds exactly the keys below n that are not
      multiples of 4, each with g of it. */
  function RewrittenRestart<V>(n: nat, f: int -> V, g: int -> V, logged: bool): (s: State<int, V>)
    ensures Valid(s) && !s.stopped && s.iteration.None?
    ensures Holds(Store(s.log), Survivors(n), g)
  {
    RewritesDisk(n, f, g, logged);
    var disk1 := FromEmpty(FirstSession(n, f), logged).0.disk;
    var third := Rewrites(n, g) + [Ping, Save];
    Start(Run(Start(disk1, logged), JobsOf(third), InMemory(|third|)).0.disk, logged)
  }

  /** AddIterateUpdateIterate, the last session: after the first session, a
      restart, the rewrites with a ping and a save, and another restart, an
      `await foreach` hands out exactly the keys below n that are not
      multiples of 4, each once with g of it, and then ends. */
  lemma {:induction false} RewriteThenIterate<V>(n: nat, f: int -> V, g: int -> V, logged: bool)
    ensures var last, c := RewrittenRestart(n, f, g, logged), |Survivors(n)|;
            var keys := SnapshotKeys(last.log);
            Enumerates(Run(last, Enumeration<V>(c + 1), InMemory(c + 2)).1, 0, keys, g) &&
            Lists(keys, Survivors(n))
  {
    EnumerationOf(RewrittenRestart(n, f, g, logged), Survivors(n), g, |Survivors(n)|);
  }
}

=== FILE: jobs.dfy ===
/** Jobs, their completion handles, and the public calls that enqueue them
    (FasterDictionary.Job.cs, FasterDictionary.API.cs, the `JobTypes` enum and
    `ReadResult` of FasterDictionary.cs).

    Every public call builds one job and puts it on the actor's queue. The
    caller then waits on the job's completion handle, which is settled at most
    once: the handlers may complete a job several times, and only the first
    completion sticks. */
module Jobs {
  import opened Wrappers

  /** `JobTypes`, plus the three iterator jobs the iterator handlers serve.
      `NoJob` is the enum's zero member. */
  datatype JobKind =
    | NoJob | UpsertJob | RemoveJob | GetJob | PingJob | SaveJob | DisposeJob
    | AcquireIteratorJob | IterateJob | ReleaseIteratorJob

  /** The numeric value of each `JobTypes` member; the iterator jobs are not
      members of the enum and have none. */
  function Code(kind: JobKind): (c: Option<int>)
    ensures c.Some? <==> !(kind.AcquireIteratorJob? || kind.IterateJob? || kind.ReleaseIteratorJob?)
  {
    match kind
    case NoJob => Some(0)
    case UpsertJob => Some(1)
    case RemoveJob => Some(2)
    case GetJob => Some(3)
    case PingJob => Some(4)
    case SaveJob => Some(5)
    case DisposeJob => Some(9)
    case _ => None
  }

  /** The enum values are distinct, so a code names one job type. */
  lemma {:induction false} CodeInjective(a: JobKind, b: JobKind)
    requires Code(a).Some? && Code(a) == Code(b)
    ensures a == b
  {
  }

  /** A job: its type, the key and input when the call supplied them (`None`
      stands for the field's default), and whether it has an `AsyncOp`. */
  datatype Job<K, V> = Job(kind: JobKind, key: Option<K>, input: Option<V>, hasOp: bool)

  /** `Job(key, input, type)`. */
  function NewJobWithInput<K, V>(key: K, input: V, kind: JobKind): (j: Job<K, V>)
    ensures j.kind == kind && j.key == Some(key) && j.input == Some(input) && j.hasOp
  {
    Job(kind, Some(key), Some(input), true)
  }

  /** `Job(key, type)`: the input keeps its default. */
  function NewJobWithKey<K, V>(key: K, kind: JobKind): (j: Job<K, V>)
    ensures j.kind == kind && j.key == Some(key) && j.input == None && j.hasOp
  {
    Job(kind, Some(key), None, true)
  }

  /** `Job(type)`: key and input keep their defaults. */
  function NewJob<K, V>(kind: JobKind): (j: Job<K, V>)
    ensures j.kind == kind && j.key == None && j.input == None && j.hasOp
  {
    Job(kind, None, None, true)
  }

  // ---------------------------------------------------------------------------
  // Completion

  /** What a caller's await ends with: still waiting, a `ReadResult`
      (found flag, the job's key, a value), or the exception it throws. */
  datatype Outcome<K, V> =
    | Waiting
    | Done(found: bool, key: Option<K>, value: Option<V>)
    | Failed(message: string)

  /** One completion a handler attempts. */
  datatype Attempt<V> = Result(found: bool, value: Option<V>) | Exception(message: string)

  /** `TrySetResult`/`TrySetException`: only a waiting handle takes the value. */
  function TrySet<K, V>(o: Outcome<K, V>, x: Outcome<K, V>): (r: Outcome<K, V>)
    ensures o.Waiting? ==> r == x
    ensures !o.Waiting? ==> r == o
  {
    if o.Waiting? then x else o
  }

  /** `Complete(found, value)` and `Complete(e)`: the result carries the job's
      own key; a job without an `AsyncOp` ignores both. */
  function Complete<K, V>(job: Job<K, V>, o: Outcome<K, V>, a: Attempt<V>): (r: Outcome<K, V>)
    ensures !job.hasOp ==> r == o
    ensures job.hasOp && o.Waiting? && a.Result? ==> r == Done(a.found, job.key, a.value)
    ensures job.hasOp && o.Waiting? && a.Exception? ==> r == Failed(a.message)
    ensures !o.Waiting? ==> r == o
  {
    if !job.hasOp then o
    else match a
      case Result(found, value) => TrySet(o, Done(found, job.key, value))
      case Exception(m) => TrySet(o, Failed(m))
  }

  /** The handle after a handler's attempts, in the order they were made. */
  function Settle<K, V>(job: Job<K, V>, attempts: seq<Attempt<V>>): Outcome<K, V>
    decreases |attempts|
  {
    if |attempts| == 0 then Waiting
    else Complete(job, Settle(job, attempts[..|attempts| - 1]), attempts[|attempts| - 1])
  }

  /** The outcome a single attempt would give. */
  function OutcomeOf<K, V>(job: Job<K, V>, a: Attempt<V>): Outcome<K, V>
  {
    match a
    case Result(found, value) => Done(found, job.key, value)
    case Exception(m) => Failed(m)
  }

  /** The first completion wins: a job with an `AsyncOp` settles with the
      outcome of its first attempt, later attempts change nothing, and it keeps
      waiting only when nothing was attempted. */
  lemma {:induction false} FirstCompletionWins<K, V>(job: Job<K, V>, attempts: seq<Attempt<V>>)
    requires job.hasOp
    ensures |attempts| == 0 <==> Settle(job, attempts).Waiting?
    ensures |attempts| > 0 ==> Settle(job, attempts) == OutcomeOf(job, attempts[0])
    decreases |attempts|
  {
    if |attempts| > 1 {
      var init := attempts[..|attempts| - 1];
      FirstCompletionWins(job, init);
      assert init[0] == attempts[0];
    }
  }

  /** A job without an `AsyncOp` is never settled, whatever is attempted. */
  lemma {:induction false} NoOpNeverSettles<K, V>(job: Job<K, V>, attempts: seq<Attempt<V>>)
    requires !job.hasOp
    ensures Settle(job, attempts).Waiting?
    decreases |attempts|
  {
    if |attempts| > 0 {
      NoOpNeverSettles(job, attempts[..|attempts| - 1]);
    }
  }

  // ---------------------------------------------------------------------------
  // The public calls

  /** The calls of FasterDictionary.API.cs that go through the queue. */
  datatype Request<K, V> =
    | Ping | Save | TryGet(key: K) | UpsertRequest(key: K, value: V) | Remove(key: K) | Dispose

  /** The job each call builds. */
  function JobFor<K, V>(req: Request<K, V>): (j: Job<K, V>)
    ensures j.hasOp
  {
    match req
    case Ping => NewJob(PingJob)
    case Save => NewJob(SaveJob)
    case TryGet(k) => NewJobWithKey(k, GetJob)
    case UpsertRequest(k, v) => NewJobWithInput(k, v, UpsertJob)
    case Remove(k) => NewJobWithKey(k, RemoveJob)
    case Dispose => NewJob(DisposeJob)
  }

  /** Reading a call back off its job; jobs that no call builds give `None`. */
  function RequestOf<K, V>(j: Job<K, V>): Option<Request<K, V>>
  {
    match j.kind
    case PingJob => if j.key.None? && j.input.None? then Some(Ping) else None
    case SaveJob => if j.key.None? && j.input.None? then Some(Save) else None
    case DisposeJob => if j.key.None? && j.input.None? then Some(Dispose) else None
    case GetJob => if j.key.Some? && j.input.None? then Some(TryGet(j.key.value)) else None
    case RemoveJob => if j.key.Some? && j.input.None? then Some(Remove(j.key.value)) else None
    case UpsertJob =>
      if j.key.Some? && j.input.Some? then Some(UpsertRequest(j.key.value, j.input.value)) else None
    case _ => None
  }

  /** Each call's job has the matching type and carries exactly the call's key
      and value, so the call can be read back off the job. */
  lemma {:induction false} JobCarriesRequest<K, V>(req: Request<K, V>)
    ensures RequestOf(JobFor(req)) == Some(req)
  {
  }

  /** `Enqueue`: the job goes at the back of the queue. */
  function Enqueue<K, V>(queue: seq<Job<K, V>>, req: Request<K, V>): (q: seq<Job<K, V>>)
    ensures |q| == |queue| + 1 && q[..|queue|] == queue
    ensures RequestOf(q[|queue|]) == Some(req)
  {
    JobCarriesRequest(req);
    queue + [JobFor(req)]
  }

  /** The queue a sequence of calls leaves, in call order. */
  function EnqueueAll<K, V>(queue: seq<Job<K, V>>, reqs: seq<Request<K, V>>): seq<Job<K, V>>
    decreases |reqs|
  {
    if |reqs| == 0 then queue else Enqueue(EnqueueAll(queue, reqs[..|reqs| - 1]), reqs[|reqs| - 1])
  }

  /** Calls made one after another leave one job each, in the order of the
      calls, behind the jobs already queued. */
  lemma {:induction false} EnqueueAllInOrder<K, V>(queue: seq<Job<K, V>>, reqs: seq<Request<K, V>>)
    ensures var q := EnqueueAll(queue, reqs);
            |q| == |queue| + |reqs| && q[..|queue|] == queue &&
            forall i :: 0 <= i < |reqs| ==> RequestOf(q[|queue| + i]) == Some(reqs[i])
    decreases |reqs|
  {
    if |reqs| > 0 {
      var init := reqs[..|reqs| - 1];
      EnqueueAllInOrder(queue, init);
      var q0 := EnqueueAll(queue, init);
      var q := EnqueueAll(queue, reqs);
      assert q == q0 + [JobFor(reqs[|reqs| - 1])];
      forall i | 0 <= i < |reqs|
        ensures RequestOf(q[|queue| + i]) == Some(reqs[i])
      {
        if i < |reqs| - 1 {
          assert q[|queue| + i] == q0[|queue| + i];
          assert init[i] == reqs[i];
        } else {
          JobCarriesRequest(reqs[i]);
        }
      }
    }
  }
}

=== FILE: padding.dfy ===
/** Bucket padding of FasterDictionary.Serializers.cs: after a bucket payload of
    `size` bytes the writer emits zero bytes and the reader skips bytes, both
    computed from `size` folded into (0, paddingSize].

    `paddingSize` is `BucketInfo.PaddingSize`, a constant of a type that is not
    part of this model; it is a positive parameter here (a non-positive one
    would make both folding loops spin forever on a positive size). */
module Padding {
  import opened Bytes

  /** The folding loop `while (size > paddingSize) size -= paddingSize;`:
      a size above `p` lands in (0, p], congruent to the original; a size at
      most `p` is left alone. */
  function Fold(size: int, p: int): (r: int)
    requires p > 0
    ensures size > p ==> 0 < r <= p
    ensures size <= p ==> r == size
    decreases size
  {
    if size > p then Fold(size - p, p) else size
  }

  /** How many times the folding loop subtracts `p`. */
  function Laps(size: int, p: int): nat
    requires p > 0
    decreases size
  {
    if size > p then Laps(size - p, p) + 1 else 0
  }

  /** Folding removes whole multiples of `p`: one for each lap. */
  lemma {:induction false} FoldLaps(size: int, p: int)
    requires p > 0
    ensures size == Fold(size, p) + p * Laps(size, p)
    decreases size
  {
    if size > p {
      FoldLaps(size - p, p);
    }
  }

  /** The number of bytes `ComsumePadding` skips: `paddingSize - folded`. */
  function SkipCount(size: int, p: int): int
    requires p > 0
  {
    p - Fold(size, p)
  }

  /** The number of zero bytes `ProducePadding` writes: its loop
      `while (size-- >= 0)` runs once for every value from `p - folded` down
      to 0, one more than the reader skips. */
  function ProduceCount(size: int, p: int): int
    requires p > 0
  {
    SkipCount(size, p) + 1
  }

  /** `n` zero bytes. */
  function Zeros(n: nat): (z: seq<byte>)
    ensures |z| == n
    ensures forall i :: 0 <= i < n ==> z[i] == 0
  {
    if n == 0 then [] else Zeros(n - 1) + [0]
  }

  /** What the reader skips, for a payload size the writer can produce: a
      non-empty payload is padded up to the next multiple of `p` (0 to p-1
      bytes), an empty one by a whole `p`. */
  lemma {:induction false} SkipAligns(size: int, p: int)
    requires p > 0 && size >= 0
    ensures size + SkipCount(size, p) == p * (Laps(size, p) + 1)
    ensures size >= 1 ==> 0 <= SkipCount(size, p) < p
    ensures size == 0 ==> SkipCount(size, p) == p
  {
    var f, k := Fold(size, p), Laps(size, p);
    FoldLaps(size, p);
    assert SkipCount(size, p) == p - f;
  }

  /** The loop of `ComsumePadding`, step for step: fold, subtract from the
      padding size, move the stream position by that many bytes. */
  method ConsumePadding(pos: nat, size: int32, p: int) returns (pos': nat)
    requires p > 0
    requires size >= 0
    ensures pos' == pos + SkipCount(size, p)
    ensures size + (pos' - pos) == p * (Laps(size, p) + 1)
  {
    var s: int := size;
    while s > p
      invariant 0 < s <= size || s == size
      invariant Fold(s, p) == Fold(size, p)
      decreases s
    {
      s := s - p;
    }
    s := p - s;
    SkipAligns(size, p);
    pos' := pos + s;
  }

  /** The loops of `ProducePadding` as written: fold, subtract from the padding
      size, then write a zero byte for every value of the post-decremented
      counter that is still >= 0. */
  method ProducePadding(size: int32, p: int) returns (written: seq<byte>)
    requires p > 0
    requires size >= 0
    ensures written == Zeros(ProduceCount(size, p))
    ensures |written| == SkipCount(size, p) + 1
  {
    var s: int := size;
    while s > p
      invariant 0 < s <= size || s == size
      invariant Fold(s, p) == Fold(size, p)
      decreases s
    {
      s := s - p;
    }
    s := p - s;
    assert s == SkipCount(size, p) >= 0;
    written := [];
    while s >= 0
      invariant -1 <= s <= SkipCount(size, p)
      invariant |written| + s == SkipCount(size, p)
      invariant forall i :: 0 <= i < |written| ==> written[i] == 0
      decreases s
    {
      s := s - 1;
      written := written + [0];
    }
  }

  /** Padding as `ComsumePadding` expects it: exactly the bytes it skips, written
      by a loop that stops at zero. */
  method ProducePaddingFixed(size: int32, p: int) returns (written: seq<byte>)
    requires p > 0
    requires size >= 0
    ensures written == Zeros(SkipCount(size, p))
    ensures size + |written| == p * (Laps(size, p) + 1)
  {
    var s: int := size;
    while s > p
      invariant 0 < s <= size || s == size
      invariant Fold(s, p) == Fold(size, p)
      decreases s
    {
      s := s - p;
    }
    s := p - s;
    SkipAligns(size, p);
    written := [];
    while s > 0
      invariant 0 <= s <= SkipCount(size, p)
      invariant |written| + s == SkipCount(size, p)
      invariant forall i :: 0 <= i < |written| ==> written[i] == 0
      decreases s
    {
      s := s - 1;
      written := written + [0];
    }
  }
}

=== FILE: scenarios.dfy ===
/** The dictionary the actor implements, and the usage scenarios of the
    repository's tests stated against it (tests/FasterDictionary.Tests).

    `Dictionary` is a plain map that answers each public call the way the
    dictionary promises to. `RunRefinesDictionary` shows the actor answers the
    same whenever the engine serves every request from memory; the scenarios
    then follow from the map alone. */
module Scenarios {
  import opened Wrappers
  import opened Callbacks
  import opened Engine
  import opened Jobs
  import opened Snapshot
  import opened Actor

  // ---------------------------------------------------------------------------
  // The reference dictionary

  /** One call on a plain map: the map afterwards and what the caller sees. */
  function Answer<K(==), V>(m: map<K, V>, req: Request<K, V>): (map<K, V>, Outcome<K, V>)
  {
    match req
    case Ping => (m, Done(false, None, None))
    case Save => (m, Done(false, None, None))
    case Dispose => (m, Done(false, None, None))
    case TryGet(k) => (m, if k in m then Done(true, Some(k), Some(m[k])) else Done(false, Some(k), None))
    case UpsertRequest(k, v) => (m[k := v], Done(true, Some(k), Some(v)))
    case Remove(k) => (m - {k}, Done(k in m, Some(k), None))
  }

  /** A sequence of calls on a plain map, first call first. */
  function Dictionary<K(==), V>(m: map<K, V>, reqs: seq<Request<K, V>>): (r: (map<K, V>, seq<Outcome<K, V>>))
    ensures |r.1| == |reqs|
    decreases |reqs|
  {
    if |reqs| == 0 then (m, [])
    else
      var (m1, o) := Answer(m, reqs[0]);
      var (m2, rest) := Dictionary(m1, reqs[1..]);
      (m2, [o] + rest)
  }

  /** Calls in two batches answer as the batches one after the other. */
  lemma {:induction false} DictionaryAppend<K, V>(m: map<K, V>, a: seq<Request<K, V>>, b: seq<Request<K, V>>)
    ensures var (ma, oa) := Dictionary(m, a);
            var (mb, ob) := Dictionary(ma, b);
            Dictionary(m, a + b) == (mb, oa + ob)
    decreases |a|
  {
    if |a| == 0 {
      assert a + b == b;
      assert Dictionary(m, a) == (m, []);
      assert [] + Dictionary(m, b).1 == Dictionary(m, b).1;
    } else {
      var (m1, o) := Answer(m, a[0]);
      assert (a + b)[0] == a[0] && (a + b)[1..] == a[1..] + b;
      DictionaryAppend(m1, a[1..], b);
      var (ma', oa') := Dictionary(m1, a[1..]);
      var (mb, ob) := Dictionary(ma', b);
      assert Dictionary(m, a) == (ma', [o] + oa');
      assert Dictionary(m, a + b) == (mb, [o] + (oa' + ob));
      assert [o] + (oa' + ob) == [o] + oa' + ob;
    }
  }

  /** What the second batch of calls sees does not depend on how the first
      batch was made, only on the map it leaves. */
  lemma {:induction false} DictionaryTail<K, V>(m: map<K, V>, a: seq<Request<K, V>>, b: seq<Request<K, V>>)
    ensures var (ma, oa) := Dictionary(m, a);
            forall i :: 0 <= i < |b| ==> Dictionary(m, a + b).1[|a| + i] == Dictionary(ma, b).1[i]
  {
    var (ma, oa) := Dictionary(m, a);
    var ob := Dictionary(ma, b).1;
    DictionaryAppend(m, a, b);
    forall i | 0 <= i < |b| ensures (oa + ob)[|a| + i] == ob[i] {
    }
  }

  /** The jobs of a sequence of calls. */
  function JobsOf<K, V>(reqs: seq<Request<K, V>>): (jobs: seq<Job<K, V>>)
    ensures |jobs| == |reqs|
    ensures forall i :: 0 <= i < |reqs| ==> jobs[i] == JobFor(reqs[i])
    ensures Runnable(jobs, InMemory(|reqs|))
  {
    seq(|reqs|, i requires 0 <= i < |reqs| => JobFor(reqs[i]))
  }

  /** The engine serves every job from memory and keeps the safe-read-only
      address where it is. */
  function InMemory(n: nat): (envs: seq<Env>)
    ensures |envs| == n && forall i :: 0 <= i < n ==> envs[i] == Env(Served, 0)
  {
    seq(n, _ => Env(Served, 0))
  }

  /** No call of the sequence is a Dispose. */
  predicate NoDispose<K, V>(reqs: seq<Request<K, V>>)
  {
    forall i :: 0 <= i < |reqs| ==> !reqs[i].Dispose?
  }

  /** A fresh dictionary with an empty disk serving the calls from memory:
      its final state and what each caller sees. */
  function FromEmpty<K(==), V>(reqs: seq<Request<K, V>>, logged: bool): (r: (State<K, V>, seq<Outcome<K, V>>))
    ensures Valid(r.0) && |r.1| == |reqs|
  {
    Run(Start([], logged), JobsOf(reqs), InMemory(|reqs|))
  }

  /** A call served by one step of the actor, from memory, answers as the
      map does and leaves the store as the map. */
  lemma {:induction false} StepRefinesAnswer<K, V>(s: State<K, V>, req: Request<K, V>)
    requires Valid(s) && !s.stopped && !req.Dispose?
    ensures var t := Step(s, JobFor(req), Env(Served, 0));
            var (m, o) := Answer(Store(s.log), req);
            Settle(t.job, t.attempts) == o && Store(t.state.log) == m && !t.state.stopped &&
            t.state.iteration == s.iteration &&
            (req.Save? ==> |t.state.disk| > 0 && t.state.disk[|t.state.disk| - 1] == t.state.log)
  {
    var s0 := s.(log := Advance(s.log, 0));
    assert s0 == s;
    match req
    case Ping => PingChangesNothing(s);
    case Save => FirstCompletionWins(JobFor<K, V>(Save), [Result(false, None)]);
    case TryGet(k) => GetCompletes(s, JobFor(req), Served);
    case UpsertRequest(k, v) => UpsertCompletes(s, k, v, Served);
    case Remove(k) => RemoveCompletes(s, k, Served);
  }

  /** As long as the engine serves from memory, the actor answers every call
      of a sequence without Dispose exactly as a plain map does, and its store
      ends up equal to the map. */
  lemma {:induction false} RunRefinesDictionary<K, V>(s: State<K, V>, reqs: seq<Request<K, V>>)
    requires Valid(s) && !s.stopped && NoDispose(reqs)
    ensures var (s', outs) := Run(s, JobsOf(reqs), InMemory(|reqs|));
            var (m, expected) := Dictionary(Store(s.log), reqs);
            Store(s'.log) == m && outs == expected && !s'.stopped && s'.iteration == s.iteration
    decreases |reqs|
  {
    if |reqs| > 0 {
      var jobs := JobsOf(reqs);
      var envs := InMemory(|reqs|);
      var t := Step(s, jobs[0], envs[0]);
      StepRefinesAnswer(s, reqs[0]);
      assert jobs[1..] == JobsOf(reqs[1..]);
      assert envs[1..] == InMemory(|reqs| - 1);
      RunRefinesDictionary(t.state, reqs[1..]);
    }
  }

  // ---------------------------------------------------------------------------
  // Building blocks of the scenarios, on the map

  /** Upserts of `f(i)` under key `i`, for i from 0 below `n`. */
  function Upserts<V>(n: nat, f: int -> V): (reqs: seq<Request<int, V>>)
    ensures |reqs| == n && forall i :: 0 <= i < n ==> reqs[i] == UpsertRequest(i, f(i))
  {
    seq(n, i => UpsertRequest(i, f(i)))
  }

  /** Upserting keys 0 to n-1 maps each of them to its value and leaves every
      other key as it was. */
  lemma {:induction false} UpsertsStore<V>(m: map<int, V>, n: nat, f: int -> V)
    ensures var m' := Dictionary(m, Upserts(n, f)).0;
            (forall i :: 0 <= i < n ==> i in m' && m'[i] == f(i)) &&
            (forall k :: !(0 <= k < n) ==> (k in m' <==> k in m) && (k in m ==> m'[k] == m[k]))
    decreases n
  {
    if n > 0 {
      UpsertsStore(m, n - 1, f);
      assert Upserts(n, f) == Upserts(n - 1, f) + [UpsertRequest(n - 1, f(n - 1))];
      DictionaryAppend(m, Upserts(n - 1, f), [UpsertRequest(n - 1, f(n - 1))]);
    }
  }

  /** One read of each of the given keys, in order. */
  function Reads<V>(keys: seq<int>): (reqs: seq<Request<int, V>>)
    ensures |reqs| == |keys| && forall i :: 0 <= i < |keys| ==> reqs[i] == TryGet(keys[i])
  {
    seq(|keys|, i requires 0 <= i < |keys| => TryGet(keys[i]))
  }

  /** What a read of key `k` answers on map `m`. */
  function ReadAnswer<V>(m: map<int, V>, k: int): Outcome<int, V>
  {
    if k in m then Done(true, Some(k), Some(m[k])) else Done(false, Some(k), None)
  }

  /** Reads of the given keys leave the map alone and find exactly the keys in
      it, with their values. */
  lemma {:induction false} GetsAnswer<V>(m: map<int, V>, keys: seq<int>)
    ensures var (m', outs) := Dictionary(m, Reads<V>(keys));
            m' == m &&
            forall i :: 0 <= i < |keys| ==> outs[i] == ReadAnswer(m, keys[i])
    decreases |keys|
  {
    if |keys| > 0 {
      assert Reads<V>(keys)[1..] == Reads<V>(keys[1..]);
      GetsAnswer(m, keys[1..]);
    }
  }

  /** The keys 0 to n, one read each. */
  function ReadsUpTo(n: nat): (keys: seq<int>)
    ensures |keys| == n + 1 && forall i :: 0 <= i <= n ==> keys[i] == i
  {
    seq(n + 1, i => i)
  }

  /** A fresh dictionary serving calls without Dispose from memory answers as
      the map does, ends with the map as its store and holds no iterator. */
  lemma {:induction false} FromEmptyIsDictionary<V>(reqs: seq<Request<int, V>>, logged: bool)
    requires NoDispose(reqs)
    ensures FromEmpty(reqs, logged).1 == Dictionary(map[], reqs).1
    ensures Store(FromEmpty(reqs, logged).0.log) == Dictionary(map[], reqs).0
    ensures FromEmpty(reqs, logged).0.iteration.None? && !FromEmpty(reqs, logged).0.stopped
  {
    var s := Start<int, V>([], logged);
    RunRefinesDictionary(s, reqs);
    assert Store(s.log) == map[];
  }

  /** On the map, reads made after a batch of calls answer from the map the
      batch leaves. */
  lemma {:induction false} ReadsAfter<V>(prefix: seq<Request<int, V>>, keys: seq<int>)
    ensures var outs := Dictionary(map[], prefix + Reads<V>(keys)).1;
            var m := Dictionary(map[], prefix).0;
            forall i :: 0 <= i < |keys| ==> outs[|prefix| + i] == ReadAnswer(m, keys[i])
  {
    DictionaryTail(map[], prefix, Reads<V>(keys));
    GetsAnswer(Dictionary(map[], prefix).0, keys);
  }

  /** Reads never dispose. */
  lemma {:induction false} ReadsNoDispose<V>(keys: seq<int>)
    ensures NoDispose(Reads<V>(keys))
  {
    var gets := Reads<V>(keys);
    forall i | 0 <= i < |gets| ensures !gets[i].Dispose? {
    }
  }

  /** On the map, the read of key i, among reads of the keys 0 to n made after
      a batch of calls, is the map's answer for i. */
  lemma {:induction false} ReadsUpToAnswer<V>(prefix: seq<Request<int, V>>, n: nat)
    ensures var outs := Dictionary(map[], prefix + Reads<V>(ReadsUpTo(n))).1;
            var m := Dictionary(map[], prefix).0;
            forall i :: 0 <= i <= n ==> outs[|prefix| + i] == ReadAnswer(m, i)
  {
    var keys := ReadsUpTo(n);
    var outs := Dictionary(map[], prefix + Reads<V>(keys)).1;
    var m := Dictionary(map[], prefix).0;
    ReadsAfter<V>(prefix, keys);
    forall i | 0 <= i <= n ensures outs[|prefix| + i] == ReadAnswer(m, i) {
      assert keys[i] == i;
    }
  }

  /** The actor, reading the keys 0 to n after a batch of calls without
      Dispose: the read of key i is the map's answer for i. */
  lemma {:induction false} ReadsUpToAfter<V>(prefix: seq<Request<int, V>>, n: nat, i: nat, logged: bool)
    requires NoDispose(prefix) && i <= n
    ensures FromEmpty(prefix + Reads<V>(ReadsUpTo(n)), logged).1[|prefix| + i] ==
            ReadAnswer(Dictionary(map[], prefix).0, i)
  {
    var reqs := prefix + Reads<V>(ReadsUpTo(n));
    ReadsNoDispose<V>(ReadsUpTo(n));
    NoDisposeAppend(prefix, Reads<V>(ReadsUpTo(n)));
    FromEmptyIsDictionary(reqs, logged);
    ReadsUpToAnswer(prefix, n);
  }

  /** Two batches without Dispose make one. */
  lemma {:induction false} NoDisposeAppend<K, V>(a: seq<Request<K, V>>, b: seq<Request<K, V>>)
    requires NoDispose(a) && NoDispose(b)
    ensures NoDispose(a + b)
  {
    forall i | 0 <= i < |a + b| ensures !(a + b)[i].Dispose? {
      if i >= |a| {
        assert (a + b)[i] == b[i - |a|];
      }
    }
  }

  /** Upserts of keys below n, then a ping: the map of `UpsertsStore`. */
  lemma {:induction false} UpsertRound<V>(m: map<int, V>, n: nat, f: int -> V)
    ensures NoDispose(Upserts(n, f) + [Ping])
    ensures var m' := Dictionary(m, Upserts(n, f) + [Ping]).0;
            (forall i :: 0 <= i < n ==> i in m' && m'[i] == f(i)) &&
            (forall k :: !(0 <= k < n) ==> (k in m' <==> k in m) && (k in m ==> m'[k] == m[k]))
  {
    var reqs := Upserts(n, f) + [Ping];
    forall i | 0 <= i < |reqs| ensures !reqs[i].Dispose? {
      if i < n {
        assert reqs[i] == Upserts(n, f)[i];
      }
    }
    DictionaryAppend(m, Upserts(n, f), [Ping]);
    UpsertsStore(m, n, f);
  }

  // ---------------------------------------------------------------------------
  // The scenarios

  /** AddGet: after upserting f(i) under each key i below n and a ping, reading
      the keys 0 to n finds every key below n with its value, and not n. */
  lemma {:induction false} ReadYourWrites<V>(n: nat, f: int -> V, logged: bool)
    ensures var outs := FromEmpty(Upserts(n, f) + [Ping] + Reads<V>(ReadsUpTo(n)), logged).1;
            (forall i :: 0 <= i < n ==> outs[n + 1 + i] == Done(true, Some(i), Some(f(i)))) &&
            outs[2 * n + 1] == Done(false, Some(n), None)
  {
    var first: seq<Request<int, V>> := Upserts(n, f) + [Ping];
    UpsertRound(map[], n, f);
    var outs := FromEmpty(first + Reads<V>(ReadsUpTo(n)), logged).1;
    assert |first| == n + 1;
    forall i | 0 <= i < n ensures outs[n + 1 + i] == Done(true, Some(i), Some(f(i))) {
      ReadsUpToAfter(first, n, i, logged);
    }
    ReadsUpToAfter(first, n, n, logged);
  }

  /** The map after two upsert rounds over the keys below n: the second
      round's values, and nothing else. */
  lemma {:induction false} TwoRounds<V>(n: nat, f: int -> V, g: int -> V)
    ensures NoDispose((Upserts(n, f) + [Ping]) + (Upserts(n, g) + [Ping]))
    ensures var m := Dictionary(map[], (Upserts(n, f) + [Ping]) + (Upserts(n, g) + [Ping])).0;
            forall k :: (k in m <==> 0 <= k < n) && (k in m ==> m[k] == g(k))
  {
    var first: seq<Request<int, V>> := Upserts(n, f) + [Ping];
    var second: seq<Request<int, V>> := Upserts(n, g) + [Ping];
    UpsertRound(map[], n, f);
    UpsertRound(Dictionary(map[], first).0, n, g);
    DictionaryAppend(map[], first, second);
    NoDisposeAppend(first, second);
  }

  /** AddUpdateGet: after upserting f(i), then g(i), under each key i below n,
      reading the keys 0 to n finds the second values, and not n. */
  lemma {:induction false} LastWriterWins<V>(n: nat, f: int -> V, g: int -> V, logged: bool)
    ensures var outs := FromEmpty((Upserts(n, f) + [Ping]) + (Upserts(n, g) + [Ping]) + Reads<V>(ReadsUpTo(n)), logged).1;
            (forall i :: 0 <= i < n ==> outs[2 * n + 2 + i] == Done(true, Some(i), Some(g(i)))) &&
            outs[3 * n + 2] == Done(false, Some(n), None)
  {
    var both: seq<Request<int, V>> := (Upserts(n, f) + [Ping]) + (Upserts(n, g) + [Ping]);
    TwoRounds(n, f, g);
    var outs := FromEmpty(both + Reads<V>(ReadsUpTo(n)), logged).1;
    assert |both| == 2 * n + 2;
    forall i | 0 <= i < n ensures outs[2 * n + 2 + i] == Done(true, Some(i), Some(g(i))) {
      ReadsUpToAfter(both, n, i, logged);
    }
    ReadsUpToAfter(both, n, n, logged);
  }

  /** One remove of each of the given keys, in order. */
  function Removes<V>(keys: seq<int>): seq<Request<int, V>>
  {
    seq(|keys|, i requires 0 <= i < |keys| => Remove(keys[i]))
  }

  /** Removing the given keys takes exactly those out of the map. */
  lemma {:induction false} RemovesStore<V>(m: map<int, V>, keys: seq<int>)
    ensures NoDispose(Removes<V>(keys))
    ensures var m' := Dictionary(m, Removes<V>(keys)).0;
            forall k :: (k in m' <==> k in m && k !in keys) && (k in m' ==> m'[k] == m[k])
    decreases |keys|
  {
    if |keys| > 0 {
      var init, last := keys[..|keys| - 1], keys[|keys| - 1];
      RemovesStore(m, init);
      assert keys == init + [last];
      assert Removes<V>(keys) == Removes<V>(init) + [Remove(last)];
      DictionaryAppend(m, Removes<V>(init), [Remove(last)]);
    }
  }

  /** The map after upserting the keys below n and removing the given ones:
      the keys below n that were not removed, with their values. */
  lemma {:induction false} UpsertThenRemove<V>(n: nat, f: int -> V, keys: seq<int>)
    ensures NoDispose((Upserts(n, f) + [Ping]) + Removes<V>(keys))
    ensures var m := Dictionary(map[], (Upserts(n, f) + [Ping]) + Removes<V>(keys)).0;
            forall k :: (k in m <==> 0 <= k < n && k !in keys) && (k in m ==> m[k] == f(k))
  {
    var first: seq<Request<int, V>> := Upserts(n, f) + [Ping];
    var second := Removes<V>(keys);
    UpsertRound(map[], n, f);
    RemovesStore(Dictionary(map[], first).0, keys);
    DictionaryAppend(map[], first, second);
    NoDisposeAppend(first, second);
  }

  /** The keys below n the AddGetRemove test removes: those not divisible by
      5, in increasing order. */
  function NonMultiplesOfFive(n: nat): (keys: seq<int>)
    ensures forall k :: k in keys <==> 0 <= k < n && k % 5 != 0
  {
    if n == 0 then [] else NonMultiplesOfFive(n - 1) + (if (n - 1) % 5 != 0 then [n - 1] else [])
  }

  /** AddGetRemove: after upserting f(i) under each key below n and removing
      those not divisible by 5, reading the keys below n finds the multiples
      of 5 with their values and none of the others. */
  lemma {:induction false} RemoveKeepsOthers<V>(n: nat, f: int -> V, logged: bool)
    ensures var removed := NonMultiplesOfFive(n);
            var outs := FromEmpty((Upserts(n, f) + [Ping]) + Removes<V>(removed) + Reads<V>(ReadsUpTo(n)), logged).1;
            forall i :: 0 <= i < n ==>
              outs[n + 1 + |removed| + i] == (if i % 5 == 0 then Done(true, Some(i), Some(f(i))) else Done(false, Some(i), None))
  {
    forall i | 0 <= i < n {
      RemoveKeepsOthersAt(n, f, logged, i);
    }
  }

  /** One read of the AddGetRemove test. */
  lemma {:induction false} RemoveKeepsOthersAt<V>(n: nat, f: int -> V, logged: bool, i: nat)
    requires i < n
    ensures var removed := NonMultiplesOfFive(n);
            var outs := FromEmpty((Upserts(n, f) + [Ping]) + Removes<V>(removed) + Reads<V>(ReadsUpTo(n)), logged).1;
            outs[n + 1 + |removed| + i] == (if i % 5 == 0 then Done(true, Some(i), Some(f(i))) else Done(false, Some(i), None))
  {
    var removed := NonMultiplesOfFive(n);
    var both: seq<Request<int, V>> := (Upserts(n, f) + [Ping]) + Removes<V>(removed);
    UpsertThenRemove(n, f, removed);
    assert |both| == n + 1 + |removed|;
    ReadsUpToAfter(both, n, i, logged);
    var m := Dictionary(map[], both).0;
    assert i in removed <==> i % 5 != 0;
    assert i in m <==> i % 5 == 0;
  }

  /** When a run from memory ends with a save, the last checkpoint on disk
      holds the log the run ended with. */
  lemma {:induction false} SaveReachesDisk<K, V>(s: State<K, V>, reqs: seq<Request<K, V>>)
    requires Valid(s) && !s.stopped && NoDispose(reqs) && |reqs| > 0 && reqs[|reqs| - 1].Save?
    ensures var s' := Run(s, JobsOf(reqs), InMemory(|reqs|)).0;
            |s'.disk| > 0 && s'.disk[|s'.disk| - 1] == s'.log
    decreases |reqs|
  {
    var t := Step(s, JobFor(reqs[0]), Env(Served, 0));
    RunFirstStep(s, reqs);
    if |reqs| == 1 {
      SaveStep(s);
      assert JobsOf(reqs[1..]) == [];
    } else {
      assert reqs[1..][|reqs| - 2] == reqs[|reqs| - 1];
      assert NoDispose(reqs[1..]) by {
        forall i | 0 <= i < |reqs| - 1 ensures !reqs[1..][i].Dispose? {
          assert reqs[1..][i] == reqs[i + 1];
        }
      }
      SaveReachesDisk(t.state, reqs[1..]);
    }
  }

  /** A save served from memory appends the log it was served on to the
      disk. */
  lemma {:induction false} SaveStep<K, V>(s: State<K, V>)
    requires Valid(s) && !s.stopped
    ensures var t := Step(s, JobFor(Save), Env(Served, 0));
            t.state.disk == s.disk + [s.log] && t.state.log == s.log
  {
    assert s.(log := Advance(s.log, 0)) == s;
    assert Step(s, JobFor(Save), Env(Served, 0)) == ServeSave(s, JobFor(Save), Served);
  }

  /** A run from memory is its first step followed by the run of the rest. */
  lemma {:induction false} RunFirstStep<K, V>(s: State<K, V>, reqs: seq<Request<K, V>>)
    requires Valid(s) && !s.stopped && |reqs| > 0
    ensures var t := Step(s, JobFor(reqs[0]), Env(Served, 0));
            Run(s, JobsOf(reqs), InMemory(|reqs|)).0 == Run(t.state, JobsOf(reqs[1..]), InMemory(|reqs| - 1)).0
  {
    var jobs := JobsOf(reqs);
    var envs := InMemory(|reqs|);
    assert jobs[1..] == JobsOf(reqs[1..]);
    assert envs[1..] == InMemory(|reqs| - 1);
  }

  /** A fresh dictionary whose calls end in a save leaves its final log as
      the last checkpoint on disk. */
  lemma {:induction false} FromEmptySaves<V>(reqs: seq<Request<int, V>>, logged: bool)
    requires NoDispose(reqs) && |reqs| > 0 && reqs[|reqs| - 1].Save?
    ensures var s := FromEmpty(reqs, logged).0;
            |s.disk| > 0 && s.disk[|s.disk| - 1] == s.log
  {
    SaveReachesDisk(Start<int, V>([], logged), reqs);
  }

  /** A fresh dictionary that serves calls ending in a save, then restarts on
      its disk, recovers a store equal to the map of those calls. */
  lemma {:induction false} RestartRecoversDictionary<V>(reqs: seq<Request<int, V>>, logged: bool)
    requires NoDispose(reqs) && |reqs| > 0 && reqs[|reqs| - 1].Save?
    ensures var restarted := Start(FromEmpty(reqs, logged).0.disk, logged);
            Valid(restarted) && !restarted.stopped &&
            Store(restarted.log) == Dictionary(map[], reqs).0
  {
    var s := FromEmpty(reqs, logged).0;
    FromEmptySaves(reqs, logged);
    FromEmptyIsDictionary(reqs, logged);
    var restarted := Start(s.disk, logged);
    assert restarted.log == s.log;
  }

  /** AddRestartIterateOnce: after upserting the keys below n, a ping and a save
      whose checkpoint completes, a dictionary started on the same disk finds
      every key below n with its value, and not n. */
  lemma {:induction false} RecoverAfterSave<V>(n: nat, f: int -> V, logged: bool)
    ensures var restarted := Start(FromEmpty(Upserts(n, f) + [Ping, Save], logged).0.disk, logged);
            var gets := Reads<V>(ReadsUpTo(n));
            var outs := Run(restarted, JobsOf(gets), InMemory(|gets|)).1;
            (forall i :: 0 <= i < n ==> outs[i] == Done(true, Some(i), Some(f(i)))) &&
            outs[n] == Done(false, Some(n), None)
  {
    var reqs: seq<Request<int, V>> := Upserts(n, f) + [Ping, Save];
    assert reqs == (Upserts(n, f) + [Ping]) + [Save];
    UpsertRound(map[], n, f);
    NoDisposeAppend(Upserts(n, f) + [Ping], [Save]);
    DictionaryAppend(map[], Upserts(n, f) + [Ping], [Save]);
    var m := Dictionary(map[], reqs).0;
    RestartRecoversDictionary(reqs, logged);
    var restarted := Start(FromEmpty(reqs, logged).0.disk, logged);
    var keys := ReadsUpTo(n);
    var gets := Reads<V>(keys);
    forall i | 0 <= i < |gets| ensures !gets[i].Dispose? {
    }
    RunRefinesDictionary(restarted, gets);
    GetsAnswer(m, keys);
    forall i | 0 <= i <= n ensures keys[i] == i {
    }
  }
}

=== FILE: serializers.dfy ===
/** The stream serializers of FasterDictionary.Serializers.cs: a one-byte
    envelope tag, then a body whose first four bytes (big-endian) give the
    length of the payload that follows.

    A content payload is the byte array itself when the content type is
    `byte[]`, the four `BitConverter` bytes when it is `int`, and the UTF-8 JSON
    text otherwise. JSON and UTF-8 come from libraries that are not part of
    this model: a `Json<T>` value is an opaque encoder/decoder pair, and the
    round trips assume it is an inverse pair (`Inverse`). */
module Serializers {
  import opened Wrappers
  import opened Bytes
  import opened Padding

  /** A .NET byte array: at most int.MaxValue bytes. */
  type ByteArray = b: seq<byte> | |b| < 0x8000_0000

  /** UTF-8 JSON text of values of one type and the matching reader; `decode`
      answers None where `JsonConvert.DeserializeObject` would throw. */
  datatype Json<!T> = Json(encode: T -> ByteArray, decode: seq<byte> -> Option<T>)

  /** The reader gives back every value the writer wrote. */
  ghost predicate Inverse<T(!new)>(j: Json<T>)
  {
    forall t :: j.decode(j.encode(t)) == Some(t)
  }

  /** `KeyTypes` tags. The enum is not part of this model; only the fact that
      the two tags differ matters, and these values are assumed. */
  const ContentTag: byte := 0
  const BucketTag: byte := 1

  /** The static choice `BaseSerializer` makes from `TContent`. */
  datatype ContentKind = ByteArrayKind | IntKind | JsonKind

  /** A value of `TContent`: a (possibly null) byte array, an int, or any other
      object, which goes through JSON. */
  datatype Content<T> = Raw(bytes: Option<ByteArray>) | Int(n: int32) | Structured(value: T)
  {
    function Kind(): ContentKind
    {
      match this
      case Raw(_) => ByteArrayKind
      case Int(_) => IntKind
      case Structured(_) => JsonKind
    }
  }

  // ---------------------------------------------------------------------------
  // Content payloads

  /** The payload `Serialize(ref TContent)` writes after the length. A null byte
      array makes `payload.Length` throw. */
  function Payload<T>(c: Content<T>, j: Json<T>): (r: Result<ByteArray>)
    ensures r.Failure? <==> c == Raw(None)
    ensures c.Raw? && c.bytes.Some? ==> r == Success(c.bytes.value)
    ensures c.Int? ==> r == Success(LittleEndian(c.n))
    ensures c.Structured? ==> r == Success(j.encode(c.value))
  {
    match c
    case Raw(None) => Failure("NullReferenceException")
    case Raw(Some(b)) => Success(b)
    case Int(n) => Success(LittleEndian(n))
    case Structured(v) => Success(j.encode(v))
  }

  /** A length-prefixed block: the payload length as `WriteInt32`, then the
      payload. */
  function Framed(payload: ByteArray): (r: seq<byte>)
    ensures |r| == 4 + |payload|
  {
    WriteInt32(|payload|) + payload
  }

  /** `Serialize(ref TContent)`: the 4-byte length equals the payload length and
      exactly the payload follows; a byte array is written as itself. */
  function SerializeContent<T>(c: Content<T>, j: Json<T>): (r: Result<seq<byte>>)
    ensures r.Failure? <==> c == Raw(None)
    ensures c.Raw? && c.bytes.Some? ==> r.Success? && |r.value| == 4 + |c.bytes.value|
  {
    match Payload(c, j)
    case Failure(e) => Failure(e)
    case Success(p) => Success(Framed(p))
  }

  /** What `Serialize(ref TContent)` leaves in the stream, whether it returns
      or throws: a null byte array keeps the size at 0, and that length is
      written before writing the payload throws. */
  function ContentWritten<T>(c: Content<T>, j: Json<T>): (w: seq<byte>)
    ensures SerializeContent(c, j).Success? ==> w == SerializeContent(c, j).value
    ensures c == Raw(None) ==> w == WriteInt32(0)
  {
    match Payload(c, j)
    case Failure(_) => WriteInt32(0)
    case Success(p) => Framed(p)
  }

  /** `Stream.Read(buffer, 0, n)` into a fresh `byte[n]`: as many bytes as are
      available, the rest of the buffer left zero. */
  function ReadBlock(data: seq<byte>, pos: nat, n: nat): (res: (seq<byte>, nat))
    ensures |res.0| == n
    ensures pos + n <= |data| ==> res == (data[pos..pos + n], pos + n)
  {
    var k := if Available(data, pos) < n then Available(data, pos) else n;
    var got := if k == 0 then [] else data[pos..pos + k];
    assert k == n ==> got + Zeros(n - k) == got;
    (got + Zeros(n - k), pos + k)
  }

  /** The steps shared by every reader of a length-prefixed block: read the
      length, refuse a negative one (`new byte[size]` throws), read the block. */
  function ReadFramed(data: seq<byte>, pos: nat): (res: Result<(ByteArray, nat)>)
  {
    var (size, pos1) := ReadInt32(data, pos);
    if size < 0 then Failure("OverflowException")
    else
      var (payload, pos2) := ReadBlock(data, pos1, size);
      Success((payload, pos2))
  }

  /** A framed block lying at the position is read back whole, and the reader
      stops right after it. */
  lemma {:induction false} ReadFramedAt(data: seq<byte>, i: nat, payload: ByteArray)
    requires At(data, i, Framed(payload))
    ensures ReadFramed(data, i) == Success((payload, i + 4 + |payload|))
  {
    AtSplit(data, i, WriteInt32(|payload|), payload);
    ReadInt32At(data, i, |payload|);
    AtSlice(data, i + 4, payload);
    var block := ReadBlock(data, i + 4, |payload|);
    assert block == (payload, i + 4 + |payload|);
  }

  /** `Deserialize(ref TContent)` as written: a byte-array type takes the block
      as is; every other type, `int` included, goes through JSON. */
  function DeserializeContent<T>(kind: ContentKind, data: seq<byte>, pos: nat, j: Json<T>, ints: Json<int32>)
    : (res: Result<(Content<T>, nat)>)
    ensures res.Success? ==> res.value.0.Kind() == kind
  {
    var framed := ReadFramed(data, pos);
    if framed.Failure? then Failure(framed.error)
    else
      var (payload, pos') := framed.value;
      if kind == ByteArrayKind then Success((Raw(Some(payload)), pos'))
      else if kind == IntKind then
        match ints.decode(payload)
        case None => Failure("JsonReaderException")
        case Some(n) => Success((Int(n), pos'))
      else
        assert kind == JsonKind;
        match j.decode(payload)
        case None => Failure("JsonReaderException")
        case Some(v) => assert Structured(v).Kind() == JsonKind; Success((Structured(v), pos'))
  }

  /** A byte array or a JSON-encoded content lying at the position is read
      back, and the reader stops right after it. */
  lemma {:induction false} ContentAt<T(!new)>(data: seq<byte>, i: nat, c: Content<T>, j: Json<T>, ints: Json<int32>)
    requires Inverse(j)
    requires c.Kind() != IntKind && c != Raw(None)
    requires At(data, i, SerializeContent(c, j).value)
    ensures DeserializeContent(c.Kind(), data, i, j, ints)
         == Success((c, i + |SerializeContent(c, j).value|))
  {
    var p := Payload(c, j).value;
    ReadFramedAt(data, i, p);
    if c.Structured? {
      assert j.decode(j.encode(c.value)) == Some(c.value);
    }
  }

  /** The length a null byte array leaves behind reads back as an empty
      array: null does not survive the stream. */
  lemma {:induction false} NullContentReadsEmpty<T>(data: seq<byte>, i: nat, j: Json<T>, ints: Json<int32>)
    requires At(data, i, ContentWritten(Raw(None), j))
    ensures DeserializeContent(ByteArrayKind, data, i, j, ints) == Success((Raw(Some([])), i + 4))
  {
    assert Framed([]) == WriteInt32(0);
    ReadFramedAt(data, i, []);
  }

  /** The as-written reader hands the four `BitConverter` bytes of an int
      content to the JSON int reader. Whenever that reader takes those bytes for
      the text of a number `m`, the content is read back as `m`. */
  lemma {:induction false} IntContentMisread<T>(data: seq<byte>, i: nat, n: int32, m: int32, j: Json<T>, ints: Json<int32>)
    requires ints.decode(LittleEndian(n)) == Some(m)
    requires At(data, i, SerializeContent(Int(n), j).value)
    ensures DeserializeContent(IntKind, data, i, j, ints) == Success((Int(m), i + 8))
  {
    ReadFramedAt(data, i, LittleEndian(n));
  }

  /** The little-endian bytes of the int 0x31323334 are the ASCII text
      "4321". */
  lemma TextInt()
    ensures LittleEndian(0x3132_3334) == [0x34, 0x33, 0x32, 0x31]
  {
  }

  /** A concrete misreading: the bytes of the int 0x31323334 are the ASCII
      text "4321", so with a JSON int reader that takes that text for 4321 the
      content written as 0x31323334 is read back as 4321, wherever it lies in
      the stream. */
  lemma {:induction false} IntContentMisreadWitness<T>(pre: seq<byte>, post: seq<byte>, j: Json<T>, ints: Json<int32>)
    requires ints.decode([0x34, 0x33, 0x32, 0x31]) == Some(4321)
    ensures var data := pre + SerializeContent(Int(0x3132_3334), j).value + post;
            DeserializeContent(IntKind, data, |pre|, j, ints) == Success((Int(4321), |pre| + 8))
  {
    var w := SerializeContent(Int(0x3132_3334), j).value;
    TextInt();
    AtWritten(pre, w, post);
    IntContentMisread(pre + w + post, |pre|, 0x3132_3334, 4321, j, ints);
  }

  // ---------------------------------------------------------------------------
  // int overloads

  /** `Serialize(ref int)`: length 4, then the four `BitConverter` bytes. */
  function SerializeInt(n: int32): (r: seq<byte>)
    ensures |r| == 8
  {
    Framed(LittleEndian(n))
  }

  /** `Deserialize(ref int)`: a framed block read with `BitConverter.ToInt32`,
      which throws on fewer than four bytes. */
  function DeserializeInt(data: seq<byte>, pos: nat): (res: Result<(int32, nat)>)
  {
    var framed := ReadFramed(data, pos);
    if framed.Failure? then Failure(framed.error)
    else
      var (payload, pos') := framed.value;
      if |payload| < 4 then Failure("ArgumentException")
      else Success((FromLittleEndian(payload), pos'))
  }

  /** An int written by `Serialize(ref int)` at the position is read back. */
  lemma {:induction false} IntAt(data: seq<byte>, i: nat, n: int32)
    requires At(data, i, SerializeInt(n))
    ensures DeserializeInt(data, i) == Success((n, i + 8))
  {
    ReadFramedAt(data, i, LittleEndian(n));
    LittleEndianRoundTrip(n);
  }

  /** `Deserialize(ref TContent)` with the int branch the writer has: an int
      content is read back as `Deserialize(ref int)` reads an int. */
  function DeserializeContentFixed<T>(kind: ContentKind, data: seq<byte>, pos: nat, j: Json<T>, ints: Json<int32>)
    : (res: Result<(Content<T>, nat)>)
    ensures res.Success? ==> res.value.0.Kind() == kind
  {
    if kind == IntKind then
      match DeserializeInt(data, pos)
      case Failure(e) => Failure(e)
      case Success((n, pos')) => Success((Int(n), pos'))
    else DeserializeContent(kind, data, pos, j, ints)
  }

  /** With the int branch in place every writable content lying at the
      position is read back. */
  lemma {:induction false} ContentAtFixed<T(!new)>(data: seq<byte>, i: nat, c: Content<T>, j: Json<T>, ints: Json<int32>)
    requires Inverse(j)
    requires c != Raw(None)
    requires At(data, i, SerializeContent(c, j).value)
    ensures DeserializeContentFixed(c.Kind(), data, i, j, ints)
         == Success((c, i + |SerializeContent(c, j).value|))
  {
    if c.Int? {
      assert SerializeContent(c, j).value == SerializeInt(c.n);
      IntAt(data, i, c.n);
    } else {
      ContentAt(data, i, c, j, ints);
    }
  }

  // ---------------------------------------------------------------------------
  // Buckets

  /** `Serialize(ref BucketInfo)` as written: the framed JSON of the bucket, then
      `ProducePadding`'s zero bytes. */
  function SerializeBucket<B>(b: B, bj: Json<B>, p: int): (r: seq<byte>)
    requires p > 0
    ensures |r| == 4 + |bj.encode(b)| + SkipCount(|bj.encode(b)|, p) + 1
  {
    SkipAligns(|bj.encode(b)|, p);
    Framed(bj.encode(b)) + Zeros(ProduceCount(|bj.encode(b)|, p))
  }

  /** `Serialize(ref BucketInfo)` with the padding the reader skips. */
  function SerializeBucketFixed<B>(b: B, bj: Json<B>, p: int): (r: seq<byte>)
    requires p > 0
    ensures |r| == 4 + |bj.encode(b)| + SkipCount(|bj.encode(b)|, p)
  {
    SkipAligns(|bj.encode(b)|, p);
    Framed(bj.encode(b)) + Zeros(SkipCount(|bj.encode(b)|, p))
  }

  /** With the corrected padding, the payload and its padding fill a whole
      number of `p`-byte blocks, at least one. */
  lemma {:induction false} BucketFixedAligned<B>(b: B, bj: Json<B>, p: int)
    requires p > 0
    ensures |SerializeBucketFixed(b, bj, p)| - 4 == p * (Laps(|bj.encode(b)|, p) + 1)
    ensures |SerializeBucketFixed(b, bj, p)| - 4 >= p
  {
    SkipAligns(|bj.encode(b)|, p);
  }

  /** `Deserialize(ref BucketInfo)`: the framed JSON, then `ComsumePadding`
      moves the position on. */
  function DeserializeBucket<B>(data: seq<byte>, pos: nat, bj: Json<B>, p: int): (res: Result<(B, nat)>)
    requires p > 0
  {
    var framed := ReadFramed(data, pos);
    if framed.Failure? then Failure(framed.error)
    else
      var (payload, pos') := framed.value;
      match bj.decode(payload)
      case None => Failure("JsonReaderException")
      case Some(b) => Success((b, pos' + SkipCount(|payload|, p)))
  }

  /** A bucket framed at the position is read back, and the reader moves on by
      the padding `ComsumePadding` skips. */
  lemma {:induction false} BucketAt<B(!new)>(data: seq<byte>, i: nat, b: B, bj: Json<B>, p: int)
    requires Inverse(bj) && p > 0
    requires At(data, i, Framed(bj.encode(b)))
    ensures DeserializeBucket(data, i, bj, p)
         == Success((b, i + 4 + |bj.encode(b)| + SkipCount(|bj.encode(b)|, p)))
  {
    ReadFramedAt(data, i, bj.encode(b));
    assert bj.decode(bj.encode(b)) == Some(b);
  }

  /** As written, reading a bucket back stops one byte before the end of what
      was written: the last padding byte is left for the next reader. */
  lemma {:induction false} BucketReadStopsShort<B(!new)>(data: seq<byte>, i: nat, b: B, bj: Json<B>, p: int)
    requires Inverse(bj) && p > 0
    requires At(data, i, SerializeBucket(b, bj, p))
    ensures DeserializeBucket(data, i, bj, p)
         == Success((b, i + |SerializeBucket(b, bj, p)| - 1))
  {
    var e := bj.encode(b);
    SkipAligns(|e|, p);
    var n: nat := ProduceCount(|e|, p);
    assert SerializeBucket(b, bj, p) == Framed(e) + Zeros(n);
    AtSplit(data, i, Framed(e), Zeros(n));
    BucketAt(data, i, b, bj, p);
  }

  /** With the corrected padding the bucket reader stops exactly at the end. */
  lemma {:induction false} BucketAtFixed<B(!new)>(data: seq<byte>, i: nat, b: B, bj: Json<B>, p: int)
    requires Inverse(bj) && p > 0
    requires At(data, i, SerializeBucketFixed(b, bj, p))
    ensures DeserializeBucket(data, i, bj, p)
         == Success((b, i + |SerializeBucketFixed(b, bj, p)|))
  {
    var e := bj.encode(b);
    SkipAligns(|e|, p);
    var n: nat := SkipCount(|e|, p);
    assert SerializeBucketFixed(b, bj, p) == Framed(e) + Zeros(n);
    AtSplit(data, i, Framed(e), Zeros(n));
    BucketAt(data, i, b, bj, p);
  }

  // ---------------------------------------------------------------------------
  // Envelopes

  /** A key envelope: the key itself, or the id of a bucket of the key index. */
  datatype KeyEnvelope<K> = KeyContent(content: Content<K>) | KeyBucket(bucketId: int32)

  /** A value envelope: the value itself, or a bucket of the key index. */
  datatype ValueEnvelope<V, B> = ValueContent(content: Content<V>) | ValueBucket(bucket: B)

  /** `KeySerializer.Serialize`: the tag byte, then the content or the bucket id. */
  function SerializeKey<K>(k: KeyEnvelope<K>, j: Json<K>): (r: Result<seq<byte>>)
    ensures r.Failure? <==> k == KeyContent(Raw(None))
    ensures r.Success? ==> |r.value| > 0 && r.value[0] == if k.KeyContent? then ContentTag else BucketTag
  {
    match k
    case KeyContent(c) =>
      (match SerializeContent(c, j)
       case Failure(e) => Failure(e)
       case Success(body) => Success([ContentTag] + body))
    case KeyBucket(id) => Success([BucketTag] + SerializeInt(id))
  }

  /** `KeySerializer.Deserialize`: branch on the tag byte; anything but the
      content tag (end of stream included) is read as a bucket id. */
  function DeserializeKey<K>(kind: ContentKind, data: seq<byte>, pos: nat, j: Json<K>, ints: Json<int32>)
    : (res: Result<(KeyEnvelope<K>, nat)>)
    ensures res.Success? && res.value.0.KeyContent? ==> res.value.0.content.Kind() == kind
  {
    var (tag, pos1) := ReadByte(data, pos);
    if tag == ContentTag as int then
      match DeserializeContent(kind, data, pos1, j, ints)
      case Failure(e) => Failure(e)
      case Success((c, pos2)) => Success((KeyContent(c), pos2))
    else
      match DeserializeInt(data, pos1)
      case Failure(e) => Failure(e)
      case Success((id, pos2)) => Success((KeyBucket(id), pos2))
  }

  /** A key content written at the position is read back up to its end. */
  lemma {:induction false} KeyContentAt<K(!new)>(data: seq<byte>, i: nat, c: Content<K>, j: Json<K>, ints: Json<int32>)
    requires Inverse(j)
    requires c.Kind() != IntKind && c != Raw(None)
    requires At(data, i, SerializeKey(KeyContent(c), j).value)
    ensures DeserializeKey(c.Kind(), data, i, j, ints)
         == Success((KeyContent(c), i + |SerializeKey(KeyContent(c), j).value|))
  {
    AtSplit(data, i, [ContentTag], SerializeContent(c, j).value);
    assert ReadByte(data, i) == (ContentTag as int, i + 1);
    ContentAt(data, i + 1, c, j, ints);
  }

  /** A bucket id written at the position is read back up to its end. */
  lemma {:induction false} KeyBucketAt<K>(data: seq<byte>, i: nat, id: int32, kind: ContentKind, j: Json<K>, ints: Json<int32>)
    requires At(data, i, SerializeKey(KeyBucket(id), j).value)
    ensures DeserializeKey(kind, data, i, j, ints)
         == Success((KeyBucket(id), i + |SerializeKey(KeyBucket(id), j).value|))
  {
    AtSplit(data, i, [BucketTag], SerializeInt(id));
    assert ReadByte(data, i) == (BucketTag as int, i + 1);
    IntAt(data, i + 1, id);
  }

  /** Every key envelope the writer accepts is read back up to its end
      (int-typed key contents excepted, see `IntContentMisread`). */
  lemma {:induction false} KeyAt<K(!new)>(data: seq<byte>, i: nat, k: KeyEnvelope<K>, kind: ContentKind, j: Json<K>, ints: Json<int32>)
    requires Inverse(j)
    requires k.KeyContent? ==> k.content.Kind() == kind && kind != IntKind && k.content != Raw(None)
    requires SerializeKey(k, j).Success? && At(data, i, SerializeKey(k, j).value)
    ensures DeserializeKey(kind, data, i, j, ints) == Success((k, i + |SerializeKey(k, j).value|))
  {
    match k
    case KeyContent(c) => KeyContentAt(data, i, c, j, ints);
    case KeyBucket(id) => KeyBucketAt(data, i, id, kind, j, ints);
  }

  /** `ValueSerializer.Serialize`: the tag byte, then either the framed payload
      of the content or the padded bucket. `ConsumeSerialized` is not part of
      this model; it is taken to yield the content payload the generic path
      writes. */
  function SerializeValue<V, B>(v: ValueEnvelope<V, B>, j: Json<V>, bj: Json<B>, p: int)
    : (r: Result<seq<byte>>)
    requires p > 0
    ensures r.Failure? <==> v == ValueContent(Raw(None))
    ensures r.Success? ==> |r.value| > 0 && r.value[0] == if v.ValueContent? then ContentTag else BucketTag
  {
    match v
    case ValueContent(c) =>
      (match Payload(c, j)
       case Failure(e) => Failure(e)
       case Success(payload) => Success([ContentTag] + Framed(payload)))
    case ValueBucket(b) => Success([BucketTag] + SerializeBucket(b, bj, p))
  }

  /** `ValueSerializer.Deserialize`: branch on the tag byte as the key reader does. */
  function DeserializeValue<V, B>(kind: ContentKind, data: seq<byte>, pos: nat, j: Json<V>, ints: Json<int32>,
                                  bj: Json<B>, p: int)
    : (res: Result<(ValueEnvelope<V, B>, nat)>)
    requires p > 0
    ensures res.Success? && res.value.0.ValueContent? ==> res.value.0.content.Kind() == kind
  {
    var (tag, pos1) := ReadByte(data, pos);
    if tag == ContentTag as int then
      match DeserializeContent(kind, data, pos1, j, ints)
      case Failure(e) => Failure(e)
      case Success((c, pos2)) => Success((ValueContent(c), pos2))
    else
      match DeserializeBucket(data, pos1, bj, p)
      case Failure(e) => Failure(e)
      case Success((b, pos2)) => Success((ValueBucket(b), pos2))
  }

  /** A content value written at the position is read back up to its end. */
  lemma {:induction false} ValueContentAt<V(!new), B>(data: seq<byte>, i: nat, c: Content<V>, j: Json<V>, ints: Json<int32>,
                                   bj: Json<B>, p: int)
    requires Inverse(j) && p > 0
    requires c.Kind() != IntKind && c != Raw(None)
    requires At(data, i, SerializeValue(ValueContent(c), j, bj, p).value)
    ensures DeserializeValue(c.Kind(), data, i, j, ints, bj, p)
         == Success((ValueContent(c), i + |SerializeValue(ValueContent(c), j, bj, p).value|))
  {
    var w := SerializeContent(c, j).value;
    assert SerializeValue(ValueContent(c), j, bj, p).value == [ContentTag] + w;
    AtSplit(data, i, [ContentTag], w);
    assert ReadByte(data, i) == (ContentTag as int, i + 1);
    ContentAt(data, i + 1, c, j, ints);
  }

  /** A bucket value written at the position is read back, one byte short of
      its end. */
  lemma {:induction false} ValueBucketAt<V, B(!new)>(data: seq<byte>, i: nat, b: B, kind: ContentKind, j: Json<V>, ints: Json<int32>,
                                  bj: Json<B>, p: int)
    requires Inverse(bj) && p > 0
    requires At(data, i, SerializeValue(ValueBucket(b), j, bj, p).value)
    ensures DeserializeValue(kind, data, i, j, ints, bj, p)
         == Success((ValueBucket(b), i + |SerializeValue(ValueBucket(b), j, bj, p).value| - 1))
  {
    var e := bj.encode(b);
    AtSplit(data, i, [BucketTag], SerializeBucket(b, bj, p));
    assert ReadByte(data, i) == (BucketTag as int, i + 1);
    AtSplit(data, i + 1, Framed(e), Zeros(ProduceCount(|e|, p)));
    BucketAt(data, i + 1, b, bj, p);
  }

  /** Every value envelope the writer accepts is read back. A content value is
      read up to the end of what was written; a bucket value, as written, up to
      one byte short of it (the extra padding byte). */
  lemma {:induction false} ValueAt<V(!new), B(!new)>(data: seq<byte>, i: nat, v: ValueEnvelope<V, B>, kind: ContentKind,
                                  j: Json<V>, ints: Json<int32>, bj: Json<B>, p: int)
    requires Inverse(j) && Inverse(bj) && p > 0
    requires v.ValueContent? ==> v.content.Kind() == kind && kind != IntKind && v.content != Raw(None)
    requires SerializeValue(v, j, bj, p).Success? && At(data, i, SerializeValue(v, j, bj, p).value)
    ensures DeserializeValue(kind, data, i, j, ints, bj, p)
         == Success((v, i + |SerializeValue(v, j, bj, p).value| - (if v.ValueBucket? then 1 else 0)))
  {
    match v
    case ValueContent(c) =>
      assert kind == c.Kind();
      ValueContentAt(data, i, c, j, ints, bj, p);
    case ValueBucket(b) => ValueBucketAt(data, i, b, kind, j, ints, bj, p);
  }
}

=== FILE: settings.dfy ===
/** Configuration: the `MemorySizes` units of FasterDictionary.API.cs, the
    `Options` of FasterDictionary.Options.cs, and the way the dictionary's
    constructor merges the caller's options into the defaults
    (FasterDictionary.cs). */
module Settings {
  import opened Wrappers

  // ---------------------------------------------------------------------------
  // MemorySizes: each member is the log2 of a byte count

  const MB4: int := 22
  const MB8: int := MB4 + 1
  const MB16: int := MB8 + 1
  const MB32: int := MB16 + 1
  const MB64: int := MB32 + 1
  const MB128: int := MB64 + 1
  const MB256: int := MB128 + 1
  const MB512: int := MB256 + 1
  const MB1024: int := MB512 + 1
  const GB1: int := MB1024
  const GB2: int := GB1 + 1

  /** 2 to the power `n`. */
  function Pow2(n: nat): (p: nat)
    ensures p >= 1
  {
    if n == 0 then 1 else 2 * Pow2(n - 1)
  }

  /** Powers of two add in the exponent. */
  lemma {:induction false} Pow2Add(a: nat, b: nat)
    ensures Pow2(a + b) == Pow2(a) * Pow2(b)
    decreases a
  {
    if a > 0 {
      Pow2Add(a - 1, b);
    }
  }

  /** One megabyte, 2^20 bytes. */
  const MB: nat := 0x10_0000

  /** Each MBk member is log2 of k megabytes, GB1 names the same size as
      MB1024 and GB2 is two gigabytes. */
  lemma MemorySizesAreLog2()
    ensures Pow2(MB4) == 4 * MB && Pow2(MB8) == 8 * MB && Pow2(MB16) == 16 * MB
    ensures Pow2(MB32) == 32 * MB && Pow2(MB64) == 64 * MB && Pow2(MB128) == 128 * MB
    ensures Pow2(MB256) == 256 * MB && Pow2(MB512) == 512 * MB && Pow2(MB1024) == 1024 * MB
    ensures GB1 == MB1024 && Pow2(GB2) == 2048 * MB
  {
    assert Pow2(2) == 4;
    assert Pow2(20) == MB by {
      assert Pow2(10) == 1024;
      Pow2Add(10, 10);
    }
    assert Pow2(22) == 4 * MB;
    assert Pow2(23) == 8 * MB;
    assert Pow2(24) == 16 * MB;
    assert Pow2(25) == 32 * MB;
    assert Pow2(26) == 64 * MB;
    assert Pow2(27) == 128 * MB;
    assert Pow2(28) == 256 * MB;
    assert Pow2(29) == 512 * MB;
    assert Pow2(30) == 1024 * MB;
    assert Pow2(31) == 2048 * MB;
  }

  // ---------------------------------------------------------------------------
  // Options

  /** FASTER's `CheckpointType`; `Snapshot` is its zero member. */
  datatype CheckpointType = Snapshot | FoldOver

  /** `Options`. Reference fields are `None` when null. A size field holds the
      underlying value of its `MemorySizes` member; 0 is the struct default
      and names no member. */
  datatype Options<C, L> = Options(
    persistDirectoryPath: Option<string>,
    dictionaryName: Option<string>,
    keyComparer: Option<C>,
    segmentSize: int,
    pageSize: int,
    memorySize: int,
    logger: Option<L>,
    deleteOnClose: bool,
    checkPointType: CheckpointType)

  /** `default(Options)`: every field at its zero value. */
  function Zero<C, L>(): (o: Options<C, L>)
    ensures o.persistDirectoryPath.None? && o.dictionaryName.None?
    ensures o.keyComparer.None? && o.logger.None?
    ensures o.segmentSize == 0 && o.pageSize == 0 && o.memorySize == 0
    ensures !o.deleteOnClose && o.checkPointType == Snapshot
  {
    Options(None, None, None, 0, 0, 0, None, false, Snapshot)
  }

  /** `Options.Default`: 16 MB of memory, 4 MB pages, 8 MB segments, every other
      field at its zero value. */
  function Default<C, L>(): (o: Options<C, L>)
    ensures o.memorySize == MB16 && o.pageSize == MB4 && o.segmentSize == MB8
    ensures o.persistDirectoryPath.None? && o.dictionaryName.None?
    ensures o.keyComparer.None? && o.logger.None?
    ensures !o.deleteOnClose && o.checkPointType == Snapshot
  {
    Zero<C, L>().(memorySize := MB16, pageSize := MB4, segmentSize := MB8)
  }

  /** The constructor's merge: without a persist directory the caller's options
      are ignored; with one, the reference fields and `DeleteOnClose` are
      copied, the checkpoint type only when it is not `Snapshot`, and each size
      only when it is not 0. */
  function Merge<C, L>(options: Options<C, L>): (r: Options<C, L>)
  {
    var d := Default<C, L>();
    if options.persistDirectoryPath.None? then d
    else
      var r := d.(deleteOnClose := options.deleteOnClose,
                   dictionaryName := options.dictionaryName,
                   keyComparer := options.keyComparer,
                   logger := options.logger,
                   persistDirectoryPath := options.persistDirectoryPath);
      var r := if options.checkPointType != Snapshot then r.(checkPointType := options.checkPointType) else r;
      var r := if options.memorySize != 0 then r.(memorySize := options.memorySize) else r;
      var r := if options.pageSize != 0 then r.(pageSize := options.pageSize) else r;
      if options.segmentSize != 0 then r.(segmentSize := options.segmentSize) else r
  }

  /** A size after the merge: the caller's when given, the default's when 0. */
  predicate SizeMerged(given: int, default: int, merged: int)
  {
    (given != 0 ==> merged == given) && (given == 0 ==> merged == default)
  }

  /** What the merge promises. Without a persist directory the result is exactly
      `Default`. With one, the caller's path, name, comparer, logger and
      `DeleteOnClose` are kept, every size is the caller's unless that is 0,
      and, because the default checkpoint type is `Snapshot` itself, the
      caller's checkpoint type always survives. No size is 0 afterwards. */
  lemma {:induction false} MergeKeepsCallerOptions<C, L>(options: Options<C, L>)
    ensures var r := Merge(options);
            (options.persistDirectoryPath.None? ==> r == Default()) &&
            (options.persistDirectoryPath.Some? ==>
              r.persistDirectoryPath == options.persistDirectoryPath &&
              r.dictionaryName == options.dictionaryName &&
              r.keyComparer == options.keyComparer &&
              r.logger == options.logger &&
              r.deleteOnClose == options.deleteOnClose &&
              r.checkPointType == options.checkPointType &&
              SizeMerged(options.memorySize, MB16, r.memorySize) &&
              SizeMerged(options.pageSize, MB4, r.pageSize) &&
              SizeMerged(options.segmentSize, MB8, r.segmentSize)) &&
            r.memorySize != 0 && r.pageSize != 0 && r.segmentSize != 0
  {
  }

  /** Merging is idempotent: merged options merge to themselves. */
  lemma {:induction false} MergeIdempotent<C, L>(options: Options<C, L>)
    ensures Merge(Merge(options)) == Merge(options)
  {
  }

  // ---------------------------------------------------------------------------
  // Log settings

  /** The log's `SegmentSizeBits`, `PageSizeBits` and `MemorySizeBits`. */
  datatype LogSettings = LogSettings(segmentSizeBits: int, pageSizeBits: int, memorySizeBits: int)

  /** The size fields are handed to the log as bit counts, unchanged. */
  function LogSettingsOf<C, L>(options: Options<C, L>): (s: LogSettings)
    ensures s.segmentSizeBits == options.segmentSize
    ensures s.pageSizeBits == options.pageSize
    ensures s.memorySizeBits == options.memorySize
  {
    LogSettings(options.segmentSize, options.pageSize, options.memorySize)
  }

  /** With the default options a page (4 MB) is smaller than a segment (8 MB),
      which is smaller than the in-memory log (16 MB). */
  lemma {:induction false} DefaultLogLayout<C, L>()
    ensures var s := LogSettingsOf(Default<C, L>());
            s.pageSizeBits == 22 && s.segmentSizeBits == 23 && s.memorySizeBits == 24 &&
            Pow2(s.pageSizeBits) < Pow2(s.segmentSizeBits) < Pow2(s.memorySizeBits)
  {
    MemorySizesAreLog2();
  }
}

=== FILE: snapshot.dfy ===
/** The pure parts of snapshot iteration (FasterDictionary.Iterator.cs).

    Acquiring an iterator replays the live log, from its begin address to its
    tail, into a temporary key-only store: a tombstone deletes the key there,
    any other record upserts it. The temporary store is itself a log, kept in
    memory, so its engine updates records in place: an upsert of a key that
    is already live changes nothing, and a delete marks the key's latest
    record as a tombstone (or appends a tombstone when the key has no record).
    The iterator then walks the temporary log, skipping tombstones, so that
    every live key comes out once. */
module Snapshot {
  import opened Wrappers
  import opened Engine
  import opened Jobs

  // ---------------------------------------------------------------------------
  // The temporary store

  /** A record of the temporary log: a key and its tombstone bit. */
  datatype TempRecord<K> = TempRecord(key: K, tombstone: bool)

  /** The index of the latest record for `k`, if any. */
  function Latest<K(==)>(temp: seq<TempRecord<K>>, k: K): (r: Option<nat>)
    ensures r.Some? ==> r.value < |temp| && temp[r.value].key == k
    ensures r.Some? ==> forall j :: r.value < j < |temp| ==> temp[j].key != k
    ensures r.None? ==> forall j :: 0 <= j < |temp| ==> temp[j].key != k
    decreases |temp|
  {
    if |temp| == 0 then None
    else if temp[|temp| - 1].key == k then Some(|temp| - 1)
    else Latest(temp[..|temp| - 1], k)
  }

  /** `k` has a record that is not a tombstone. */
  ghost predicate Live<K>(temp: seq<TempRecord<K>>, k: K)
  {
    exists i :: 0 <= i < |temp| && temp[i].key == k && !temp[i].tombstone
  }

  /** Every record of a key except its latest is a tombstone; so a key has at
      most one live record, and it is the latest. */
  ghost predicate WellFormed<K>(temp: seq<TempRecord<K>>)
  {
    forall i, j :: 0 <= i < j < |temp| && temp[i].key == temp[j].key ==> temp[i].tombstone
  }

  /** Upsert into the temporary store: a live key is overwritten in place with
      the same stub, which changes nothing; any other key gets a new record. */
  function TempUpsert<K(==)>(temp: seq<TempRecord<K>>, k: K): seq<TempRecord<K>>
  {
    match Latest(temp, k)
    case Some(i) => if !temp[i].tombstone then temp else temp + [TempRecord(k, false)]
    case None => temp + [TempRecord(k, false)]
  }

  /** Delete from the temporary store: the key's latest record becomes a
      tombstone in place; a key with no record gets a tombstone record. */
  function TempDelete<K(==)>(temp: seq<TempRecord<K>>, k: K): seq<TempRecord<K>>
  {
    match Latest(temp, k)
    case Some(i) => temp[i := TempRecord(k, true)]
    case None => temp + [TempRecord(k, true)]
  }

  /** An upsert keeps the store well formed and makes exactly `k` live besides
      the keys that already were. */
  lemma {:induction false} TempUpsertLive<K>(temp: seq<TempRecord<K>>, k: K)
    requires WellFormed(temp)
    ensures WellFormed(TempUpsert(temp, k))
    ensures forall k' :: Live(TempUpsert(temp, k), k') <==> Live(temp, k') || k' == k
  {
    var after := TempUpsert(temp, k);
    if after != temp {
      assert after == temp + [TempRecord(k, false)];
      assert after[|temp|].key == k && !after[|temp|].tombstone;
      forall k' | Live(after, k')
        ensures Live(temp, k') || k' == k
      {
        var i :| 0 <= i < |after| && after[i].key == k' && !after[i].tombstone;
        if i < |temp| {
          assert temp[i] == after[i];
        }
      }
      forall k' | Live(temp, k')
        ensures Live(after, k')
      {
        var i :| 0 <= i < |temp| && temp[i].key == k' && !temp[i].tombstone;
        assert after[i] == temp[i];
      }
    } else {
      var i := Latest(temp, k).value;
      assert temp[i].key == k && !temp[i].tombstone;
    }
  }

  /** A delete keeps the store well formed and takes exactly `k` out of the
      live keys. */
  lemma {:induction false} TempDeleteLive<K>(temp: seq<TempRecord<K>>, k: K)
    requires WellFormed(temp)
    ensures WellFormed(TempDelete(temp, k))
    ensures forall k' :: Live(TempDelete(temp, k), k') <==> Live(temp, k') && k' != k
  {
    var after := TempDelete(temp, k);
    forall k' | Live(after, k')
      ensures Live(temp, k') && k' != k
    {
      var j :| 0 <= j < |after| && after[j].key == k' && !after[j].tombstone;
      assert j < |temp| && after[j] == temp[j];
    }
    forall k' | Live(temp, k') && k' != k
      ensures Live(after, k')
    {
      var j :| 0 <= j < |temp| && temp[j].key == k' && !temp[j].tombstone;
      assert after[j] == temp[j];
    }
  }

  // ---------------------------------------------------------------------------
  // Acquire: replaying the live log

  /** The temporary store after replaying live-log records in order: a
      tombstone deletes, any other record upserts. */
  function Rebuild<K(==), V>(records: seq<Record<K, V>>): seq<TempRecord<K>>
    decreases |records|
  {
    if |records| == 0 then []
    else
      var before := Rebuild(records[..|records| - 1]);
      match records[|records| - 1]
      case Tomb(k) => TempDelete(before, k)
      case Put(k, _) => TempUpsert(before, k)
  }

  /** After the replay a key is live in the temporary store exactly when its
      last record in the live log is not a tombstone — exactly when it is in
      the store the log stands for — and the temporary store is well formed. */
  lemma {:induction false} RebuildMatchesReplay<K, V>(records: seq<Record<K, V>>)
    ensures WellFormed(Rebuild(records))
    ensures forall k :: Live(Rebuild(records), k) <==> k in Replay(records)
    ensures forall k :: Live(Rebuild(records), k) <==> Lookup(records, k).Some?
    decreases |records|
  {
    if |records| > 0 {
      var init := records[..|records| - 1];
      RebuildMatchesReplay(init);
      match records[|records| - 1]
      case Tomb(k) => TempDeleteLive(Rebuild(init), k);
      case Put(k, _) => TempUpsertLive(Rebuild(init), k);
    }
    forall k ensures k in Replay(records) <==> Lookup(records, k).Some? {
      ReplayLookup(records, k);
    }
  }

  // ---------------------------------------------------------------------------
  // LogScanForValidity

  /** The safe-read-only address as read for the `n`-th time: the reads are
      `observed` in order, and the address stays at the last one. */
  function Observe(observed: seq<nat>, n: nat): nat
    requires |observed| > 0
  {
    if n < |observed| then observed[n] else observed[|observed| - 1]
  }

  /** The engine's promise about the address: it never moves back and never
      passes the tail. */
  predicate Observable(observed: seq<nat>, tail: nat)
  {
    && |observed| > 0
    && (forall i, j :: 0 <= i <= j < |observed| ==> observed[i] <= observed[j])
    && (forall i :: 0 <= i < |observed| ==> observed[i] <= tail)
  }

  /** Later reads see an address at least as high, and never past the tail. */
  lemma {:induction false} ObserveMonotone(observed: seq<nat>, tail: nat, a: nat, b: nat)
    requires Observable(observed, tail) && a <= b
    ensures Observe(observed, a) <= Observe(observed, b) <= tail
  {
  }

  /** Some record in `records[lo..hi]` has key `k`. */
  ghost predicate KeySeen<K, V>(records: seq<Record<K, V>>, lo: nat, hi: nat, k: K)
    requires lo <= hi <= |records|
  {
    exists j :: lo <= j < hi && records[j].key == k
  }

  /** `after` is `before` with every key of `records[lo..hi]` deleted. */
  ghost predicate DeletedSeen<K(!new), V>(before: seq<TempRecord<K>>, after: seq<TempRecord<K>>,
                              records: seq<Record<K, V>>, lo: nat, hi: nat)
    requires lo <= hi <= |records|
  {
    && WellFormed(after)
    && forall k :: Live(after, k) <==> Live(before, k) && !KeySeen(records, lo, hi, k)
  }

  /** Extending a deletion by one more record. */
  lemma {:induction false} DeletedSeenStep<K(!new), V>(before: seq<TempRecord<K>>, mid: seq<TempRecord<K>>,
                              records: seq<Record<K, V>>, lo: nat, j: nat)
    requires lo <= j < |records|
    requires DeletedSeen(before, mid, records, lo, j)
    ensures DeletedSeen(before, TempDelete(mid, records[j].key), records, lo, j + 1)
  {
    TempDeleteLive(mid, records[j].key);
    forall k ensures KeySeen(records, lo, j + 1, k) <==> KeySeen(records, lo, j, k) || records[j].key == k {
      if KeySeen(records, lo, j + 1, k) && records[j].key != k {
        var i :| lo <= i < j + 1 && records[i].key == k;
        assert i < j;
      }
    }
  }

  /** `LogScanForValidity`: while the scan has not caught up with the
      safe-read-only address, scan the next window — from where the previous
      one ended up to the address as now read — and delete every key found
      there from the temporary store. Returns the final `untilAddress`, the
      final `scanUntil`, the temporary store and how often the address was
      read. */
  method LogScanForValidity<K(==,!new), V>(records: seq<Record<K, V>>, untilAddress: nat, scanUntil: nat,
                                      temp: seq<TempRecord<K>>, observed: seq<nat>)
    returns (until': nat, scanUntil': nat, temp': seq<TempRecord<K>>, readCount: nat)
    requires scanUntil <= |records| && WellFormed(temp)
    requires Observable(observed, |records|)
    ensures scanUntil <= scanUntil' <= |records|
    ensures readCount >= 1 && scanUntil' >= Observe(observed, readCount - 1)
    ensures until' == untilAddress || scanUntil <= until' < scanUntil'
    ensures DeletedSeen(temp, temp', records, scanUntil, scanUntil')
    ensures scanUntil >= Observe(observed, 0) ==>
              until' == untilAddress && scanUntil' == scanUntil && temp' == temp && readCount == 1
  {
    until', scanUntil', temp' := untilAddress, scanUntil, temp;
    var n := 0;
    assert DeletedSeen(temp, temp', records, scanUntil, scanUntil');
    while scanUntil' < Observe(observed, n)
      invariant scanUntil <= scanUntil' <= |records|
      invariant until' == untilAddress || scanUntil <= until' < scanUntil'
      invariant DeletedSeen(temp, temp', records, scanUntil, scanUntil')
      invariant n == 0 ==> until' == untilAddress && scanUntil' == scanUntil && temp' == temp
      invariant n > 0 ==> scanUntil < Observe(observed, 0)
      decreases |records| - scanUntil'
    {
      ObserveMonotone(observed, |records|, n, n + 1);
      until' := scanUntil';
      scanUntil' := Observe(observed, n + 1);
      n := n + 2;
      var j := until';
      while j < scanUntil'
        invariant until' <= j <= scanUntil'
        invariant DeletedSeen(temp, temp', records, scanUntil, j)
      {
        DeletedSeenStep(temp, temp', records, scanUntil, j);
        temp' := TempDelete(temp', records[j].key);
        j := j + 1;
      }
    }
    readCount := n + 1;
  }

  /** The acquire handler's replay and scan: the live log from its begin
      address to its tail is replayed into a new temporary store, and the scan
      starts with `untilAddress` and `scanUntil` both at the tail. Since the
      safe-read-only address never passes the tail, the scan reads the
      address once, deletes nothing and moves neither bound: the temporary
      store is the plain replay. */
  method ScanFromTailIsIdle<K(==,!new), V>(log: Log<K, V>, observed: seq<nat>)
    returns (temp: seq<TempRecord<K>>, untilAddress: nat, scanUntil: nat, readCount: nat)
    requires Observable(observed, log.Tail())
    ensures temp == Rebuild(log.records[Begin..log.Tail()])
    ensures untilAddress == log.Tail() && scanUntil == log.Tail() && readCount == 1
  {
    var replayed := Rebuild(log.records[Begin..log.Tail()]);
    RebuildMatchesReplay(log.records[Begin..log.Tail()]);
    untilAddress, scanUntil, temp, readCount := LogScanForValidity(log.records, log.Tail(), log.Tail(), replayed, observed);
  }

  // ---------------------------------------------------------------------------
  // The key iterator

  /** `GetNext` on the temporary log from `pos`, skipping tombstones: the next
      live key and the position after it, or `None` once the log is done. */
  function Next<K>(temp: seq<TempRecord<K>>, pos: nat): (r: Option<(K, nat)>)
    ensures r.Some? ==> pos < r.value.1 <= |temp| && temp[r.value.1 - 1].key == r.value.0
    ensures r.Some? ==> !temp[r.value.1 - 1].tombstone
    ensures r.Some? ==> forall i :: pos <= i < r.value.1 - 1 ==> temp[i].tombstone
    ensures r.None? ==> forall i :: pos <= i < |temp| ==> temp[i].tombstone
    decreases |temp| - pos
  {
    if pos >= |temp| then None
    else if temp[pos].tombstone then Next(temp, pos + 1)
    else Some((temp[pos].key, pos + 1))
  }

  /** The keys the iterator hands out from `pos` until it is exhausted. */
  function Enumerate<K>(temp: seq<TempRecord<K>>, pos: nat): seq<K>
    decreases |temp| - pos
  {
    match Next(temp, pos)
    case None => []
    case Some((k, pos')) => [k] + Enumerate(temp, pos')
  }

  /** The iterator hands out a key iff it has a live record at or after `pos`;
      on a well-formed store it never hands out a key twice. */
  lemma {:induction false} EnumerateLive<K>(temp: seq<TempRecord<K>>, pos: nat)
    requires WellFormed(temp)
    ensures forall k :: k in Enumerate(temp, pos) <==>
              exists i :: pos <= i < |temp| && temp[i].key == k && !temp[i].tombstone
    ensures forall a, b :: 0 <= a < b < |Enumerate(temp, pos)| ==>
              Enumerate(temp, pos)[a] != Enumerate(temp, pos)[b]
    decreases |temp| - pos
  {
    match Next(temp, pos)
    case None =>
    case Some((k, pos')) =>
      EnumerateLive(temp, pos');
      var rest := Enumerate(temp, pos');
      assert Enumerate(temp, pos) == [k] + rest;
      forall k' ensures k' in Enumerate(temp, pos) <==>
                exists i :: pos <= i < |temp| && temp[i].key == k' && !temp[i].tombstone
      {
        if exists i :: pos <= i < |temp| && temp[i].key == k' && !temp[i].tombstone {
          var i :| pos <= i < |temp| && temp[i].key == k' && !temp[i].tombstone;
          assert i >= pos' - 1;
        }
      }
      assert k !in rest;
  }

  /** Enumerating a snapshot yields every key of the store the live log stood
      for at acquire time, and each of them once. */
  lemma {:induction false} SnapshotEnumeratesStore<K, V>(records: seq<Record<K, V>>)
    ensures var keys := Enumerate(Rebuild(records), 0);
            (forall k :: k in keys <==> k in Replay(records)) &&
            (forall a, b :: 0 <= a < b < |keys| ==> keys[a] != keys[b])
  {
    RebuildMatchesReplay(records);
    EnumerateLive(Rebuild(records), 0);
  }

  // ---------------------------------------------------------------------------
  // KeyComparerAdapter.GetBucketId

  /** The number of buckets. */
  const BucketCount: int := 512

  /** C#'s `/`: the quotient is rounded toward zero. */
  function TruncDiv(a: int, b: int): int
    requires b > 0
  {
    if a >= 0 then a / b else -((-a) / b)
  }

  /** C#'s `%`: the remainder takes the sign of the dividend and completes the
      rounded-toward-zero quotient. */
  function TruncRem(a: int, b: int): (r: int)
    requires b > 0
    ensures a >= 0 ==> 0 <= r < b
    ensures a < 0 ==> -b < r <= 0
    ensures a == b * TruncDiv(a, b) + r
  {
    if a >= 0 then a % b
    else
      var q := (-a) / b;
      assert b * -q == -(b * q);
      -((-a) % b)
  }

  /** A 64-bit hash. */
  predicate IsInt64(h: int)
  {
    -0x8000_0000_0000_0000 <= h < 0x8000_0000_0000_0000
  }

  /** `GetBucketId`: the hash's remainder by the bucket count, plus one. The
      result lies in [1, 512] for a non-negative hash; a negative hash gives a
      value in [-510, 1]. Either way it is one more than the remainder
      the hash leaves after the quotient rounded toward zero. */
  function GetBucketId(hash: int): (id: int)
    requires IsInt64(hash)
    ensures hash >= 0 ==> 1 <= id <= BucketCount
    ensures hash < 0 ==> -BucketCount + 2 <= id <= 1
    ensures hash == BucketCount * TruncDiv(hash, BucketCount) + (id - 1)
  {
    TruncRem(hash, BucketCount) + 1
  }

  /** A negative hash can reach bucket 0 and below. */
  lemma NegativeHashBucket()
    ensures GetBucketId(-1) == 0 && GetBucketId(-511) == -510 && GetBucketId(-512) == 1
  {
  }

  // ---------------------------------------------------------------------------
  // AsyncEnumerator.MoveNextAsync

  /** What a `MoveNextAsync` call leaves behind: the job queue, and what the
      call returns or throws. */
  datatype Moved<K, V> = Moved(queue: seq<Job<K, V>>, answer: Result<(bool, Option<(Option<K>, Option<V>)>)>)

  /** `MoveNextAsync`. It first awaits `start`, the acquire the enumerator
      sent when it was created: a failed acquire is thrown again, and no
      iterate job is sent. Otherwise one iterate job joins the queue, and once
      it has settled with `o` the call returns false when nothing was found,
      or true with the result's key and value as `Current`; a failed iterate
      job makes the await throw. Returns the queue and the call's result. */
  function MoveNext<K, V>(start: Outcome<K, V>, queue: seq<Job<K, V>>, o: Outcome<K, V>): (r: Moved<K, V>)
    requires !start.Waiting? && (start.Done? ==> !o.Waiting?)
    ensures start.Failed? ==> r == Moved(queue, Failure(start.message))
    ensures start.Done? ==> r.queue == queue + [NewJob(IterateJob)]
    ensures start.Done? ==> (r.answer.Failure? <==> o.Failed?) && (o.Failed? ==> r.answer.error == o.message)
    ensures start.Done? && o.Done? ==> (r.answer.value.0 <==> o.found)
    ensures start.Done? && o.Done? && o.found ==> r.answer.value.1 == Some((o.key, o.value))
    ensures start.Done? && o.Done? && !o.found ==> r.answer.value.1.None?
  {
    match start
    case Failed(m) => Moved(queue, Failure(m))
    case Done(_, _, _) =>
      var queue' := queue + [NewJob(IterateJob)];
      match o
      case Failed(m) => Moved(queue', Failure(m))
      case Done(found, k, v) =>
        if !found then Moved(queue', Success((false, None))) else Moved(queue', Success((true, Some((k, v)))))
  }
}

=== FILE: stringarrays.dfy ===
/** The `StringArrayComparer` of the tests' TestHelper.cs: equality and a 64-bit
    hash for `string[]` keys, as the dictionary's key comparer.

    A null array or a null string is `None`. C# strings are sequences of UTF-16
    code units; here a string is a `seq<char>` and `(byte)c` keeps the low eight
    bits of the character's code. Every `int` sum and product wraps. */
module StringArrays {
  import opened Wrappers
  import opened Bytes

  type Str = Option<string>
  type StringArray = Option<seq<Str>>

  /** The message of the `NullReferenceException` that reading the length of
      a null array throws. */
  const NullReference: string := "Object reference not set to an instance of an object."

  /** `Equals(ref k1, ref k2)`: a null first array equals only a null second
      one; against a non-null first array a null second one throws; otherwise
      the lengths and then the strings, last index first, are compared by
      value. */
  method Equals(k1: StringArray, k2: StringArray) returns (r: Result<bool>)
    ensures k1.None? ==> r == Success(k2.None?)
    ensures k1.Some? && k2.None? ==> r == Failure(NullReference)
    ensures k1.Some? && k2.Some? ==> r == Success(k1.value == k2.value)
  {
    if k1.None? {
      return Success(k2.None?);
    }
    if k2.None? {
      return Failure(NullReference);
    }
    var a, b := k1.value, k2.value;
    if |a| != |b| {
      return Success(false);
    }
    var i := |a| - 1;
    while i >= 0
      invariant -1 <= i < |a|
      invariant a[i + 1..] == b[i + 1..]
      decreases i
    {
      if a[i] != b[i] {
        return Success(false);
      }
      assert a[i..] == [a[i]] + a[i + 1..];
      assert b[i..] == [b[i]] + b[i + 1..];
      i := i - 1;
    }
    return Success(true);
  }

  // ---------------------------------------------------------------------------
  // Hashes

  /** The string hash on unbounded integers: start at `seed` and, for each
      character's low byte `c` in order, go from `r` to `r * c + c`. */
  function Horner(seed: int, s: string): int
    decreases |s|
  {
    if |s| == 0 then seed
    else
      var c := ToByte(s[|s| - 1] as int);
      Horner(seed, s[..|s| - 1]) * c + c
  }

  /** The hash of one string element: 1 for null, otherwise the unbounded
      Horner value from the string's length, wrapped once at the end. */
  function StrHash(str: Str): int32
  {
    match str
    case None => 1
    case Some(s) => Wrap32(Horner(|s|, s))
  }

  /** The unbounded sum of the element hashes. */
  function Sum(a: seq<Str>): int
    decreases |a|
  {
    if |a| == 0 then 0 else Sum(a[..|a| - 1]) + StrHash(a[|a| - 1])
  }

  /** The array hash as a definition: 0 for null, otherwise the length plus
      every element's hash, wrapped once at the end. */
  function ArrayHash(k: StringArray): int32
  {
    match k
    case None => 0
    case Some(a) => Wrap32(|a| + Sum(a))
  }

  /** Wrapping after each `r * c + c` step is wrapping once at the end. */
  lemma {:induction false} Wrap32Step(a: int, c: int)
    ensures Wrap32(Wrap32(a) * c + c) == Wrap32(a * c + c)
  {
    var w, k := Wrap32(a), WrapLaps(a);
    Wrap32Congruent(a);
    assert a * c + c == w * c + c + 0x1_0000_0000 * (k * c) by {
      MulDistributes(w, 0x1_0000_0000 * k, c);
    }
    Wrap32Laps(w * c + c, k * c);
  }

  /** Multiplication distributes over addition. */
  lemma {:induction false} MulDistributes(w: int, d: int, c: int)
    ensures (w + d) * c == w * c + d * c
  {
  }

  /** Moving by whole multiples of 2^32 does not change the wrapped value. */
  lemma {:induction false} Wrap32Laps(x: int, j: int)
    ensures Wrap32(x + 0x1_0000_0000 * j) == Wrap32(x)
  {
    Wrap32Congruent(x);
    Wrap32Unique(x + 0x1_0000_0000 * j, Wrap32(x), WrapLaps(x) + j);
  }

  /** `GetHashCode(ref str)`: 1 for a null string; otherwise start at the
      length and, in 32-bit arithmetic, go from `r` to `r * c + c` for each
      character's low byte `c`. The result is the unbounded computation
      wrapped once. */
  method StringHashCode(str: Str) returns (h: int32)
    ensures str.None? ==> h == 1
    ensures str.Some? ==> h == Wrap32(Horner(|str.value|, str.value))
  {
    if str.None? {
      return 1;
    }
    var s := str.value;
    var r: int32 := Wrap32(|s|);
    var i := 0;
    while i < |s|
      invariant 0 <= i <= |s|
      invariant r == Wrap32(Horner(|s|, s[..i]))
    {
      var c := ToByte(s[i] as int);
      assert s[..i + 1][..i] == s[..i];
      Wrap32Step(Horner(|s|, s[..i]), c);
      r := Wrap32(r * c + c);
      i := i + 1;
    }
    assert s[..i] == s;
    return r;
  }

  /** `GetHashCode64(ref k)`: 0 for a null array; otherwise start at the length
      and add each element's hash in 32-bit arithmetic; the `int` is widened
      to `long`. The result is the array hash of the definition. */
  method ArrayHashCode(k: StringArray) returns (h: int64)
    ensures h == ArrayHash(k)
    ensures k.None? ==> h == 0
  {
    if k.None? {
      return 0;
    }
    var a := k.value;
    var r: int32 := Wrap32(|a|);
    var i := 0;
    while i < |a|
      invariant 0 <= i <= |a|
      invariant r == Wrap32(|a| + Sum(a[..i]))
    {
      var e := StringHashCode(a[i]);
      assert a[..i + 1][..i] == a[..i];
      Wrap32Add(|a| + Sum(a[..i]), e);
      r := Wrap32(r + e);
      i := i + 1;
    }
    assert a[..i] == a;
    return r;
  }

  /** The comparer's contract: arrays `Equals` reports equal get equal
      hashes, and an array always equals itself. */
  method CompareAndHash(k1: StringArray, k2: StringArray) returns (eq: Result<bool>, h1: int64, h2: int64)
    ensures eq == Success(true) ==> h1 == h2
    ensures k1 == k2 ==> eq == Success(true)
  {
    eq := Equals(k1, k2);
    h1 := ArrayHashCode(k1);
    h2 := ArrayHashCode(k2);
  }

  /** The element sum is additive over concatenation. */
  lemma {:induction false} SumAppend(a: seq<Str>, b: seq<Str>)
    ensures Sum(a + b) == Sum(a) + Sum(b)
    decreases |b|
  {
    if |b| == 0 {
      assert a + b == a;
    } else {
      var init := b[..|b| - 1];
      SumAppend(a, init);
      assert (a + b)[..|a + b| - 1] == a + init;
    }
  }

  /** The hash ignores the order of the elements' blocks: two arrays made of the
      same two parts, in either order, collide. */
  lemma {:induction false} SwappedPartsCollide(a: seq<Str>, b: seq<Str>)
    ensures ArrayHash(Some(a + b)) == ArrayHash(Some(b + a))
  {
    SumAppend(a, b);
    SumAppend(b, a);
  }

  /** The string hash sees only each character's low byte: strings of the same
      length whose characters agree in their low bytes hash alike. */
  lemma {:induction false} LowBytesDecideHash(seed: int, s: string, t: string)
    requires |s| == |t|
    requires forall i :: 0 <= i < |s| ==> ToByte(s[i] as int) == ToByte(t[i] as int)
    ensures Horner(seed, s) == Horner(seed, t)
    decreases |s|
  {
    if |s| > 0 {
      LowBytesDecideHash(seed, s[..|s| - 1], t[..|t| - 1]);
    }
  }
}

=== FILE: wrappers.dfy ===
/** Option and Result, the failure-carrying datatypes the rest of the model uses
    for C#'s null references and thrown exceptions. */
module Wrappers {

  /** `None` stands for a C# null (or a default value), `Some` for a present one. */
  datatype Option<+T> = None | Some(value: T)

  /** `Failure` carries the message of the exception the source would throw. */
  datatype Result<+T> = Success(value: T) | Failure(error: string)
}
